=== FILE: README.md ===
# Hamster racing game — gameplay core in Dafny

This project models the gameplay core of an Unreal Engine 5 racing game. The
player drives a hamster around a waypoint track against AI racers. The
modelled parts are:

- **Containers.** The hand-written linked list `TempLinkedList` and its actor
  wrapper `UCustomLinkedList`. The checkpoint stack `CheckStackTemp`, the
  dialogue queue `TDialogueQueueTemp`, the chained hash map `TempHashMap`,
  the audio table `UHashMap`, and the waypoint graph `AGraph`.
- **Race flow.**
  - `AWaypointManager` and `AAdvancedRaceManager`, which wires the
    hard-coded track graph.
  - The leaderboard of `ABeginnerRaceGameState` and the checkpoint stack of
    `ACheckpointManager`.
  - Lap counting in `AAIRacerContoller` and `APlayerHamster`.
  - The AI racer attributes and spawning of `AAIRacer` and `AAIRacerFactory`.
  - Speed pickups and the spectator state machine.
- **Dialogue and HUD.** Loading dialogue from JSON (`UDialogue_Data`). The
  typewriter effect and level choice in `UDialogueWidget`. The strings shown
  by `UEndUIWidget`, `UBeginnerRaceHUD` and `URaceHUDWidget`.

Every pointer-based structure is a value here:

- A node chain is a datatype with an abstraction function (`Contents`,
  `Items`, `Lookup`).
- Each operation is a pure function from the old value to the new one.
- Each operation's contract is stated on the abstraction.

Actors are `Base.Actor` values. A raw pointer is `Base.Ref` (null or an
actor). The engine's liveness test (`IsValidLowLevel`) is a parameter
`valid: Actor -> bool`. Random draws (`FMath::FRand`, `RandRange`) are
parameters too, as is the engine's pointer hash (`GetTypeHash`).

Engine string semantics are modelled in `Text`:

- `FString::Contains`, `FString ==` and `FName` comparison ignore ASCII letter case.
- `%d` / `FromInt` produce the shortest decimal spelling, with a leading
  minus sign for negative values.
- `%02d` pads with a zero.

## Model

| member | source | states |
|---|---|---|
| LinkedList.Empty | Source/GADE_POE/TempLinkedList.h:26 | a new list is well formed and holds nothing |
| LinkedList.Add | Source/GADE_POE/TempLinkedList.h:33-50 | appending puts the value at the end of the contents and bumps the count by one; well-formedness is kept |
| LinkedList.GetAt | Source/GADE_POE/TempLinkedList.h:52-66 | an in-range index yields that element; a negative or too-large index yields the default value |
| LinkedList.GetCount | Source/GADE_POE/TempLinkedList.h:68-71 | the count equals the number of stored elements |
| LinkedList.Clear | Source/GADE_POE/TempLinkedList.h:73-84 | after clearing, the list is well formed and empty |
| LinkedList.AddThenGetAt | Source/GADE_POE/TempLinkedList.h:33-66 | after Add, the new index reads back the added value and older indices read back what they held |
| LinkedList.GetAtAfterAdds | Source/GADE_POE/TempLinkedList.h:33-66 | a list built by n Adds reads back xs[i] at each i < n and the default value elsewhere |
| LinkedList.Find | Source/GADE_POE/TempHashMap.h:40-48 | the index of the first element matching the predicate, or none when no element matches |
| LinkedList.Remove | Source/GADE_POE/TempHashMap.h:83-104 | the remaining contents are exactly the non-matching elements, in order |
| LinkedList.SetAt | Source/GADE_POE/TempHashMap.h:49-52 | the element at the index is replaced and nothing else changes |
| LinkedList.ChainOfElements | Source/GADE_POE/TempLinkedList.h:8-16 | a node chain is determined by its sequence of elements |
| CustomLinkedList.GetFirst | Source/GADE_POE/CustomLinkedList.cpp:33-36 | the first stored actor, or null on an empty list |
| CustomLinkedList.GetNext | Source/GADE_POE/CustomLinkedList.cpp:38-52 | the element after the first occurrence of `current`, wrapping from the last index to index 0; null when `current` is absent |
| CustomLinkedList.SuccessorSingleton | Source/GADE_POE/CustomLinkedList.cpp:46 | in a one-element list the next waypoint is the waypoint itself |
| WaypointManager.BeginPlay | Source/GADE_POE/WaypointManager.cpp:10-22 | the list holds exactly the non-null editor waypoints, in editor order; the editor array is unchanged |
| WaypointManager.AddNonNull | Source/GADE_POE/WaypointManager.cpp:14-21 | the loop appends the non-null entries, in order, to the list |
| WaypointManager.BeginPlayIdempotent | Source/GADE_POE/WaypointManager.cpp:10-22 | rebuilding twice gives the same manager as rebuilding once |
| WaypointManager.GetWaypoint | Source/GADE_POE/WaypointManager.cpp:24-27 | a non-negative index is taken modulo the count; a negative index gives null unless it is a multiple of the count, because C++ `%` keeps the dividend's sign |
| WaypointManager.GetWaypointAfterBeginPlay | Source/GADE_POE/WaypointManager.cpp:10-27 | after BeginPlay, waypoint i is the (i mod n)-th non-null editor waypoint |
| WaypointManager.GetWaypointCount | Source/GADE_POE/WaypointManager.cpp:29-32 | the count equals the number of listed waypoints |
| CheckStack.Empty | Source/GADE_POE/CheckStackTemp.h:20 | a new stack is well formed and empty |
| CheckStack.Push | Source/GADE_POE/CheckStackTemp.h:24-31 | the pushed item becomes the top, above the old items |
| CheckStack.Pop | Source/GADE_POE/CheckStackTemp.h:33-45 | on an empty stack it fails, leaving the stack and out-value alone; otherwise it returns the top and leaves the rest |
| CheckStack.Peek | Source/GADE_POE/CheckStackTemp.h:47-55 | it returns the top without changing the stack, and fails on an empty stack |
| CheckStack.IsEmpty | Source/GADE_POE/CheckStackTemp.h:57-61 | true exactly when no items are stored |
| CheckStack.Clear | Source/GADE_POE/CheckStackTemp.h:63-72 | after clearing, the stack is well formed and empty |
| CheckStack.Size | Source/GADE_POE/CheckStackTemp.h:75-78 | the size equals the number of stored items |
| CheckStack.PushPop | Source/GADE_POE/CheckStackTemp.h:24-45 | popping right after a push returns the pushed item and the original stack |
| CheckStack.PushAllItems | Source/GADE_POE/CheckStackTemp.h:24-31 | pushing a sequence leaves it on the stack in reverse order (last in, first out) |
| DialogueQueue.Empty | Source/GADE_POE/DIalogueQueueTemp.h:12 | a new queue is well formed and empty |
| DialogueQueue.Enqueue | Source/GADE_POE/DIalogueQueueTemp.h:19-35 | the item joins the back; well-formedness (tail is null exactly when head is, and otherwise is the last item) is kept |
| DialogueQueue.Dequeue | Source/GADE_POE/DIalogueQueueTemp.h:37-53 | on an empty queue it fails and changes nothing; otherwise it returns the front and leaves the rest in order |
| DialogueQueue.Peek | Source/GADE_POE/DIalogueQueueTemp.h:55-61 | it returns the front without changing the queue, and fails on an empty queue |
| DialogueQueue.IsEmpty | Source/GADE_POE/DIalogueQueueTemp.h:63-67 | true exactly when no items are queued |
| DialogueQueue.Clear | Source/GADE_POE/DIalogueQueueTemp.h:69-78 | after clearing, the queue is well formed and empty |
| DialogueQueue.GetSize | Source/GADE_POE/DIalogueQueueTemp.h:80-90 | the size equals the number of queued items |
| DialogueQueue.EnqueueAll | Source/GADE_POE/DIalogueQueueTemp.h:19-35 | enqueuing a sequence appends it in order |
| DialogueQueue.DequeueN | Source/GADE_POE/DIalogueQueueTemp.h:37-53 | n dequeues return the first n items and leave the remainder |
| DialogueQueue.EnqueueThenDrain | Source/GADE_POE/DIalogueQueueTemp.h:19-53 | enqueuing a sequence and dequeuing it all returns it in the same order (first in, first out) and empties the queue |
| TempHashMap.GetBucketIndex | Source/GADE_POE/TempHashMap.h:17-28 | the bucket index is within the 64 buckets; it is the key's hash slot for a live key and 0 otherwise |
| TempHashMap.New | Source/GADE_POE/TempHashMap.h:16-30 | a new map has 64 buckets, satisfies the bucket invariant and maps no key |
| TempHashMap.Add | Source/GADE_POE/TempHashMap.h:33-57 | for a live key, the key maps to the new value and every other key is unchanged; an invalid key changes nothing; the invariant (keys unique and in their hash slot) is kept |
| TempHashMap.Get | Source/GADE_POE/TempHashMap.h:59-81 | the value stored under a live key, or none |
| TempHashMap.Remove | Source/GADE_POE/TempHashMap.h:83-104 | for a live key, the key no longer maps and every other key is unchanged; the invariant is kept |
| TempHashMap.Clear | Source/GADE_POE/TempHashMap.h:106-112 | after clearing, no key maps to anything |
| TempHashMap.GetAllKeys | Source/GADE_POE/TempHashMap.h:114-129 | the keys listed are exactly the live keys with a value, each once |
| TempHashMap.AddThenGet | Source/GADE_POE/TempHashMap.h:33-81 | a value added under a live key is read back |
| TempHashMap.RemoveThenGet | Source/GADE_POE/TempHashMap.h:59-104 | a removed key is no longer found |
| TempHashMap.AddAddSameKey | Source/GADE_POE/TempHashMap.h:33-57 | the second Add under the same key overwrites the first |
| AudioHashMap.Hash | Source/GADE_POE/HashMap.cpp:14-22 | the 32-bit polynomial hash (factor 31, wrap-around) taken modulo the table size is a valid slot |
| AudioHashMap.HashIgnoresWrap | Source/GADE_POE/HashMap.cpp:14-22 | the 32-bit wrap-around does not change the slot: it equals the unbounded hash reduced at every step |
| AudioHashMap.New | Source/GADE_POE/HashMap.cpp:3-7 | a new table satisfies the invariant and maps no key |
| AudioHashMap.Add | Source/GADE_POE/HashMap.cpp:24-42 | every spelling of the key (equal ignoring case) maps to the new value, keys differing from it are unchanged, and the size grows by one only when no spelling of the key was stored |
| AudioHashMap.Get | Source/GADE_POE/HashMap.cpp:44-57 | the sound stored under the key or any spelling of it when present and live, null otherwise |
| AudioHashMap.Remove | Source/GADE_POE/HashMap.cpp:59-73 | no spelling of the key maps any more, keys differing from it are unchanged, and the size drops by one only if the key was present |
| AudioHashMap.GetSize | Source/GADE_POE/HashMap.h:29 | the size field equals the total number of stored pairs |
| AudioHashMap.AddThenGet | Source/GADE_POE/HashMap.cpp:24-57 | a sound added under a key is read back, under any spelling of the key, when it is live |
| AudioHashMap.AddRemoveSize | Source/GADE_POE/HashMap.cpp:24-73 | adding a fresh key and removing it restores the size, and re-adding an existing key keeps the size |
| AudioHashMap.SameNameSameHash | Source/GADE_POE/HashMap.cpp:14-22 | two keys equal ignoring case hash to the same bucket, since lower-casing adds 32 to a code and 16 divides 32 |
| AudioHashMap.LookupIgnoresCase | Source/GADE_POE/HashMap.cpp:44-57 | two keys equal ignoring case read the same entry |
| AudioHashMap.AddCaseVariants | Source/GADE_POE/HashMap.cpp:24-57 | adding "Jump" and then "jump" keeps one entry: the size grows once and every spelling reads the second sound |
| AudioHashMap.JumpSpellings | Source/GADE_POE/HashMap.cpp:32 | "Jump", "jump" and "JUMP" are the same key |
| WaypointGraph.New | Source/GADE_POE/Graph.cpp:3-6 | a new graph has no nodes and nothing pending removal |
| WaypointGraph.AddNode | Source/GADE_POE/Graph.cpp:8-29 | a live, new, not-pending waypoint gets a node with no neighbours; anything else leaves the graph unchanged |
| WaypointGraph.AddEdge | Source/GADE_POE/Graph.cpp:31-56 | the target is appended to the source's neighbours only when both are live, present and not pending; otherwise nothing changes |
| WaypointGraph.GetNeighbors | Source/GADE_POE/Graph.cpp:58-95 | the stored neighbours of a live, not-pending waypoint that are live and not pending, in order; empty otherwise |
| WaypointGraph.GetAllKeys | Source/GADE_POE/Graph.cpp:97-110 | exactly the live, not-pending waypoints with a node, each once |
| WaypointGraph.RemoveNode | Source/GADE_POE/Graph.cpp:112-145 | the waypoint's node is gone, it is dropped from every other node's neighbours, and it is no longer pending |
| WaypointGraph.RemoveNodeLeavesNoEdgeToIt | Source/GADE_POE/Graph.cpp:112-145 | after removing a waypoint from a graph with nothing pending, no key and no neighbour list mentions it |
| WaypointGraph.AddEdgeIgnoresPending | Source/GADE_POE/Graph.cpp:44-55 | an edge touching a waypoint pending removal is not added |
| TrackLayout.TrackSuccessors | Source/GADE_POE/AdvancedRaceManager.cpp:91-136 | the hard-coded edge list gives each waypoint index exactly the successor indices of the track table |
| TrackLayout.TrackSkipsIndex11 | Source/GADE_POE/AdvancedRaceManager.cpp:91-136 | no track edge starts or ends at waypoint index 11 |
| TrackLayout.FirstSuccessorCycle | Source/GADE_POE/AdvancedRaceManager.cpp:91-136 | following each waypoint's first successor walks a closed loop |
| AdvancedRaceManager.AcceptedMeans | Source/GADE_POE/AdvancedRaceManager.cpp:60-73 | an actor is collected exactly when it is live, is a waypoint, and its name contains "Waypoint" ignoring case |
| AdvancedRaceManager.BlueprintNameContainsWaypoint | Source/GADE_POE/AdvancedRaceManager.cpp:69 | the second name test (`BP_Waypoint_C_`) is implied by the first |
| AdvancedRaceManager.CollectWaypoints | Source/GADE_POE/AdvancedRaceManager.cpp:46-87 | without a graph nothing happens; otherwise the list has one entry per accepted found actor, the k-th entry is the k-th accepted actor in the order found (duplicates kept), each gets a node, and the graph invariant holds |
| AdvancedRaceManager.FilterAccepted | Source/GADE_POE/AdvancedRaceManager.cpp:57-74 | the loop's filtering keeps each accepted actor once, at the position given by the number of accepted actors found before it |
| AdvancedRaceManager.CollectKeepsOrder | Source/GADE_POE/AdvancedRaceManager.cpp:54-74 | of two accepted actors, the one found first comes first in the waypoint list |
| AdvancedRaceManager.AddNodes | Source/GADE_POE/AdvancedRaceManager.cpp:74-76 | the graph gains a node for every listed waypoint and keeps the nodes it had |
| AdvancedRaceManager.AddEdges | Source/GADE_POE/AdvancedRaceManager.cpp:105-131 | adding the track edges keeps the graph invariant |
| AdvancedRaceManager.AddEdgesSuccessors | Source/GADE_POE/AdvancedRaceManager.cpp:105-131 | each waypoint's neighbours grow by the waypoints its track edges point to, in edge order |
| AdvancedRaceManager.PopulateGraph | Source/GADE_POE/AdvancedRaceManager.cpp:89-137 | with no graph, fewer than 12 waypoints or a dead waypoint, nothing changes; otherwise the edges are added and the invariant holds |
| AdvancedRaceManager.PopulateGraphSuccessors | Source/GADE_POE/AdvancedRaceManager.cpp:89-137 | after populating a fresh graph, the neighbours of waypoint i are the waypoints at the track table's successor indices for i |
| AdvancedRaceManager.GetWaypoint | Source/GADE_POE/AdvancedRaceManager.cpp:141-154 | non-null exactly for an in-range index holding a live waypoint, and then it is that waypoint |
| RaceGameState.Init | Source/GADE_POE/BiginnerRaceGameState.cpp:5-10 | an empty leaderboard, 2 laps, 0 waypoints, race not finished |
| RaceGameState.BeginPlay | Source/GADE_POE/BiginnerRaceGameState.cpp:12-27 | the waypoint total is taken from the manager only when it has waypoints; otherwise nothing changes |
| RaceGameState.Tick | Source/GADE_POE/BiginnerRaceGameState.cpp:29-50 | the leaderboard is re-sorted; the race is finished when it was before or every racer has reached the lap total |
| RaceGameState.TickKeepsFinished | Source/GADE_POE/BiginnerRaceGameState.cpp:36-49 | once finished, a race stays finished |
| RaceGameState.TickWithNoRacersFinishes | Source/GADE_POE/BiginnerRaceGameState.cpp:36-49 | with no registered racers, the first tick finishes the race |
| RaceGameState.RegisterRacer | Source/GADE_POE/BiginnerRaceGameState.cpp:52-66 | a non-null racer is appended with lap 0, waypoint 0 and its name; null changes nothing |
| RaceGameState.SetProgress | Source/GADE_POE/BiginnerRaceGameState.cpp:70-80 | the first entry of the racer gets the new lap and waypoint; an unknown racer changes nothing |
| RaceGameState.UpdateRacerProgress | Source/GADE_POE/BiginnerRaceGameState.cpp:68-82 | the racer's progress is set and the leaderboard is re-ranked; lap and waypoint totals are unchanged |
| RaceGameState.Sort | Source/GADE_POE/BiginnerRaceGameState.cpp:92-98 | the result is sorted by lap then waypoint, descending, and is a permutation of the input |
| RaceGameState.UpdateLeaderboard | Source/GADE_POE/BiginnerRaceGameState.cpp:89-104 | the same entries, sorted, with placements 1, 2, 3, ... in order |
| RaceGameState.AheadMeansBetterPlacement | Source/GADE_POE/BiginnerRaceGameState.cpp:92-104 | a racer strictly ahead gets a smaller placement number |
| RaceGameState.UpdateLeaderboardSortedAgain | Source/GADE_POE/BiginnerRaceGameState.cpp:89-104 | re-ranking a ranked board keeps it sorted and keeps its entries |
| RaceGameState.AtLeastIsNotBehind | Source/GADE_POE/BiginnerRaceGameState.cpp:94-97 | "at least as far" is exactly "not strictly behind" |
| CheckpointManager.Init | Source/GADE_POE/CheckpointManager.cpp:7-11 | no checkpoints, lap 1 of 2, not cleared this tick |
| CheckpointManager.AddCheckpoint | Source/GADE_POE/CheckpointManager.cpp:44-55 | a non-null checkpoint goes on top of the stack; null changes nothing |
| CheckpointManager.BeginPlay | Source/GADE_POE/CheckpointManager.cpp:13-36 | every checkpoint actor found is remembered and pushed, so the first found ends at the bottom |
| CheckpointManager.PlayerReachedCheckpoint | Source/GADE_POE/CheckpointManager.cpp:57-85 | at most one checkpoint is popped per tick; popping the last one refills the stack from all live checkpoints and advances the lap |
| CheckpointManager.ReachTwiceInOneTick | Source/GADE_POE/CheckpointManager.cpp:59-62 | a second report in the same tick changes nothing |
| CheckpointManager.NextTick | Source/GADE_POE/CheckpointManager.cpp:38-42 | a new tick re-arms the once-per-tick guard and changes nothing else |
| CheckpointManager.GetNextCheckpoint | Source/GADE_POE/CheckpointManager.cpp:87-95 | the top checkpoint if it is live, null otherwise; the stack is not changed |
| CheckpointManager.ResetCheckpoints | Source/GADE_POE/CheckpointManager.cpp:97-111 | every live remembered checkpoint is pushed again, in remembered order |
| CheckpointManager.RefillMatchesStart | Source/GADE_POE/CheckpointManager.cpp:13-111 | emptying the stack and resetting gives the same stack as the start, when every checkpoint is live |
| CheckpointManager.DebugCheckpointStatus | Source/GADE_POE/CheckpointManager.cpp:113-144 | the pass drops dead checkpoints from the stack and keeps the live ones in order |
| CheckpointManager.GetRemainingCheckpoint | Source/GADE_POE/CheckpointManager.cpp:146-149 | the number of checkpoints still on the stack |
| AIController.Construct | Source/GADE_POE/AIRacerContoller.cpp:13-18 | graph navigation on; no target, graph or list yet |
| AIController.BeginPlayGraph | Source/GADE_POE/AIRacerContoller.cpp:31-56 | with a graph and waypoints, the first target is waypoint 0; otherwise the target is unchanged |
| AIController.BeginPlaySequential | Source/GADE_POE/AIRacerContoller.cpp:57-73 | the target is the first element of the manager's list, or null on an empty list |
| AIController.Find | Source/GADE_POE/AIRacerContoller.cpp:150 | the first index of the waypoint, or -1 exactly when it is absent |
| AIController.GraphLap | Source/GADE_POE/AIRacerContoller.cpp:158-186 | the reported index is the reached index, or 0 for -1; a lap is counted on reaching index 0 after more than one waypoint |
| AIController.SequentialLap | Source/GADE_POE/AIRacerContoller.cpp:188-197 | with a positive total, reaching the total counts a lap and resets the count; the reported index is the new count |
| AIController.SequentialLapInRange | Source/GADE_POE/AIRacerContoller.cpp:188-197 | with a positive total, a passed-waypoint count below the total stays below it after a reach |
| AIController.SequentialLapsCount | Source/GADE_POE/AIRacerContoller.cpp:188-197 | after any number of waypoints, laps × total + count grows by exactly one per waypoint and the count stays below the total |
| AIController.OnWaypointReached | Source/GADE_POE/AIRacerContoller.cpp:145-233 | a null or off-target waypoint changes nothing; otherwise progress is reported and the next target is a neighbour or the fifth waypoint (graph), or the list successor (otherwise); a missing manager, a missing or null fifth waypoint, or a null list successor is a fault; nothing else in the controller changes |
| AIController.ReachReportsProgress | Source/GADE_POE/AIRacerContoller.cpp:145-200 | in graph mode, when there is a neighbour or a non-null fifth waypoint to fall back on, the reach does not fault and the game state receives exactly the racer's new lap and the reached index (0 when not found) |
| AIController.SequentialReachReportsProgress | Source/GADE_POE/AIRacerContoller.cpp:145-230 | in sequential mode, when the list has a successor for the reached waypoint, the reach does not fault, the racer's count and lap follow SequentialLap against the game state's TotalWaypoints, the game state receives exactly that lap and count, and the successor becomes the target |
| AIController.AnyNeighbourCanBeNext | Source/GADE_POE/AIRacerContoller.cpp:205-212 | each neighbour of the reached waypoint is the next target for some random draw |
| AIRacer.Construct | Source/GADE_POE/AIRacer.cpp:10-51 | a new racer is Medium with speed 600 and acceleration 500, lap 0, no waypoints passed |
| AIRacer.SetupRacerAttributes | Source/GADE_POE/AIRacer.cpp:70-95 | Fast, Medium and Slow all get speed 4000; accelerations are 900, 500 and 50 |
| AIRacer.AttributesOrdered | Source/GADE_POE/AIRacer.cpp:73-88 | every type has the same top speed, and acceleration strictly orders Fast > Medium > Slow |
| AIRacer.SetupIdempotent | Source/GADE_POE/AIRacer.cpp:70-95 | applying the attributes twice is the same as once |
| AIRacerFactory.Init | Source/GADE_POE/AIRacerFactory.cpp:4-21 | 9 racers, chances 0.2 / 0.5 / 0.3, no spawn points and nothing spawned |
| AIRacerFactory.BeginPlay | Source/GADE_POE/AIRacerFactory.cpp:23-46 | the spawn points are the non-null found actors; with none, nothing is spawned |
| AIRacerFactory.CreateRacer | Source/GADE_POE/AIRacerFactory.cpp:48-98 | without a world, a class for the type, navmesh ground or a successful spawn, no racer is made; otherwise the racer has the requested type and is recorded |
| AIRacerFactory.TypeForIntervals | Source/GADE_POE/AIRacerFactory.cpp:115-130 | a roll picks Fast below the fast share, Medium in the next share, Slow above |
| AIRacerFactory.RacersToSpawn | Source/GADE_POE/AIRacerFactory.cpp:108-113 | the number spawned is the smaller of the spawn-point count and the maximum (0 for a negative maximum) |
| AIRacerFactory.SpawnRacers | Source/GADE_POE/AIRacerFactory.cpp:100-146 | without a world or with non-positive total chance nothing is spawned; otherwise at most one racer per spawn point up to the maximum |
| AIRacerFactory.SpawnRacersAllSucceed | Source/GADE_POE/AIRacerFactory.cpp:100-146 | when every spawn succeeds, exactly RacersToSpawn racers appear, racer k at spawn point k with the type its roll picks |
| AIRacerFactory.SpawnRacersWithDefaults | Source/GADE_POE/AIRacerFactory.cpp:148-151 | spawning with the factory's own maximum and chances |
| AIRacerFactory.DefaultThresholds | Source/GADE_POE/AIRacerFactory.cpp:8-11 | the default chances pick Fast below 0.2 and Medium below 0.7, and allow at most 9 racers |
| PlayerHamster.Construct | Source/GADE_POE/PlayerHamster.cpp:19-88 | lap 0, index 0, speed 0, sequential navigation, not paused, no pending choice |
| PlayerHamster.BeginPlay | Source/GADE_POE/PlayerHamster.cpp:90-236 | graph navigation is switched on when a race manager exists; a present game state gets the player registered twice (lines 189 and 214) |
| PlayerHamster.BeginPlayRegistersTwice | Source/GADE_POE/PlayerHamster.cpp:185-214 | on a fresh board, BeginPlay leaves two leaderboard entries for the player |
| PlayerHamster.BeginPlayOnce | Source/GADE_POE/PlayerHamster.cpp:90-236 | the same set-up with a single registration |
| PlayerHamster.BeginPlayOnceRegistersOnce | Source/GADE_POE/PlayerHamster.cpp:473-479 | the corrected set-up leaves exactly one entry for the player |
| PlayerHamster.FirstWaypoint | Source/GADE_POE/PlayerHamster.cpp:195-205 | the first target is race-manager waypoint 0 in graph mode, else waypoint-manager waypoint 0 |
| PlayerHamster.ScanIndexIsPosition | Source/GADE_POE/PlayerHamster.cpp:497-509 | the index found by the scan is the waypoint's position in the race manager's list |
| PlayerHamster.GraphProgress | Source/GADE_POE/PlayerHamster.cpp:495-528 | the lap advances only on reaching index 11, which resets the index to 0 |
| PlayerHamster.GraphProgressZeroTotal | Source/GADE_POE/PlayerHamster.cpp:497-528 | with the race manager's total left at zero, a graph-mode reach changes neither lap nor index |
| PlayerHamster.SequentialProgress | Source/GADE_POE/PlayerHamster.cpp:530-547 | the index advances by one, and reaching the waypoint total counts a lap and resets the index |
| PlayerHamster.SequentialProgressCounts | Source/GADE_POE/PlayerHamster.cpp:530-547 | laps × total + index grows by exactly one and the index stays below the total |
| PlayerHamster.OnWaypointReached | Source/GADE_POE/PlayerHamster.cpp:481-556 | null changes nothing; otherwise lap and index follow GraphProgress or SequentialProgress, and the game state is told; the target moves to the first neighbour only in graph mode with a graph, and stays put otherwise |
| PlayerHamster.OnWaypointOverlap | Source/GADE_POE/PlayerHamster.cpp:627-698 | while paused, or for a non-waypoint, nothing changes; in graph mode with a race manager but no graph it faults (line 654 dereferences the null graph); otherwise progress is recorded and the touched waypoint becomes the target |
| PlayerHamster.OverlapTargetsTouchedWaypoint | Source/GADE_POE/PlayerHamster.cpp:627-698 | after touching a waypoint when not paused and not on a null graph, the overlap does not fault and that waypoint is the current target |
| PlayerHamster.SelectNextWaypoint | Source/GADE_POE/PlayerHamster.cpp:558-583 | while choosing, the choice cycles to the next available neighbour and stays in range |
| PlayerHamster.ConfirmWaypoint | Source/GADE_POE/PlayerHamster.cpp:585-615 | with no pending choice nothing changes; a null chosen entry faults (line 608 dereferences it); otherwise the chosen neighbour becomes the target, choosing ends, the lap is kept and the progress is reported |
| PlayerHamster.ConfirmFindsIndex | Source/GADE_POE/PlayerHamster.cpp:594-605 | a confirmed waypoint that the race manager holds at position k, and not earlier, sets the index to k |
| PlayerHamster.SetSpeed | Source/GADE_POE/PlayerHamster.cpp:700-702 | the speed is clamped into [0, MaxSpeed] and nothing else changes |
| PlayerHamster.MoveForward | Source/GADE_POE/PlayerHamster.cpp:380-397 | paused: no change; otherwise throttle accelerates and no throttle decelerates, within [0, MaxSpeed] |
| PlayerHamster.TogglePauseMenu | Source/GADE_POE/PlayerHamster.cpp:442-466 | with a widget and controller the pause flag flips; otherwise nothing changes |
| PlayerHamster.TogglePauseTwice | Source/GADE_POE/PlayerHamster.cpp:442-466 | toggling twice restores the player |
| PlayerHamster.TickRaceEnd | Source/GADE_POE/PlayerHamster.cpp:238-250 | the race is marked finished once the player reaches the lap total, and stays finished |
| Pickup.Construct | Source/GADE_POE/PickupBase.cpp:9-21 | active, visible, no AI affected; multiplier 1.5 for a boost and 0.5 for a reduction |
| Pickup.OnOverlapBegin | Source/GADE_POE/PickupBase.cpp:28-38 | an active pickup touched by the player or an AI racer applies its effect and deactivates; anything else changes nothing |
| Pickup.ApplyEffect | Source/GADE_POE/SpeedBoostPickup.cpp:6-21 | the racer's speed is multiplied after its original speed is saved; an AI racer is remembered for the reset |
| Pickup.DeactivatePickup | Source/GADE_POE/PickupBase.cpp:40-45 | the pickup is inactive and hidden |
| Pickup.ReactivatePickup | Source/GADE_POE/PickupBase.cpp:47-50 | the pickup is active and visible |
| Pickup.TriggerOnce | Source/GADE_POE/PickupBase.cpp:28-45 | after one trigger the pickup ignores further overlaps |
| Pickup.ResetPlayerSpeed | Source/GADE_POE/SpeedBoostPickup.cpp:23-29 | the player's saved speed is restored |
| Pickup.ResetAISpeed | Source/GADE_POE/SpeedReductionPickup.cpp:31-37 | the remembered AI racer's saved speed is restored and forgotten |
| Pickup.PlayerRoundTrip | Source/GADE_POE/SpeedBoostPickup.cpp:6-29 | applying the effect to the player and resetting restores every speed |
| Pickup.AIRoundTrip | Source/GADE_POE/SpeedReductionPickup.cpp:6-37 | applying the effect to an AI racer and resetting restores every speed |
| Pickup.SecondApplyOverwrites | Source/GADE_POE/SpeedBoostPickup.cpp:6-37 | a second application overwrites the saved speed, so the reset restores only the second racer |
| Spectator.Construct | Source/GADE_POE/Spectator.cpp:7-15 | no state, timer 0, reaction distance 1000 |
| Spectator.BeginPlay | Source/GADE_POE/Spectator.cpp:17-21 | the spectator starts idle with a zero timer |
| Spectator.SetState | Source/GADE_POE/Spectator.cpp:34-49 | a new state resets the timer and records its name; no state leaves the name and timer |
| Spectator.Cheer | Source/GADE_POE/Spectator.cpp:51-54 | the state is Cheering |
| Spectator.BeDisappointed | Source/GADE_POE/Spectator.cpp:56-59 | the state is Disappointed |
| Spectator.BeIdle | Source/GADE_POE/Spectator.cpp:61-63 | the state is Idle |
| Spectator.IdleUpdate | Source/GADE_POE/IdleState.cpp:12-30 | an idle spectator cheers exactly when some racer is within reach |
| Spectator.UpdateState | Source/GADE_POE/CheeringState.cpp:12-21 | idle cheers for a racer in reach; cheering and disappointment return to idle when their timers run out |
| Spectator.Tick | Source/GADE_POE/Spectator.cpp:23-32 | with a state, the state updates and the timer advances by the frame time |
| Spectator.TickTimer | Source/GADE_POE/Spectator.cpp:23-32 | after a state change the timer equals the frame time; otherwise it grows by the frame time |
| Spectator.TickTransitions | Source/GADE_POE/DisappointedState.cpp:10-16 | each transition happens exactly when its condition holds |
| DialogueData.LoadDialogue | Source/GADE_POE/Dialogue_Data.cpp:10-69 | success exactly for a parsed array; on failure the queue is empty; on success it holds the convertible entries in file order |
| DialogueData.LoadForgetsPrevious | Source/GADE_POE/Dialogue_Data.cpp:10-12 | the lines after loading do not depend on what was loaded before |
| DialogueData.LoadedAllConvertible | Source/GADE_POE/Dialogue_Data.cpp:36-54 | when every entry converts, all of them are queued in order |
| DialogueData.GetNextDialogue | Source/GADE_POE/Dialogue_Data.cpp:73-86 | the front line is returned and removed; an empty queue returns the default item and is unchanged |
| DialogueData.IsQueueEmpty | Source/GADE_POE/Dialogue_Data.cpp:90-93 | true exactly when no lines remain |
| DialogueData.GetNextNTakesPrefix | Source/GADE_POE/Dialogue_Data.cpp:73-86 | n reads return the first n lines and leave the rest |
| DialogueData.LoadThenReadAll | Source/GADE_POE/Dialogue_Data.cpp:10-93 | loading a file and reading every line returns the loaded lines in order and empties the queue |
| DialogueWidget.ChooseLevel | Source/GADE_POE/DialogueWidget.cpp:43-95 | the map name picks Beginner, Checkpoint or Advanced (ignoring case); otherwise the instance's target decides, with CheckpointMap as the fallback |
| DialogueWidget.LevelOfInstanceTarget | Source/GADE_POE/DialogueWidget.cpp:62-88 | the instance's target names are compared as FNames, so case is ignored; unknown names fall back to Checkpoint |
| DialogueWidget.ChooseLevelIsARace | Source/GADE_POE/DialogueWidget.cpp:43-95 | whatever the inputs, one of the three races is chosen and its target is never None |
| DialogueWidget.MapNameDecides | Source/GADE_POE/DialogueWidget.cpp:44-48 | a map name containing "BeginnerDialogueLVL" chooses Beginner whatever the instance says |
| DialogueWidget.NativeConstruct | Source/GADE_POE/DialogueWidget.cpp:13-107 | the target level is chosen from the map, the level's file is loaded, and the first line is shown when loading succeeds |
| DialogueWidget.DisplayDialogue | Source/GADE_POE/DialogueWidget.cpp:138-164 | the speaker name and "Age: <age>" are shown and typing of the text starts |
| DialogueWidget.AgeTextReadsBack | Source/GADE_POE/DialogueWidget.cpp:160-163 | the number after "Age: " reads back as the speaker's age |
| DialogueWidget.OnNextButtonClicked | Source/GADE_POE/DialogueWidget.cpp:166-188 | with lines left the next one is shown; otherwise the target level (or CheckpointMap when it is None) is loaded |
| DialogueWidget.LoadLevelAsync | Source/GADE_POE/DialogueWidget.cpp:223-241 | a None level name is refused; any other name is opened |
| DialogueWidget.StartTypingEffect | Source/GADE_POE/DialogueWidget.cpp:251-258 | typing starts with nothing displayed, at index 0, with the timer running |
| DialogueWidget.TypeNextLetter | Source/GADE_POE/DialogueWidget.cpp:260-275 | one more letter is shown per tick; at the end the timer stops |
| DialogueWidget.TypeStepsShows | Source/GADE_POE/DialogueWidget.cpp:260-275 | after k ticks, the first index + k letters of the text are displayed |
| DialogueWidget.TypingCompletes | Source/GADE_POE/DialogueWidget.cpp:251-275 | after |text| ticks the whole text is displayed, and one more tick stops the timer |
| EndUIWidget.EntryLine | Source/GADE_POE/EndUIWidget.cpp:95-96 | each line starts with the placement number and ends with a newline |
| EndUIWidget.Medal | Source/GADE_POE/EndUIWidget.cpp:99-110 | placements 1, 2, 3 get Gold, Silver, Bronze; every other placement gets no tag |
| EndUIWidget.ShownLine | Source/GADE_POE/EndUIWidget.cpp:95-110 | podium lines are wrapped in their medal tag; other lines are shown as they are |
| EndUIWidget.TaggedIffPodium | Source/GADE_POE/EndUIWidget.cpp:99-110 | a shown line starts with a tag exactly for placements 1 to 3 |
| EndUIWidget.LeaderboardString | Source/GADE_POE/EndUIWidget.cpp:90-113 | the text starts with "Leaderboard:\n" |
| EndUIWidget.LeaderboardAppend | Source/GADE_POE/EndUIWidget.cpp:92-113 | one more entry appends exactly its shown line to the text |
| EndUIWidget.PlayerRank | Source/GADE_POE/EndUIWidget.cpp:120-131 | the placement of the first player entry, or -1 when the player is absent |
| EndUIWidget.Ordinal | Source/GADE_POE/EndUIWidget.cpp:133-141 | "Unknown Place" exactly for a non-positive rank |
| EndUIWidget.OrdinalSuffix | Source/GADE_POE/EndUIWidget.cpp:135-141 | the text ends in "th Place" exactly for ranks above 3 |
| EndUIWidget.OrdinalInjective | Source/GADE_POE/EndUIWidget.cpp:135-141 | different positive ranks are shown differently |
| EndUIWidget.UpdateUI | Source/GADE_POE/EndUIWidget.cpp:84-143 | with a game state, the present text blocks show the leaderboard and the player's place; without one nothing changes |
| EndUIWidget.LeaderPlayerIsFirst | Source/GADE_POE/EndUIWidget.cpp:118-141 | when the player heads the ranked board, the place shown is "1st Place" |
| BeginnerRaceHUD.LapText | Source/GADE_POE/BeginnerRaceHUD.cpp:38-40 | the lap text starts with "Lap " |
| BeginnerRaceHUD.LapTextReadsBack | Source/GADE_POE/BeginnerRaceHUD.cpp:38-40 | the current lap reads back from the lap text |
| BeginnerRaceHUD.UpdateLapCounter | Source/GADE_POE/BeginnerRaceHUD.cpp:34-41 | with player, game state and text block present the text shows the lap; otherwise it is unchanged |
| BeginnerRaceHUD.PlayerPosition | Source/GADE_POE/BeginnerRaceHUD.cpp:49-59 | the placement of the player's first entry, or 0 when the player is not on the board |
| BeginnerRaceHUD.PositionOnRenumberedBoard | Source/GADE_POE/BeginnerRaceHUD.cpp:49-59 | a player on the board is still on it after ranking, and its displayed position is its index + 1, between 1 and the board size |
| BeginnerRaceHUD.UnregisteredPlayerAtZero | Source/GADE_POE/BeginnerRaceHUD.cpp:50-60 | a player missing from the board is shown as "Position: 0" |
| BeginnerRaceHUD.UpdatePositionDisplay | Source/GADE_POE/BeginnerRaceHUD.cpp:44-63 | with everything present the text shows "Position: <n>"; otherwise it is unchanged |
| BeginnerRaceHUD.GetSpeedText | Source/GADE_POE/BeginnerRaceHUD.cpp:65-73 | "Speed: 0 km/h" without a player, otherwise the formatted speed |
| RaceHUDWidget.SetRaceStats | Source/GADE_POE/RaceHUDWidget.cpp:4-10 | the four shown values are stored as given |
| RaceHUDWidget.TimeSplit | Source/GADE_POE/RaceHUDWidget.cpp:17-22 | for a non-negative time, seconds are in 0..59 and minutes × 60 + seconds is the whole-second time |
| RaceHUDWidget.Pad2Int | Source/GADE_POE/RaceHUDWidget.cpp:21 | `%02d`: at least two digits for non-negative values, a minus sign for negative ones |
| RaceHUDWidget.TimeTextReadsBack | Source/GADE_POE/RaceHUDWidget.cpp:17-22 | below 100 minutes the time text is "Time: MM:SS" and reads back as the whole-second time |
| RaceHUDWidget.LapTextReadsBack | Source/GADE_POE/RaceHUDWidget.cpp:24-27 | both numbers in "Lap: a / b" read back as the current lap and the lap total |
| Text.ContainsIff | Source/GADE_POE/AdvancedRaceManager.cpp:69 | substring search holds exactly when the text occurs at some position |
| Text.SameNameContains | Source/GADE_POE/DialogueWidget.cpp:67-80 | names equal ignoring case also contain each other ignoring case |
| Text.IntToStringRoundTrip | Source/GADE_POE/EndUIWidget.cpp:95-96 | reading back a `%d`-formatted integer gives the integer |
| Text.IntToStringInjective | Source/GADE_POE/EndUIWidget.cpp:140 | different integers are formatted differently |
| Text.Pad2 | Source/GADE_POE/RaceHUDWidget.cpp:21 | `%02d` of a natural number has at least two digits, exactly two below 100, and reads back as the number |

## Left out

- Rendering, input bindings, physics, audio playback, camera movement (`MoveCameraCloser`), loading screens, timers and `OpenLevel`. These are engine effects. A timer firing is modelled as the call it makes (`TypeNextLetter`). A level load is the `Finished` effect.
- The pause, main, start and race-end menu widgets and the end screen's Restart / Main Menu / Quit buttons. They only call engine functions.
- Reading and parsing JSON. The file is a `FileInput` value: missing, unreadable, not an array, or a parsed list of entries. Each entry is either not an object, not convertible to a dialogue item, or an item.
- Speaker portraits. The texture lookup is engine state.
- `FMath::FRand` and `RandRange`. Each draw is a parameter (`roll`, `pick`). `RandRange(0, n - 1)` is modelled as `pick % n`.
- `GetTypeHash` of an actor pointer. It is a parameter `hash`. Every contract holds for every hash.
- Float formatting with `%.1f` (the HUD speed). The formatted text is a parameter. Reals carry no IEEE rounding claims.
- `int32` overflow of lap and waypoint counters. Counts are unbounded integers. Only the audio hash models its 32-bit wrap-around explicitly.
- `URaceHUDWidget::GetSpeedText` and the speed line of `UBeginnerRaceHUD::GetSpeedText` use `%.1f`; only the surrounding text is modelled, with the number as a parameter.
- DialogueWidget.DisplayDialogue: assumes the speaker-name and age text blocks are bound; the source skips each one that is missing.
- `URaceHUDWidget::GetCheckpointText`. It is declared in the header but has no definition in the source.
- `UDialogue_Data`'s `CurrentIndex` field. It is never read.
- `TempLinkedList` `Find`, `Remove` and `GetHead`. They are used by `TempHashMap.h` and `Graph.cpp` but not defined in `TempLinkedList.h`. `Find` is modelled as the first match. `Remove` deletes every match. `GetHead` is the node chain.
- Pickup respawn timers, and the header declarations that the sources do not define.
- `AAdvancedRaceManager::GetTotalWaypoints()`. The field behind it (AdvancedRaceManager.h:62) is never assigned in AdvancedRaceManager.cpp, so it is a parameter (`World.totalWaypoints`). The graph-mode scans at PlayerHamster.cpp:498 and :597 therefore run over however many entries the caller chooses. In the source as written the field keeps its zero default. The scans then never match, so the player's graph-mode index and laps never advance (GraphProgressZeroTotal). The position guarantees of PlayerHamster.GraphProgress, PlayerHamster.ScanIndexIsPosition and PlayerHamster.ConfirmFindsIndex say something only for a positive total.
- WaypointManager.GetWaypoint: requires a non-empty list, because the source divides by the count (`Index % GetCount()`), which is undefined for an empty list.
- RaceGameState.Sort: `TArray::Sort` is not stable. The model uses an insertion sort, so its order among tied racers is one of the orders the engine may produce. The contract states only "sorted and a permutation", which every such order meets.
- AIController.OnWaypointReached: the source dereferences `AdvancedRaceManager` (line 150) even in sequential mode, reads `Waypoints[4]` when a waypoint has no neighbours and then calls `GetName()` on it (line 221), and calls `GetName()` on the list successor (line 229), which `GetNext` returns as null for a waypoint not in the list or followed by a null entry. These crash on a missing manager, fewer than five waypoints, a null fifth waypoint or a null successor. Such inputs give a `Fault` outcome here.
- PlayerHamster.GraphProgress: graph-mode laps are counted only when index 11 is reached. The hard-coded track has no edge into index 11, so that lap is reached only by touching waypoint 11 directly. This is modelled as written.
- PlayerHamster.MoveForward: the speed change uses the frame time `dt` as a parameter. Steering, braking and the actual movement are left out.
- AudioHashMap.Add: `TCHAR` is a UTF-16 code unit, so the source hashes a character outside the Basic Multilingual Plane as two code units. The model's `char` is one Unicode scalar value, so for such keys the model's bucket can differ from the source's. The contracts describe keys whose characters all lie in that plane.
- AudioHashMap.Get: case folding covers the ASCII letters A-Z only. Other letters compare exactly, whatever case mapping the engine applies to them.
- Graph pending-removal state: `PendingRemoval` is used in `Graph.cpp` but not declared in `Graph.h`. It is modelled as a set of actors.

## Findings

| source | as written | input that shows it | evidently intended | confidence | as-written member | corrected member |
|---|---|---|---|---|---|---|
| Source/GADE_POE/PlayerHamster.cpp:185-214 | `BeginPlay` calls `GameState->RegisterRacer(this)` directly (line 189) and again through `RegisterWithGameState()` (line 214, which registers at line 477) | any level with a game state: an empty leaderboard ends with two entries for the player | the player appears on the leaderboard once | not executed | PlayerHamster.BeginPlayRegistersTwice | PlayerHamster.BeginPlayOnceRegistersOnce |

=== FILE: ai_controller.dfy ===
/** `AAIRacerContoller`: the AI's current target waypoint, the lap counting
    it does on the racer it drives when that target is reached, and the
    choice of the next target. */
module AIController {
  import opened Base
  import opened LinkedList
  import M = TempHashMap
  import G = WaypointGraph
  import CustomLinkedList
  import opened AIRacer
  import RaceGameState

  /** The controller's fields. `useGraph` is `bUseGraphNavigation`. */
  datatype Controller = Controller(useGraph: bool, current: Ref, graph: Option<G.Graph>,
                                   linkedList: Option<CustomLinkedList.ActorList>)

  /** The constructor: graph navigation on, no target yet. */
  function Construct(): (c: Controller)
    ensures c.useGraph && c.current == Null && c.graph.None? && c.linkedList.None?
  {
    Controller(true, Null, None, None)
  }

  /** The graph-mode part of `BeginPlay`, once the race manager was found with
      its waypoints already collected: the target starts at waypoint 0. A
      missing graph or an empty waypoint array leaves the target unset. */
  function BeginPlayGraph(c: Controller, graph: Option<G.Graph>, waypoints: seq<Ref>): (r: Controller)
    ensures r.graph == graph && r.useGraph == c.useGraph && r.linkedList == c.linkedList
    ensures graph.Some? && |waypoints| > 0 ==> r.current == waypoints[0]
    ensures graph.None? || |waypoints| == 0 ==> r.current == c.current
  {
    if graph.None? then c.(graph := graph)
    else if |waypoints| > 0 then c.(graph := graph, current := waypoints[0])
    else c.(graph := graph)
  }

  /** The sequential-mode part of `BeginPlay` (no race manager, graph
      navigation off): the target starts at the first list entry. */
  function BeginPlaySequential(c: Controller, list: CustomLinkedList.ActorList): (r: Controller)
    requires Valid(list)
    ensures r.linkedList == Some(list) && r.graph == c.graph && r.useGraph == c.useGraph
    ensures Contents(list) != [] ==> r.current == Contents(list)[0]
    ensures Contents(list) == [] ==> r.current == Null
  {
    c.(linkedList := Some(list), current := CustomLinkedList.GetFirst(list))
  }

  /** The graph the controller holds, if any, is well formed. */
  ghost predicate GraphOk(c: Controller, hash: M.Hasher)
  {
    c.graph.Some? ==> G.Inv(c.graph.value, hash)
  }

  /** `TArray::Find`: the first index holding `x`, or `INDEX_NONE` (-1). */
  function Find(ws: seq<Ref>, x: Ref): (i: int)
    ensures -1 <= i < |ws|
    ensures i >= 0 ==> ws[i] == x && forall j :: 0 <= j < i ==> ws[j] != x
    ensures i == -1 <==> x !in ws
  {
    if x in ws then IndexOf(ws, x) else -1
  }

  /** `Cast<AWaypoint>(Actor)`: the pointer when it is a waypoint, else null. */
  function AsWaypoint(p: Ref): (r: Ref)
    ensures r == Null || (r == p && IsA(p, WaypointActor))
  {
    if IsA(p, WaypointActor) then p else Null
  }

  /** The counters after a reach in graph mode, and the waypoint index
      reported: `WaypointsPassed` goes up by one; reaching index 0 (or a
      waypoint not in the array) after passing more than one waypoint
      completes a lap and restarts the count at 1. */
  function GraphLap(r: Racer, reachedIndex: int): (res: (Racer, int))
    ensures res.1 == if reachedIndex == -1 then 0 else reachedIndex
    ensures res.0 == r.(lapCount := res.0.lapCount, waypointsPassed := res.0.waypointsPassed)
    ensures res.0.lapCount == r.lapCount + 1 <==> res.1 == 0 && r.waypointsPassed + 1 > 1
    ensures res.0.lapCount == r.lapCount || res.0.lapCount == r.lapCount + 1
    ensures res.0.waypointsPassed == if res.0.lapCount == r.lapCount then r.waypointsPassed + 1 else 1
  {
    var passed := r.waypointsPassed + 1;
    var index := if reachedIndex == -1 then 0 else reachedIndex;
    if index == 0 && passed > 1 then (r.(lapCount := r.lapCount + 1, waypointsPassed := 1), index)
    else (r.(waypointsPassed := passed), index)
  }

  /** The counters after a reach in sequential mode, and the index reported:
      `WaypointsPassed` goes up by one and is the index, unless it reaches a
      positive `TotalWaypoints` of an existing game state, which completes a
      lap and resets both to 0. */
  function SequentialLap(r: Racer, totalWaypoints: Option<int>): (res: (Racer, int))
    ensures res.0 == r.(lapCount := res.0.lapCount, waypointsPassed := res.0.waypointsPassed)
    ensures res.1 == res.0.waypointsPassed
    ensures (totalWaypoints.Some? && totalWaypoints.value > 0 && r.waypointsPassed + 1 >= totalWaypoints.value) ==>
      res.0.lapCount == r.lapCount + 1 && res.0.waypointsPassed == 0
    ensures !(totalWaypoints.Some? && totalWaypoints.value > 0 && r.waypointsPassed + 1 >= totalWaypoints.value) ==>
      res.0.lapCount == r.lapCount && res.0.waypointsPassed == r.waypointsPassed + 1
  {
    var passed := r.waypointsPassed + 1;
    if totalWaypoints.Some? && totalWaypoints.value > 0 && passed >= totalWaypoints.value then
      (r.(lapCount := r.lapCount + 1, waypointsPassed := 0), 0)
    else (r.(waypointsPassed := passed), passed)
  }

  /** In sequential mode with `TotalWaypoints = n > 0`, the count of passed
      waypoints stays in `[0, n)`. */
  lemma SequentialLapInRange(r: Racer, n: int)
    requires n > 0 && 0 <= r.waypointsPassed < n
    ensures 0 <= SequentialLap(r, Some(n)).0.waypointsPassed < n
  {
  }

  /** `k` consecutive sequential-mode reaches. */
  function SequentialLaps(r: Racer, n: int, k: nat): (s: Racer)
    decreases k
  {
    if k == 0 then r else SequentialLaps(SequentialLap(r, Some(n)).0, n, k - 1)
  }

  /** Sequential lap counting is counting in base `n`: after `k` reaches the
      lap count and the passed count together have advanced by exactly `k`
      waypoints, with the passed count kept in `[0, n)`. So a lap is completed
      every `n` reaches. */
  lemma {:induction false} SequentialLapsCount(r: Racer, n: int, k: nat)
    requires n > 0 && 0 <= r.waypointsPassed < n
    ensures 0 <= SequentialLaps(r, n, k).waypointsPassed < n
    ensures SequentialLaps(r, n, k).lapCount * n + SequentialLaps(r, n, k).waypointsPassed ==
            r.lapCount * n + r.waypointsPassed + k
    decreases k
  {
    if k > 0 {
      var r1 := SequentialLap(r, Some(n)).0;
      SequentialLapsCount(r1, n, k - 1);
      if r.waypointsPassed + 1 >= n {
        assert r1.lapCount * n == r.lapCount * n + n;
      }
    }
  }

  /** The pawn the controller drives: an AI racer or something else. */
  datatype Pawn = OtherPawn | RacerPawn(self: Ref, racer: Racer)

  /** The result of a reach: the new controller, pawn and game state, or
      `Fault` where the source dereferences a null pointer or indexes out of
      bounds. */
  datatype Outcome = Outcome(c: Controller, pawn: Pawn, gameState: Option<RaceGameState.GameState>) | Fault

  /** The counting half of `OnWaypointReached`, for a racer pawn. */
  function CountReach(c: Controller, self: Ref, racer: Racer, reachedIndex: int,
                      gameState: Option<RaceGameState.GameState>): (res: (Racer, int))
  {
    if c.useGraph then GraphLap(racer, reachedIndex)
    else SequentialLap(racer, if gameState.Some? then Some(gameState.value.totalWaypoints) else None)
  }

  /** `OnWaypointReached`. `waypoints` is the race manager's array (`None`
      when there is no manager, which line 150 dereferences anyway); `pick`
      is the `RandRange` draw, used modulo the neighbour count so that every
      neighbour can be drawn. */
  function OnWaypointReached(c: Controller, reached: Ref, waypoints: Option<seq<Ref>>, pawn: Pawn,
                             gameState: Option<RaceGameState.GameState>, hash: M.Hasher, valid: Validity,
                             pick: nat): (out: Outcome)
    requires GraphOk(c, hash)
    ensures reached.Null? || reached != c.current ==> out == Outcome(c, pawn, gameState)
    ensures reached.Ref? && reached == c.current && waypoints.None? ==> out.Fault?
    ensures out.Outcome? && (reached.Null? || reached != c.current) ==> out.c.current == c.current
    ensures out.Outcome? && reached.Ref? && reached == c.current && c.useGraph && c.graph.Some? ==>
      var ns := G.GetNeighbors(c.graph.value, hash, valid, reached);
      (ns != [] ==> out.c.current in ns) &&
      (ns == [] ==> |waypoints.value| > 4 && out.c.current == waypoints.value[4])
    ensures out.Outcome? && reached.Ref? && reached == c.current && !(c.useGraph && c.graph.Some?) ==>
      out.c.current == if c.linkedList.Some? then CustomLinkedList.Successor(Contents(c.linkedList.value), reached)
                       else c.current
    ensures (reached.Ref? && reached == c.current && !(c.useGraph && c.graph.Some?) && c.linkedList.Some? &&
             CustomLinkedList.Successor(Contents(c.linkedList.value), reached).Null?) ==> out.Fault?
    ensures out.Outcome? && reached.Ref? && reached == c.current ==> out.c.current.Ref?
    ensures out.Outcome? ==> out.c == c.(current := out.c.current)
  {
    if reached.Null? || reached != c.current then Outcome(c, pawn, gameState)
    else if waypoints.None? then Fault
    else
      var ws := waypoints.value;
      var reachedIndex := Find(ws, AsWaypoint(reached));
      var counted: Option<(Pawn, Option<RaceGameState.GameState>)> :=
        match pawn
        case OtherPawn => Some((pawn, gameState))
        case RacerPawn(self, racer) =>
          if c.useGraph && c.graph.None? then None
          else
            var (racer', index) := CountReach(c, self, racer, reachedIndex, gameState);
            var gs' := if gameState.Some?
                       then Some(RaceGameState.UpdateRacerProgress(gameState.value, self, racer'.lapCount, index))
                       else None;
            Some((RacerPawn(self, racer'), gs'));
      if counted.None? then Fault
      else
        var (pawn', gs') := counted.value;
        if c.useGraph && c.graph.Some? then
          var ns := G.GetNeighbors(c.graph.value, hash, valid, reached);
          if |ns| > 0 then Outcome(c.(current := ns[pick % |ns|]), pawn', gs')
          else if |ws| > 4 && ws[4].Ref? then Outcome(c.(current := ws[4]), pawn', gs')
          else Fault
        else if c.linkedList.Some? then
          var next := CustomLinkedList.Successor(Contents(c.linkedList.value), reached);
          if next.Null? then Fault else Outcome(c.(current := next), pawn', gs')
        else Outcome(c, pawn', gs')
  }

  /** A reach of the current target by a racer in graph mode, with a
      neighbour to pick or a fifth waypoint to fall back on, does not fault
      and reports exactly the racer's new lap and the reached index (0 when
      not found) to the game state. */
  lemma ReachReportsProgress(c: Controller, reached: Ref, ws: seq<Ref>, self: Ref, racer: Racer,
                             gs: RaceGameState.GameState, hash: M.Hasher, valid: Validity, pick: nat)
    requires reached.Ref? && reached == c.current && c.useGraph && c.graph.Some? && GraphOk(c, hash)
    requires G.GetNeighbors(c.graph.value, hash, valid, reached) != [] || (|ws| > 4 && ws[4].Ref?)
    ensures var out := OnWaypointReached(c, reached, Some(ws), RacerPawn(self, racer), Some(gs), hash, valid, pick);
            var index := Find(ws, AsWaypoint(reached));
            var racer' := GraphLap(racer, index).0;
            out.Outcome? && out.pawn == RacerPawn(self, racer') &&
            out.gameState == Some(RaceGameState.UpdateRacerProgress(gs, self, racer'.lapCount,
                                                                    if index == -1 then 0 else index))
  {
    var index := Find(ws, AsWaypoint(reached));
    var (racer', reported) := GraphLap(racer, index);
    assert CountReach(c, self, racer, index, Some(gs)) == (racer', reported);
    assert reported == if index == -1 then 0 else index;
  }

  /** A reach of the current target by a racer in sequential mode, when the
      list has a successor for it, does not fault: the racer counts the reach
      against the game state's `TotalWaypoints`, the game state receives the
      racer's new lap and count, and the list successor becomes the target. */
  lemma SequentialReachReportsProgress(c: Controller, reached: Ref, ws: seq<Ref>, self: Ref, racer: Racer,
                                       gs: RaceGameState.GameState, hash: M.Hasher, valid: Validity, pick: nat)
    requires reached.Ref? && reached == c.current && !c.useGraph && c.linkedList.Some? && GraphOk(c, hash)
    requires CustomLinkedList.Successor(Contents(c.linkedList.value), reached).Ref?
    ensures var out := OnWaypointReached(c, reached, Some(ws), RacerPawn(self, racer), Some(gs), hash, valid, pick);
            var (racer', index) := SequentialLap(racer, Some(gs.totalWaypoints));
            out.Outcome? && out.pawn == RacerPawn(self, racer') &&
            out.gameState == Some(RaceGameState.UpdateRacerProgress(gs, self, racer'.lapCount, index)) &&
            out.c.current == CustomLinkedList.Successor(Contents(c.linkedList.value), reached)
  {
  }

  /** Every neighbour of the reached waypoint can become the next target. */
  lemma AnyNeighbourCanBeNext(c: Controller, reached: Ref, ws: seq<Ref>, pawn: Pawn,
                              gs: Option<RaceGameState.GameState>, hash: M.Hasher, valid: Validity, k: nat)
    requires reached.Ref? && reached == c.current && c.useGraph && c.graph.Some? && GraphOk(c, hash)
    requires pawn.OtherPawn?
    requires k < |G.GetNeighbors(c.graph.value, hash, valid, reached)|
    ensures OnWaypointReached(c, reached, Some(ws), pawn, gs, hash, valid, k) ==
            Outcome(c.(current := G.GetNeighbors(c.graph.value, hash, valid, reached)[k]), pawn, gs)
  {
    ModBelow(k, |G.GetNeighbors(c.graph.value, hash, valid, reached)|);
  }

  lemma ModBelow(k: nat, n: nat)
    requires k < n
    ensures k % n == k
  {
  }
}

=== FILE: audio_hash_map.dfy ===
/** `UHashMap`: the sound table, 16 chains of string-keyed entries with a
    `Size` counter. The hash is a 32-bit unsigned fold over the key's
    characters, wrapped explicitly. Keys are compared with `FString ==`,
    which ignores letter case. */
module AudioHashMap {
  import opened Base
  import opened Text

  /** `TableSize`. */
  const TableSize: int := 16

  /** The range of `uint32`. */
  const Word: int := 0x1_0000_0000

  /** `FHashMapEntry`: a key and a weak pointer to a sound asset. */
  datatype Entry = Entry(key: string, value: Ref)

  /** The chain table and the `Size` field. */
  datatype HashMap = HashMap(table: seq<seq<Entry>>, size: int)

  /* ---- Hash ---- */

  /** One iteration of the hash loop: `Hash = Hash * 31 + (c - 'A')` on `uint32`. */
  function HashStep(h: int, c: char): (r: int)
    ensures 0 <= r < Word
  {
    (h * 31 + (c as int - 'A' as int)) % Word
  }

  /** The 32-bit hash accumulated over every character of `key`, left to right. */
  function HashWord(key: string): (h: int)
    ensures 0 <= h < Word
    decreases |key|
  {
    if key == [] then 0 else HashStep(HashWord(key[..|key| - 1]), key[|key| - 1])
  }

  /** `Hash`: the 32-bit fold reduced modulo `TableSize`. */
  function Hash(key: string): (i: int)
    ensures 0 <= i < TableSize
  {
    HashWord(key) % TableSize
  }

  /** The same fold computed modulo 16 throughout, with no 32-bit word. */
  function HashLow(key: string): (h: int)
    ensures 0 <= h < TableSize
    decreases |key|
  {
    if key == [] then 0
    else (HashLow(key[..|key| - 1]) * 31 + (key[|key| - 1] as int - 'A' as int)) % TableSize
  }

  lemma ModWordLow(x: int)
    ensures (x % Word) % TableSize == x % TableSize
  {
    var q := x / Word;
    assert x == q * Word + x % Word;
    assert q * Word == (q * 0x1000_0000) * TableSize;
  }

  lemma MulAddLow(h: int, d: int)
    ensures (h * 31 + d) % TableSize == ((h % TableSize) * 31 + d) % TableSize
  {
    var a := h / TableSize;
    assert h == a * TableSize + h % TableSize;
    assert h * 31 + d == (a * 31) * TableSize + ((h % TableSize) * 31 + d);
  }

  /** The 32-bit wrap-around never changes the bucket: because 16 divides
      2^32, the bucket is the fold of the key taken modulo 16 at every step. */
  lemma {:induction false} HashIgnoresWrap(key: string)
    ensures Hash(key) == HashLow(key)
    decreases |key|
  {
    if key != [] {
      var prefix := key[..|key| - 1];
      var d := key[|key| - 1] as int - 'A' as int;
      HashIgnoresWrap(prefix);
      ModWordLow(HashWord(prefix) * 31 + d);
      MulAddLow(HashWord(prefix), d);
    }
  }

  /** Lower-casing a letter adds 32 to its code, a multiple of 16, so it
      never changes the bucket. */
  lemma {:induction false} HashLowFold(key: string)
    ensures HashLow(Fold(key)) == HashLow(key)
    decreases |key|
  {
    if key != [] {
      var n := |key| - 1;
      var c := key[n];
      assert Fold(key)[..n] == Fold(key[..n]);
      HashLowFold(key[..n]);
      var h := HashLow(key[..n]) * 31 + (c as int - 'A' as int);
      assert Fold(key)[n] == Lower(c);
      assert (h + 32) % TableSize == h % TableSize;
    }
  }

  /** Keys equal up to case hash to the same bucket. */
  lemma SameNameSameHash(a: string, b: string)
    requires SameName(a, b)
    ensures Hash(a) == Hash(b)
  {
    HashIgnoresWrap(a);
    HashIgnoresWrap(b);
    HashIgnoresWrap(Fold(a));
    HashLowFold(a);
    HashLowFold(b);
  }

  /* ---- Chains ---- */

  /** Position of the first entry of `chain` whose key equals `key` up to
      case (the range-for search of `Add`, `Get` and `Remove`). */
  function FindIn(chain: seq<Entry>, key: string): (r: Option<nat>)
    ensures r.Some? ==> r.value < |chain| && SameName(chain[r.value].key, key)
    ensures r.Some? ==> forall j :: 0 <= j < r.value ==> !SameName(chain[j].key, key)
    ensures r.None? ==> forall j :: 0 <= j < |chain| ==> !SameName(chain[j].key, key)
  {
    if chain == [] then None
    else if SameName(chain[0].key, key) then Some(0)
    else match FindIn(chain[1..], key)
      case None => None
      case Some(i) => Some(i + 1)
  }

  /** A search result is determined by where the key first occurs. */
  lemma FindInFirst(chain: seq<Entry>, key: string, i: nat)
    requires i < |chain| && SameName(chain[i].key, key)
    requires forall j :: 0 <= j < i ==> !SameName(chain[j].key, key)
    ensures FindIn(chain, key) == Some(i)
  {
  }

  lemma FindSameKeys(c: seq<Entry>, c': seq<Entry>, key: string)
    requires |c| == |c'| && forall i :: 0 <= i < |c| ==> c[i].key == c'[i].key
    ensures FindIn(c, key) == FindIn(c', key)
  {
    var r := FindIn(c, key);
    if r.Some? {
      FindInFirst(c', key, r.value);
    }
  }

  /** Searching for two spellings of the same key finds the same entry. */
  lemma FindInCase(chain: seq<Entry>, a: string, b: string)
    requires SameName(a, b)
    ensures FindIn(chain, a) == FindIn(chain, b)
  {
    var r := FindIn(chain, a);
    if r.Some? {
      FindInFirst(chain, b, r.value);
    }
  }

  function LookupChain(chain: seq<Entry>, key: string): Option<Ref>
  {
    match FindIn(chain, key)
    case None => None
    case Some(i) => Some(chain[i].value)
  }

  /** No two keys of a chain are equal up to case. */
  predicate UniqueKeys(chain: seq<Entry>)
  {
    forall i, j :: 0 <= i < j < |chain| ==> !SameName(chain[i].key, chain[j].key)
  }

  /** The total number of entries over all chains. */
  function Total(t: seq<seq<Entry>>): int
  {
    if t == [] then 0 else |t[0]| + Total(t[1..])
  }

  lemma {:induction false} TotalUpdate(t: seq<seq<Entry>>, b: nat, c: seq<Entry>)
    requires b < |t|
    ensures Total(t[b := c]) == Total(t) - |t[b]| + |c|
  {
    if b > 0 {
      assert t[b := c][1..] == t[1..][b - 1 := c];
      TotalUpdate(t[1..], b - 1, c);
    }
  }

  /* ---- Invariant and abstraction ---- */

  /** Sixteen chains, each entry in the chain its key hashes to, no key twice
      in a chain (up to case), and `Size` counting the entries. */
  ghost predicate Inv(m: HashMap)
  {
    |m.table| == TableSize &&
    (forall b, i :: 0 <= b < TableSize && 0 <= i < |m.table[b]| ==> Hash(m.table[b][i].key) == b) &&
    (forall b :: 0 <= b < TableSize ==> UniqueKeys(m.table[b])) &&
    m.size == Total(m.table)
  }

  /** The partial map from keys to stored sound pointers. */
  function Lookup(m: HashMap, key: string): Option<Ref>
    requires |m.table| == TableSize
  {
    LookupChain(m.table[Hash(key)], key)
  }

  /** The map does not distinguish spellings of a key that differ only in case. */
  lemma LookupIgnoresCase(m: HashMap, a: string, b: string)
    requires |m.table| == TableSize && SameName(a, b)
    ensures Lookup(m, a) == Lookup(m, b)
  {
    SameNameSameHash(a, b);
    FindInCase(m.table[Hash(a)], a, b);
  }

  /* ---- Operations ---- */

  /** The constructor: sixteen empty chains and `Size = 0`. */
  function New(): (m: HashMap)
    ensures Inv(m)
    ensures forall key :: Lookup(m, key) == None
  {
    var t := seq(TableSize, _ => []);
    assert Total(t) == 0 by {
      assert forall k :: 0 <= k <= TableSize ==> Total(t[k..]) == 0 by {
        forall k | 0 <= k <= TableSize
          ensures Total(t[k..]) == 0
        {
          TotalOfEmpties(t[k..]);
        }
      }
      assert t[0..] == t;
    }
    HashMap(t, 0)
  }

  lemma {:induction false} TotalOfEmpties(t: seq<seq<Entry>>)
    requires forall b :: 0 <= b < |t| ==> t[b] == []
    ensures Total(t) == 0
  {
    if t != [] {
      TotalOfEmpties(t[1..]);
    }
  }

  /** `Add`: overwrites the value of the entry whose key equals `key` up to
      case, keeping that entry's spelling; otherwise appends an entry to the
      key's chain and increments `Size`. */
  function Add(m: HashMap, key: string, v: Ref): (r: HashMap)
    requires Inv(m)
    ensures Inv(r)
    ensures forall k :: SameName(k, key) ==> Lookup(r, k) == Some(v)
    ensures forall k :: !SameName(k, key) ==> Lookup(r, k) == Lookup(m, k)
    ensures r.size == if Lookup(m, key).Some? then m.size else m.size + 1
  {
    var b := Hash(key);
    var chain := m.table[b];
    match FindIn(chain, key)
    case Some(i) =>
      OverwriteOk(m, key, v, i);
      var r := HashMap(m.table[b := chain[i := chain[i].(value := v)]], m.size);
      SpellingsAgree(r, key);
      r
    case None =>
      AppendOk(m, key, v);
      var r := HashMap(m.table[b := chain + [Entry(key, v)]], m.size + 1);
      SpellingsAgree(r, key);
      r
  }

  /** Every spelling of `key` reads what `key` reads. */
  lemma SpellingsAgree(m: HashMap, key: string)
    requires |m.table| == TableSize
    ensures forall k :: SameName(k, key) ==> Lookup(m, k) == Lookup(m, key)
  {
    forall k | SameName(k, key)
      ensures Lookup(m, k) == Lookup(m, key)
    {
      LookupIgnoresCase(m, k, key);
    }
  }

  /** The overwriting branch of `Add` keeps the invariant and changes only `key`. */
  lemma OverwriteOk(m: HashMap, key: string, v: Ref, i: nat)
    requires Inv(m) && FindIn(m.table[Hash(key)], key) == Some(i)
    ensures var b := Hash(key);
            var r := HashMap(m.table[b := m.table[b][i := m.table[b][i].(value := v)]], m.size);
            Inv(r) && Lookup(r, key) == Some(v) &&
            forall k :: !SameName(k, key) ==> Lookup(r, k) == Lookup(m, k)
  {
    var b := Hash(key);
    var c := m.table[b][i := m.table[b][i].(value := v)];
    OverwriteInChain(m.table[b], key, v, i);
    ReplaceChain(m, b, c);
  }

  /** Overwriting the value of `key`'s entry keeps every key in place, gives
      `key` the new value and keeps every other key's value. */
  lemma OverwriteInChain(chain: seq<Entry>, key: string, v: Ref, i: nat)
    requires FindIn(chain, key) == Some(i)
    ensures var c := chain[i := chain[i].(value := v)];
            (forall j :: 0 <= j < |c| ==> c[j].key == chain[j].key) &&
            (UniqueKeys(chain) ==> UniqueKeys(c)) &&
            LookupChain(c, key) == Some(v) &&
            forall k :: !SameName(k, key) ==> LookupChain(c, k) == LookupChain(chain, k)
  {
    var c := chain[i := chain[i].(value := v)];
    forall k
      ensures FindIn(c, k) == FindIn(chain, k)
    {
      FindSameKeys(chain, c, k);
    }
  }

  /** The appending branch of `Add` keeps the invariant and changes only `key`. */
  lemma AppendOk(m: HashMap, key: string, v: Ref)
    requires Inv(m) && FindIn(m.table[Hash(key)], key).None?
    ensures var b := Hash(key);
            var r := HashMap(m.table[b := m.table[b] + [Entry(key, v)]], m.size + 1);
            Inv(r) && Lookup(r, key) == Some(v) &&
            forall k :: !SameName(k, key) ==> Lookup(r, k) == Lookup(m, k)
  {
    var b := Hash(key);
    var chain := m.table[b];
    var chain' := chain + [Entry(key, v)];
    AppendToChain(chain, key, v);
    ReplaceChain(m, b, chain');
  }

  /** Appending an entry for a key the chain lacks keeps unique keys, adds
      that key and keeps every other key's value. */
  lemma AppendToChain(chain: seq<Entry>, key: string, v: Ref)
    requires UniqueKeys(chain) && FindIn(chain, key).None?
    ensures var c := chain + [Entry(key, v)];
            UniqueKeys(c) && LookupChain(c, key) == Some(v) &&
            forall k :: !SameName(k, key) ==> LookupChain(c, k) == LookupChain(chain, k)
  {
    var c := chain + [Entry(key, v)];
    FindInFirst(c, key, |chain|);
    forall k | !SameName(k, key)
      ensures LookupChain(c, k) == LookupChain(chain, k)
    {
      var f := FindIn(chain, k);
      if f.Some? {
        FindInFirst(c, k, f.value);
      }
    }
  }

  /** `Get`: the stored pointer, which reads as null once the sound it
      referred to is gone; null for a missing key. */
  function Get(m: HashMap, valid: Validity, key: string): (r: Ref)
    requires Inv(m)
    ensures Lookup(m, key).None? ==> r == Null
    ensures Lookup(m, key).Some? && Live(valid, Lookup(m, key).value) ==> r == Lookup(m, key).value
    ensures Lookup(m, key).Some? && !Live(valid, Lookup(m, key).value) ==> r == Null
  {
    var chain := m.table[Hash(key)];
    match FindIn(chain, key)
    case None => Null
    case Some(i) => if Live(valid, chain[i].value) then chain[i].value else Null
  }

  /** `Remove`: deletes the entry whose key equals `key` up to case and
      decrements `Size`; nothing happens for a missing key. */
  function Remove(m: HashMap, key: string): (r: HashMap)
    requires Inv(m)
    ensures Inv(r)
    ensures forall k :: SameName(k, key) ==> Lookup(r, k) == None
    ensures forall k :: !SameName(k, key) ==> Lookup(r, k) == Lookup(m, k)
    ensures r.size == if Lookup(m, key).Some? then m.size - 1 else m.size
  {
    var b := Hash(key);
    var chain := m.table[b];
    match FindIn(chain, key)
    case None =>
      SpellingsAgree(m, key);
      m
    case Some(i) =>
      DeleteOk(m, key, i);
      var r := HashMap(m.table[b := chain[..i] + chain[i + 1..]], m.size - 1);
      SpellingsAgree(r, key);
      r
  }

  /** The deleting branch of `Remove` keeps the invariant and changes only `key`. */
  lemma DeleteOk(m: HashMap, key: string, i: nat)
    requires Inv(m) && FindIn(m.table[Hash(key)], key) == Some(i)
    ensures var b := Hash(key);
            var r := HashMap(m.table[b := m.table[b][..i] + m.table[b][i + 1..]], m.size - 1);
            Inv(r) && Lookup(r, key) == None &&
            forall k :: !SameName(k, key) ==> Lookup(r, k) == Lookup(m, k)
  {
    var b := Hash(key);
    var chain := m.table[b];
    var chain' := chain[..i] + chain[i + 1..];
    DeleteFromChain(chain, key, i);
    DeleteKeepsBucket(chain, i, b, chain');
    ReplaceChain(m, b, chain');
  }

  /** Deleting an entry keeps every remaining key in its chain. */
  lemma DeleteKeepsBucket(chain: seq<Entry>, i: nat, b: int, c: seq<Entry>)
    requires i < |chain| && forall j :: 0 <= j < |chain| ==> Hash(chain[j].key) == b
    requires c == chain[..i] + chain[i + 1..]
    ensures forall j :: 0 <= j < |c| ==> Hash(c[j].key) == b
  {
    DeletedAt(chain, i);
  }

  /** Deleting entry `i`, the first matching `key`, from a chain with unique
      keys leaves unique keys, loses `key` and keeps every other key's value. */
  lemma DeleteFromChain(chain: seq<Entry>, key: string, i: nat)
    requires UniqueKeys(chain) && FindIn(chain, key) == Some(i)
    ensures var c := chain[..i] + chain[i + 1..];
            |c| == |chain| - 1 && UniqueKeys(c) &&
            (forall j :: 0 <= j < |c| ==> c[j] == (if j < i then chain[j] else chain[j + 1])) &&
            LookupChain(c, key) == None &&
            forall k :: !SameName(k, key) ==> LookupChain(c, k) == LookupChain(chain, k)
  {
    var c := chain[..i] + chain[i + 1..];
    DeletedAt(chain, i);
    assert forall j :: 0 <= j < |c| ==> !SameName(c[j].key, key) by {
      forall j | 0 <= j < |c|
        ensures !SameName(c[j].key, key)
      {
        if j < i {
          assert c[j] == chain[j];
        } else {
          assert c[j] == chain[j + 1];
          assert !SameName(chain[i].key, chain[j + 1].key);
        }
      }
    }
    forall k | !SameName(k, key)
      ensures LookupChain(c, k) == LookupChain(chain, k)
    {
      DeleteOther(chain, i, k);
    }
  }

  /** Position by position, deleting entry `i` shifts the later entries down. */
  lemma DeletedAt(chain: seq<Entry>, i: nat)
    requires i < |chain|
    ensures var c := chain[..i] + chain[i + 1..];
            |c| == |chain| - 1 &&
            (forall j :: 0 <= j < |c| ==> c[j] == (if j < i then chain[j] else chain[j + 1])) &&
            (UniqueKeys(chain) ==> UniqueKeys(c))
  {
  }

  /** Deleting an entry whose key differs from `k` keeps `k`'s value. */
  lemma DeleteOther(chain: seq<Entry>, i: nat, k: string)
    requires i < |chain| && !SameName(chain[i].key, k)
    ensures LookupChain(chain[..i] + chain[i + 1..], k) == LookupChain(chain, k)
  {
    var c := chain[..i] + chain[i + 1..];
    DeletedAt(chain, i);
    var f := FindIn(chain, k);
    if f.Some? {
      if f.value < i {
        FindInFirst(c, k, f.value);
      } else {
        FindInFirst(c, k, f.value - 1);
      }
    }
  }

  /** Replacing one chain by another whose keys are unique and hash to that
      chain, and adjusting `Size` by the change in length, keeps the invariant. */
  lemma ReplaceChain(m: HashMap, b: nat, c: seq<Entry>)
    requires Inv(m) && b < TableSize
    requires forall j :: 0 <= j < |c| ==> Hash(c[j].key) == b
    requires UniqueKeys(c)
    ensures Inv(HashMap(m.table[b := c], m.size - |m.table[b]| + |c|))
  {
    TotalUpdate(m.table, b, c);
  }

  /** `GetSize`: reads `Size`, the number of stored entries. */
  function GetSize(m: HashMap): (n: int)
    requires Inv(m)
    ensures n == Total(m.table)
  {
    m.size
  }

  /** After adding a key with a live sound, `Get` returns that sound for
      every spelling of the key. */
  lemma AddThenGet(m: HashMap, valid: Validity, key: string, k: string, v: Ref)
    requires Inv(m) && Live(valid, v) && SameName(k, key)
    ensures Get(Add(m, key, v), valid, k) == v
  {
  }

  /** Re-adding an existing key leaves the size unchanged; adding then
      removing a new key restores the size. */
  lemma AddRemoveSize(m: HashMap, key: string, v: Ref)
    requires Inv(m)
    ensures Lookup(m, key).None? ==> Remove(Add(m, key, v), key).size == m.size
    ensures Lookup(m, key).Some? ==> Add(m, key, v).size == m.size
  {
  }

  /** Adding two spellings of one key stores a single entry holding the
      second value: the size grows once and every spelling reads it. */
  lemma AddCaseVariants(m: HashMap, valid: Validity, a: string, b: string, v1: Ref, v2: Ref)
    requires Inv(m) && SameName(a, b) && Live(valid, v2)
    ensures GetSize(Add(Add(m, a, v1), b, v2)) == GetSize(Add(m, a, v1))
    ensures forall k :: SameName(k, a) ==> Get(Add(Add(m, a, v1), b, v2), valid, k) == v2
  {
    var m1 := Add(m, a, v1);
    LookupIgnoresCase(m1, a, b);
  }

  /** For instance, "Jump", "jump" and "JUMP" name one sound. */
  lemma JumpSpellings()
    ensures SameName("Jump", "jump") && SameName("JUMP", "Jump")
  {
    assert Fold("Jump") == "jump";
    assert Fold("jump") == "jump";
    assert Fold("JUMP") == "jump";
  }
}

=== FILE: base.dfy ===
/** Shared vocabulary of the gameplay model: optional values, engine actors and
    raw actor pointers, and the C++ integer remainder. */
module Base {

  /** A value that may be absent (a null `V*` return, an unset field). */
  datatype Option<T> = None | Some(value: T)

  /** The engine classes the gameplay code casts actors to. */
  datatype ActorKind = WaypointActor | CheckpointActor | PlayerHamster | AIRacer | OtherActor

  /** An engine actor. Two actors are the same object exactly when they are equal. */
  datatype Actor = Actor(id: nat, kind: ActorKind, name: string)

  /** A raw `AActor*`: null or a pointer to an actor. */
  datatype Ref = Null | Ref(actor: Actor)

  /** The engine's `IsValidLowLevel` / `IsValid` test, which the game cannot
      see into; every operation that consults it takes it as a parameter. */
  type Validity = Actor -> bool

  /** `p && p->IsValidLowLevel()`: a non-null pointer to a live actor. */
  predicate Live(valid: Validity, p: Ref)
  {
    p.Ref? && valid(p.actor)
  }

  /** `Cast<K>(p) != nullptr`: a non-null pointer to an actor of class `k`. */
  predicate IsA(p: Ref, k: ActorKind)
  {
    p.Ref? && p.actor.kind == k
  }

  function Abs(x: int): (r: int)
    ensures r >= 0 && (r == x || r == -x)
  {
    if x < 0 then -x else x
  }

  /** C++ `a % b` on signed integers: the quotient is truncated toward zero,
      so the remainder takes the sign of the dividend. */
  function CppRem(a: int, b: int): (r: int)
    requires b != 0
    ensures a >= 0 ==> 0 <= r < Abs(b)
    ensures a < 0 ==> -Abs(b) < r <= 0
    ensures a >= 0 && b > 0 ==> r == a % b
  {
    var m := Abs(b);
    if a >= 0 then
      assert 0 <= a % m < m;
      a % m
    else
      assert 0 <= (-a) % m < m;
      -((-a) % m)
  }

  /** The elements of `xs` that satisfy `p`, in order. */
  function Filter<T>(xs: seq<T>, p: T -> bool): seq<T>
  {
    if xs == [] then [] else (if p(xs[0]) then [xs[0]] else []) + Filter(xs[1..], p)
  }

  /** The elements of `xs` that do NOT satisfy `p`, in order. */
  function Reject<T>(xs: seq<T>, p: T -> bool): seq<T>
  {
    if xs == [] then [] else (if p(xs[0]) then [] else [xs[0]]) + Reject(xs[1..], p)
  }

  lemma {:induction false} FilterMembership<T>(xs: seq<T>, p: T -> bool, x: T)
    ensures x in Filter(xs, p) <==> x in xs && p(x)
  {
    if xs != [] {
      FilterMembership(xs[1..], p, x);
      assert xs == [xs[0]] + xs[1..];
    }
  }

  lemma {:induction false} RejectMembership<T>(xs: seq<T>, p: T -> bool, x: T)
    ensures x in Reject(xs, p) <==> x in xs && !p(x)
  {
    if xs != [] {
      RejectMembership(xs[1..], p, x);
      assert xs == [xs[0]] + xs[1..];
    }
  }

  lemma {:induction false} FilterAppend<T>(xs: seq<T>, ys: seq<T>, p: T -> bool)
    ensures Filter(xs + ys, p) == Filter(xs, p) + Filter(ys, p)
  {
    if xs != [] {
      assert (xs + ys)[1..] == xs[1..] + ys;
      FilterAppend(xs[1..], ys, p);
    } else {
      assert xs + ys == ys;
    }
  }

  /** One step of `Filter`. */
  lemma FilterCons<T>(xs: seq<T>, p: T -> bool)
    requires xs != []
    ensures Filter(xs, p) == (if p(xs[0]) then [xs[0]] else []) + Filter(xs[1..], p)
  {
  }

  lemma {:induction false} FilterAll<T>(xs: seq<T>, p: T -> bool)
    requires forall i :: 0 <= i < |xs| ==> p(xs[i])
    ensures Filter(xs, p) == xs
  {
    if xs != [] {
      FilterAll(xs[1..], p);
    }
  }

  /** No value occurs twice. */
  predicate NoDup<T(==)>(xs: seq<T>)
  {
    forall i, j :: 0 <= i < j < |xs| ==> xs[i] != xs[j]
  }

  /** Index of the first occurrence of `x` in `xs`. */
  function IndexOf<T(==)>(xs: seq<T>, x: T): (i: nat)
    requires x in xs
    ensures i < |xs| && xs[i] == x
    ensures forall j :: 0 <= j < i ==> xs[j] != x
  {
    if xs[0] == x then 0 else 1 + IndexOf(xs[1..], x)
  }
}

=== FILE: checkpoint.dfy ===
/** `ACheckpointManager`: the checkpoint race's stack of remaining
    checkpoints, the list used to refill it each lap, the lap counter and the
    one-reach-per-tick guard. */
module CheckpointManager {
  import opened Base
  import S = CheckStack

  datatype Manager = Manager(stack: S.Stack<Ref>, all: seq<Ref>, cleared: bool,
                             currentLap: int, totalLaps: int)

  /** The stack is well formed and the lap counter stays within 1..TotalLaps. */
  ghost predicate Inv(cm: Manager)
  {
    S.Valid(cm.stack) && 1 <= cm.currentLap <= cm.totalLaps
  }

  /** The checkpoints still to pass, next one first. */
  function Remaining(cm: Manager): seq<Ref>
  {
    S.Items(cm.stack)
  }

  /** The field initialisers: not cleared, two laps, starting on lap 1. */
  function Init(): (cm: Manager)
    ensures Inv(cm) && Remaining(cm) == [] && cm.all == []
    ensures !cm.cleared && cm.currentLap == 1 && cm.totalLaps == 2
  {
    Manager(S.Empty(), [], false, 1, 2)
  }

  /** `IsValid(Checkpoint)`. */
  function IsLive(valid: Validity): Ref -> bool
  {
    (c: Ref) => Live(valid, c)
  }

  /** `Cast<ACheckpointActor>(Actor)` succeeding. */
  function IsCheckpoint(): Ref -> bool
  {
    (c: Ref) => IsA(c, CheckpointActor)
  }

  /** `AddCheckpoint`: pushes a non-null checkpoint. */
  function AddCheckpoint(cm: Manager, c: Ref): (r: Manager)
    requires Inv(cm)
    ensures Inv(r)
    ensures c.Null? ==> r == cm
    ensures c.Ref? ==> Remaining(r) == [c] + Remaining(cm) && r == cm.(stack := r.stack)
  {
    if c.Ref? then cm.(stack := S.Push(cm.stack, c)) else cm
  }

  /** `BeginPlay`: every found actor that is a checkpoint is pushed and
      remembered for later laps. */
  function BeginPlay(cm: Manager, found: seq<Ref>): (r: Manager)
    requires Inv(cm)
    ensures Inv(r)
    ensures r.all == cm.all + Filter(found, IsCheckpoint())
    ensures Remaining(r) == S.Reverse(Filter(found, IsCheckpoint())) + Remaining(cm)
    ensures r.cleared == cm.cleared && r.currentLap == cm.currentLap && r.totalLaps == cm.totalLaps
  {
    var cps := Filter(found, IsCheckpoint());
    S.PushAllItems(cm.stack, cps);
    Manager(S.PushAll(cm.stack, cps), cm.all + cps, cm.cleared, cm.currentLap, cm.totalLaps)
  }

  /** `ResetCheckpoints`: pushes every still-valid remembered checkpoint, in
      the order they were found. */
  function ResetCheckpoints(cm: Manager, valid: Validity): (r: Manager)
    requires Inv(cm)
    ensures Inv(r)
    ensures Remaining(r) == S.Reverse(Filter(cm.all, IsLive(valid))) + Remaining(cm)
    ensures r == cm.(stack := r.stack)
  {
    var live := Filter(cm.all, IsLive(valid));
    S.PushAllItems(cm.stack, live);
    cm.(stack := S.PushAll(cm.stack, live))
  }

  /** `PlayerReachedCheckpoint`: ignored while the guard is set; otherwise
      sets the guard, pops the next checkpoint, and when that empties the
      stack on a lap before the last, advances the lap and refills the stack. */
  function PlayerReachedCheckpoint(cm: Manager, valid: Validity): (r: Manager)
    requires Inv(cm)
    ensures Inv(r)
    ensures cm.cleared ==> r == cm
    ensures !cm.cleared ==> r.cleared && r.all == cm.all && r.totalLaps == cm.totalLaps
    ensures !cm.cleared && |Remaining(cm)| > 1 ==>
      Remaining(r) == Remaining(cm)[1..] && r.currentLap == cm.currentLap
    ensures !cm.cleared && |Remaining(cm)| <= 1 && cm.currentLap < cm.totalLaps ==>
      r.currentLap == cm.currentLap + 1 && Remaining(r) == S.Reverse(Filter(cm.all, IsLive(valid)))
    ensures !cm.cleared && |Remaining(cm)| <= 1 && cm.currentLap == cm.totalLaps ==>
      r.currentLap == cm.currentLap && Remaining(r) == []
  {
    if cm.cleared then cm
    else
      var popped := S.Pop(cm.stack, Null);
      var cm1 := cm.(cleared := true, stack := popped.stack);
      if S.IsEmpty(cm1.stack) then
        if cm1.currentLap < cm1.totalLaps then
          ResetCheckpoints(cm1.(currentLap := cm1.currentLap + 1), valid)
        else cm1
      else cm1
  }

  /** The next-tick timer set by `PlayerReachedCheckpoint`: clears the guard. */
  function NextTick(cm: Manager): (r: Manager)
    ensures !r.cleared && r == cm.(cleared := false)
  {
    cm.(cleared := false)
  }

  /** Two reaches in the same tick count once. */
  lemma ReachTwiceInOneTick(cm: Manager, valid: Validity)
    requires Inv(cm)
    ensures PlayerReachedCheckpoint(PlayerReachedCheckpoint(cm, valid), valid) ==
            PlayerReachedCheckpoint(cm, valid)
  {
  }

  /** `GetNextCheckpoint`: the top of the stack when there is one and it is
      valid, null otherwise. */
  function GetNextCheckpoint(cm: Manager, valid: Validity): (c: Ref)
    ensures Remaining(cm) != [] && Live(valid, Remaining(cm)[0]) ==> c == Remaining(cm)[0]
    ensures Remaining(cm) == [] || !Live(valid, Remaining(cm)[0]) ==> c == Null
  {
    var peeked := S.Peek(cm.stack, Null);
    if peeked.ok && Live(valid, peeked.item) then peeked.item else Null
  }

  /** `GetRemainingCheckpoint`: the stack size. */
  function GetRemainingCheckpoint(cm: Manager): (n: int)
    requires Inv(cm)
    ensures n == |Remaining(cm)|
  {
    S.Size(cm.stack)
  }

  /** The first loop of `DebugCheckpointStatus`: pops until the stack is
      empty, collecting the valid checkpoints in popped order. */
  method PopValid(s: S.Stack<Ref>, valid: Validity) returns (kept: seq<Ref>)
    requires S.Valid(s)
    ensures kept == Filter(S.Items(s), IsLive(valid))
  {
    var live := IsLive(valid);
    var stack := s;
    kept := [];
    while !S.IsEmpty(stack)
      invariant S.Valid(stack)
      invariant kept + Filter(S.Items(stack), live) == Filter(S.Items(s), live)
      decreases |S.Items(stack)|
    {
      ghost var items := S.Items(stack);
      var popped := S.Pop(stack, Null);
      FilterCons(items, live);
      if popped.ok && Live(valid, popped.item) {
        assert kept + Filter(items, live) == (kept + [popped.item]) + Filter(items[1..], live);
        kept := kept + [popped.item];
      }
      stack := popped.stack;
    }
  }

  /** The second loop: pushes the kept checkpoints back, last one first. */
  method PushBack(s: S.Stack<Ref>, kept: seq<Ref>) returns (r: S.Stack<Ref>)
    requires S.Valid(s) && S.Items(s) == []
    ensures S.Valid(r) && S.Items(r) == kept
  {
    r := s;
    var i := |kept| - 1;
    while i >= 0
      invariant -1 <= i < |kept|
      invariant S.Valid(r)
      invariant S.Items(r) == kept[i + 1..]
      decreases i
    {
      assert kept[i..] == [kept[i]] + kept[i + 1..];
      r := S.Push(r, kept[i]);
      i := i - 1;
    }
  }

  /** `DebugCheckpointStatus`: on a non-empty stack, pops every checkpoint
      keeping the valid ones, then pushes those back. The stack ends up
      holding its valid checkpoints in the original order; invalid ones are
      dropped. */
  method DebugCheckpointStatus(cm: Manager, valid: Validity) returns (r: Manager)
    requires Inv(cm)
    ensures Inv(r)
    ensures Remaining(r) == Filter(Remaining(cm), IsLive(valid))
    ensures (forall k :: 0 <= k < |Remaining(cm)| ==> Live(valid, Remaining(cm)[k])) ==>
      Remaining(r) == Remaining(cm)
    ensures r == cm.(stack := r.stack)
  {
    if forall k :: 0 <= k < |Remaining(cm)| ==> Live(valid, Remaining(cm)[k]) {
      FilterAll(Remaining(cm), IsLive(valid));
    }
    if S.IsEmpty(cm.stack) {
      return cm;
    }
    var kept := PopValid(cm.stack, valid);
    var stack := PushBack(S.Empty(), kept);
    r := cm.(stack := stack);
  }

  /** When every remembered checkpoint is still valid, each lap refill
      restores exactly the order the race started with. */
  lemma RefillMatchesStart(found: seq<Ref>, valid: Validity)
    requires forall k :: 0 <= k < |Filter(found, IsCheckpoint())| ==> Live(valid, Filter(found, IsCheckpoint())[k])
    ensures Remaining(ResetCheckpoints(BeginPlay(Init(), found).(stack := S.Empty()), valid)) ==
            Remaining(BeginPlay(Init(), found))
  {
    var cps := Filter(found, IsCheckpoint());
    FilterAll(cps, IsLive(valid));
    assert BeginPlay(Init(), found).all == cps;
  }
}

=== FILE: dialogue.dfy ===
/** `UDialogue_Data`: the dialogue lines of one level, loaded from a JSON array
    into a `DialogueQueueTemp<FDialogue_Item>` and handed out one at a time. */
module DialogueData {
  import Q = DialogueQueue

  /** `FDialogue_Item`. */
  datatype Item = Item(name: string, speakerName: string, speakerPortrait: string,
                       dialogueText: string, age: int)

  /** The default-constructed item: empty strings and age 0. */
  const DefaultItem: Item := Item("", "", "", "", 0)

  /** One element of the parsed JSON array: not an object, an object that
      does not convert to an item, or one that does. */
  datatype Entry = NotAnObject | NotConvertible | Convertible(item: Item)

  /** What the file and JSON libraries make of the named file: it does not
      exist, it cannot be read, it does not parse as an array, or the array. */
  datatype FileInput = Missing | Unreadable | NotAnArray | Parsed(entries: seq<Entry>)

  datatype Data = Data(queue: Q.Queue<Item>)

  /** The dialogue lines still to be shown, front first. */
  function Lines(d: Data): seq<Item>
  {
    Q.Items(d.queue)
  }

  ghost predicate Valid(d: Data)
  {
    Q.Valid(d.queue)
  }

  /** A fresh object: the queue member is default-constructed, so empty. */
  function Empty(): (d: Data)
    ensures Valid(d) && Lines(d) == []
  {
    Data(Q.Empty())
  }

  /** The items of the convertible entries, in array order. */
  function Loaded(es: seq<Entry>): (r: seq<Item>)
    ensures |r| <= |es|
  {
    if es == [] then []
    else (if es[0].Convertible? then [es[0].item] else []) + Loaded(es[1..])
  }

  /** The loop over the array: invalid and unconvertible entries are skipped,
      the rest enqueued in order. */
  function EnqueueEntries(q: Q.Queue<Item>, es: seq<Entry>): (r: Q.Queue<Item>)
    requires Q.Valid(q)
    ensures Q.Valid(r)
    ensures Q.Items(r) == Q.Items(q) + Loaded(es)
    decreases |es|
  {
    if es == [] then q
    else if es[0].Convertible? then
      var q' := Q.Enqueue(q, es[0].item);
      var rest := EnqueueEntries(q', es[1..]);
      assert Loaded(es) == [es[0].item] + Loaded(es[1..]);
      assert Q.Items(rest) == (Q.Items(q) + [es[0].item]) + Loaded(es[1..]);
      rest
    else
      assert Loaded(es) == Loaded(es[1..]);
      EnqueueEntries(q, es[1..])
  }

  /** `LoadDialogue`: the queue is cleared first; the result is true exactly
      when the file parsed as an array, and the queue then holds the
      convertible entries in order (even if some were skipped). */
  function LoadDialogue(d: Data, file: FileInput): (r: (Data, bool))
    requires Valid(d)
    ensures Valid(r.0)
    ensures r.1 <==> file.Parsed?
    ensures !r.1 ==> Lines(r.0) == []
    ensures file.Parsed? ==> Lines(r.0) == Loaded(file.entries)
  {
    var cleared := Q.Clear(d.queue);
    match file
    case Parsed(es) => (Data(EnqueueEntries(cleared, es)), true)
    case _ => (Data(cleared), false)
  }

  /** Whatever was queued before plays no part in a load. */
  lemma LoadForgetsPrevious(d1: Data, d2: Data, file: FileInput)
    requires Valid(d1) && Valid(d2)
    ensures Lines(LoadDialogue(d1, file).0) == Lines(LoadDialogue(d2, file).0)
    ensures LoadDialogue(d1, file).1 == LoadDialogue(d2, file).1
  {
  }

  /** An array of convertible objects is loaded in full. */
  lemma {:induction false} LoadedAllConvertible(es: seq<Entry>)
    requires forall i :: 0 <= i < |es| ==> es[i].Convertible?
    ensures |Loaded(es)| == |es|
    ensures forall i :: 0 <= i < |es| ==> Loaded(es)[i] == es[i].item
  {
    if es != [] {
      LoadedAllConvertible(es[1..]);
    }
  }

  /** `GetNextDialogue`: removes and returns the front line, or returns the
      default item when there is none. */
  function GetNextDialogue(d: Data): (r: (Data, Item))
    requires Valid(d)
    ensures Valid(r.0)
    ensures Lines(d) != [] ==> r.1 == Lines(d)[0] && Lines(r.0) == Lines(d)[1..]
    ensures Lines(d) == [] ==> r.1 == DefaultItem && r.0 == d
  {
    var t := Q.Dequeue(d.queue, DefaultItem);
    (Data(t.queue), t.item)
  }

  /** `IsQueueEmpty`. */
  function IsQueueEmpty(d: Data): (b: bool)
    ensures b <==> Lines(d) == []
  {
    Q.IsEmpty(d.queue)
  }

  /** `n` calls of `GetNextDialogue`: the items returned, in order. */
  function GetNextN(d: Data, n: nat): (r: (seq<Item>, Data))
    requires Valid(d)
    ensures Valid(r.1)
    ensures |r.0| == n
    decreases n
  {
    if n == 0 then ([], d)
    else
      var (d', x) := GetNextDialogue(d);
      var (xs, d'') := GetNextN(d', n - 1);
      ([x] + xs, d'')
  }

  /** Taking `n` lines returns the first `n` queued lines and leaves the rest. */
  lemma {:induction false} GetNextNTakesPrefix(d: Data, n: nat)
    requires Valid(d) && n <= |Lines(d)|
    ensures GetNextN(d, n).0 == Lines(d)[..n]
    ensures Lines(GetNextN(d, n).1) == Lines(d)[n..]
    decreases n
  {
    if n > 0 {
      var (d', x) := GetNextDialogue(d);
      GetNextNTakesPrefix(d', n - 1);
      assert Lines(d)[..n] == [Lines(d)[0]] + Lines(d)[1..][..n - 1];
      assert Lines(d)[n..] == Lines(d)[1..][n - 1..];
    }
  }

  /** After a successful load the lines come out in file order, each
      convertible entry once, and the queue is then empty. */
  lemma LoadThenReadAll(d: Data, es: seq<Entry>)
    requires Valid(d)
    ensures GetNextN(LoadDialogue(d, Parsed(es)).0, |Loaded(es)|).0 == Loaded(es)
    ensures IsQueueEmpty(GetNextN(LoadDialogue(d, Parsed(es)).0, |Loaded(es)|).1)
  {
    var loaded := LoadDialogue(d, Parsed(es)).0;
    GetNextNTakesPrefix(loaded, |Loaded(es)|);
    assert Lines(loaded)[..|Loaded(es)|] == Loaded(es);
  }
}

/** `UDialogueWidget`: picks the dialogue file and the race level from the
    current map, shows the lines one per click with a typewriter effect, and
    opens the race level once the lines run out. */
module DialogueWidget {
  import opened Base
  import opened Text
  import DD = DialogueData

  /* ---- Level table ---- */

  /** A dialogue file and the race level that follows it. */
  datatype Level = Level(jsonFile: string, target: string)

  const Beginner: Level := Level("BeginnerRaceDialogue.json", "BeginnerMap")
  const Checkpoint: Level := Level("GADE_TEST.json", "CheckpointMap")
  const Advanced: Level := Level("AdvancedRaceDialogue.json", "AdvancedMap")

  /** `FName::IsNone`: the empty name and `None` (any case) are both
      `NAME_None`. */
  predicate IsNone(name: string)
  {
    name == "" || SameName(name, "None")
  }

  /** The game instance's `TargetRaceLevel` matched by `FName` equality
      against the three dialogue levels; anything else means the checkpoint
      race. */
  function LevelOfInstanceTarget(target: string): (r: Level)
    ensures SameName(target, "BeginnerDialogueLVL") ==> r == Beginner
    ensures (!SameName(target, "BeginnerDialogueLVL") &&
             SameName(target, "CheckpointDialogueLVL")) ==> r == Checkpoint
    ensures (!SameName(target, "BeginnerDialogueLVL") && !SameName(target, "CheckpointDialogueLVL") &&
             SameName(target, "AdvancedDialogueLVL")) ==> r == Advanced
    ensures (!SameName(target, "BeginnerDialogueLVL") && !SameName(target, "CheckpointDialogueLVL") &&
             !SameName(target, "AdvancedDialogueLVL")) ==> r == Checkpoint
  {
    if SameName(target, "BeginnerDialogueLVL") then Beginner
    else if SameName(target, "CheckpointDialogueLVL") then Checkpoint
    else if SameName(target, "AdvancedDialogueLVL") then Advanced
    else Checkpoint
  }

  /** The decision of `NativeConstruct`: the map name is searched (ignoring
      case) for the three dialogue level names in turn; failing that the game
      instance's target (`None` when there is no game instance) decides. */
  function ChooseLevel(mapName: string, instanceTarget: Option<string>): (r: Level)
    ensures ContainsIgnoreCase(mapName, "BeginnerDialogueLVL") ==> r == Beginner
    ensures (!ContainsIgnoreCase(mapName, "BeginnerDialogueLVL") &&
             ContainsIgnoreCase(mapName, "CheckpointDialogueLVL")) ==> r == Checkpoint
    ensures (!ContainsIgnoreCase(mapName, "BeginnerDialogueLVL") &&
             !ContainsIgnoreCase(mapName, "CheckpointDialogueLVL") &&
             ContainsIgnoreCase(mapName, "AdvancedDialogueLVL")) ==> r == Advanced
    ensures (!ContainsIgnoreCase(mapName, "BeginnerDialogueLVL") &&
             !ContainsIgnoreCase(mapName, "CheckpointDialogueLVL") &&
             !ContainsIgnoreCase(mapName, "AdvancedDialogueLVL")) ==>
      r == (if instanceTarget.Some? && !IsNone(instanceTarget.value)
            then LevelOfInstanceTarget(instanceTarget.value) else Checkpoint)
  {
    if ContainsIgnoreCase(mapName, "BeginnerDialogueLVL") then Beginner
    else if ContainsIgnoreCase(mapName, "CheckpointDialogueLVL") then Checkpoint
    else if ContainsIgnoreCase(mapName, "AdvancedDialogueLVL") then Advanced
    else match instanceTarget
      case Some(t) => if !IsNone(t) then LevelOfInstanceTarget(t) else Checkpoint
      case None => Checkpoint
  }

  /** Whatever the map and the game instance say, the level is one of the
      three races, each with its own dialogue file; in particular the target
      is never `None`. */
  lemma ChooseLevelIsARace(mapName: string, instanceTarget: Option<string>)
    ensures ChooseLevel(mapName, instanceTarget) in {Beginner, Checkpoint, Advanced}
    ensures !IsNone(ChooseLevel(mapName, instanceTarget).target)
  {
    var t := ChooseLevel(mapName, instanceTarget).target;
    assert |Fold(t)| != |Fold("None")|;
  }

  /** A map named after a dialogue level, under any prefix or suffix the
      editor adds, always leads to the matching race. */
  lemma MapNameDecides(prefix: string, suffix: string, instanceTarget: Option<string>)
    ensures ChooseLevel(prefix + "BeginnerDialogueLVL" + suffix, instanceTarget) == Beginner
  {
    var s := prefix + "BeginnerDialogueLVL" + suffix;
    var n := |"BeginnerDialogueLVL"|;
    assert Fold(s)[|prefix|..|prefix| + n] == Fold("BeginnerDialogueLVL");
    ContainsAt(Fold(s), Fold("BeginnerDialogueLVL"), |prefix|);
  }

  /* ---- Typewriter effect ---- */

  /** `CurrentText`, `DisplayedText`, `CurrentCharIndex` and whether the
      typing timer is running. */
  datatype Typing = Typing(current: string, displayed: string, index: int, timerActive: bool)

  /** The typewriter invariant: the shown text is the first `index`
      characters of the full text. */
  predicate TypingInv(t: Typing)
  {
    0 <= t.index <= |t.current| && t.displayed == t.current[..t.index]
  }

  /** `StartTypingEffect`: nothing shown yet, and the 0.05 s timer runs. */
  function StartTypingEffect(text: string): (t: Typing)
    ensures TypingInv(t) && t.displayed == "" && t.index == 0 && t.timerActive
    ensures t.current == text
  {
    Typing(text, "", 0, true)
  }

  /** `TypeNextLetter`: appends the next character while any remain;
      otherwise stops the timer. A negative index, which the fields never
      reach, would be an out-of-range read. */
  function TypeNextLetter(t: Typing): (r: Typing)
    requires t.index >= 0
    ensures t.index < |t.current| ==>
      r == t.(displayed := t.displayed + [t.current[t.index]], index := t.index + 1)
    ensures t.index >= |t.current| ==> r == t.(timerActive := false)
    ensures TypingInv(t) ==> TypingInv(r)
  {
    if t.index < |t.current| then
      var r := t.(displayed := t.displayed + [t.current[t.index]], index := t.index + 1);
      assert TypingInv(t) ==> r.current[..r.index] == t.current[..t.index] + [t.current[t.index]];
      r
    else t.(timerActive := false)
  }

  /** `n` timer ticks. */
  function TypeSteps(t: Typing, n: nat): (r: Typing)
    requires TypingInv(t)
    ensures TypingInv(r) && r.current == t.current
    decreases n
  {
    if n == 0 then t else TypeSteps(TypeNextLetter(t), n - 1)
  }

  /** After `k` ticks (fewer than the remaining letters) exactly `k` more
      letters show and the timer still runs. */
  lemma {:induction false} TypeStepsShows(t: Typing, k: nat)
    requires TypingInv(t) && t.timerActive && t.index + k <= |t.current|
    ensures TypeSteps(t, k).index == t.index + k
    ensures TypeSteps(t, k).displayed == t.current[..t.index + k]
    ensures TypeSteps(t, k).timerActive
    decreases k
  {
    if k > 0 {
      TypeStepsShows(TypeNextLetter(t), k - 1);
    }
  }

  /** After one tick per letter the whole text shows; one tick more stops
      the timer, and the text stays complete. */
  lemma TypingCompletes(text: string)
    ensures TypeSteps(StartTypingEffect(text), |text|).displayed == text
    ensures TypeSteps(StartTypingEffect(text), |text|).timerActive
    ensures !TypeSteps(StartTypingEffect(text), |text| + 1).timerActive
    ensures TypeSteps(StartTypingEffect(text), |text| + 1).displayed == text
  {
    var t := StartTypingEffect(text);
    TypeStepsShows(t, |text|);
    assert text[..|text|] == text;
    TypeStepsLast(t, |text|);
  }

  /** `k + 1` ticks are `k` ticks followed by one. */
  lemma {:induction false} TypeStepsLast(t: Typing, k: nat)
    requires TypingInv(t)
    ensures TypeSteps(t, k + 1) == TypeNextLetter(TypeSteps(t, k))
    decreases k
  {
    if k > 0 {
      TypeStepsLast(TypeNextLetter(t), k - 1);
    }
  }

  /* ---- The widget ---- */

  /** The widget's state: its `TargetRaceLevel`, its `DialogueData` (`None`
      when null), whether `DialogueTextBlock` is bound, the typewriter fields
      and the speaker and age texts last shown. */
  datatype Widget = Widget(target: string, data: Option<DD.Data>, hasTextBlock: bool, typing: Typing,
                           speakerText: string, ageText: string)

  /** What a click leads to: a line is shown, or the widget is removed and
      `level` is opened two seconds later (`None` when nothing is opened). */
  datatype Effect = Shown(item: DD.Item) | Finished(level: Option<string>)

  ghost predicate WidgetOk(w: Widget)
  {
    w.data.Some? ==> DD.Valid(w.data.value)
  }

  /** `LoadLevelAsync`: a `None` name is refused; any other name is opened
      after the loading screen's two-second delay. */
  function LoadLevelAsync(name: string): (r: Option<string>)
    ensures r.None? <==> IsNone(name)
    ensures r.Some? ==> r.value == name
  {
    if IsNone(name) then None else Some(name)
  }

  /** `DisplayDialogue`: speaker and age texts, and the typewriter restarted
      on the line's text when the text block is bound. */
  function DisplayDialogue(w: Widget, item: DD.Item): (r: Widget)
    ensures r.speakerText == item.speakerName && r.ageText == "Age: " + IntToString(item.age)
    ensures w.hasTextBlock ==> r.typing == StartTypingEffect(item.dialogueText)
    ensures !w.hasTextBlock ==> r.typing == w.typing
    ensures r.target == w.target && r.data == w.data && r.hasTextBlock == w.hasTextBlock
  {
    w.(speakerText := item.speakerName, ageText := "Age: " + IntToString(item.age),
       typing := if w.hasTextBlock then StartTypingEffect(item.dialogueText) else w.typing)
  }

  /** The age shown can be read back from the age text. */
  lemma AgeTextReadsBack(w: Widget, item: DD.Item)
    ensures ParseInt(DisplayDialogue(w, item).ageText[5..]) == item.age
  {
    assert DisplayDialogue(w, item).ageText[5..] == IntToString(item.age);
    IntToStringRoundTrip(item.age);
  }

  /** `OnNextButtonClicked`: with lines left, exactly one is consumed and
      shown; otherwise the widget goes and the target level is opened, or
      `CheckpointMap` when the target is `None`. */
  function OnNextButtonClicked(w: Widget): (r: (Widget, Effect))
    requires WidgetOk(w)
    ensures WidgetOk(r.0)
    ensures w.data.Some? && DD.Lines(w.data.value) != [] ==>
      r.1 == Shown(DD.Lines(w.data.value)[0]) && r.0.data.Some? &&
      DD.Lines(r.0.data.value) == DD.Lines(w.data.value)[1..]
    ensures !(w.data.Some? && DD.Lines(w.data.value) != []) ==>
      r.0 == w && r.1 == Finished(Some(if IsNone(w.target) then "CheckpointMap" else w.target))
  {
    if w.data.Some? && !DD.IsQueueEmpty(w.data.value) then
      var (d, item) := DD.GetNextDialogue(w.data.value);
      (DisplayDialogue(w.(data := Some(d)), item), Shown(item))
    else if !IsNone(w.target) then (w, Finished(LoadLevelAsync(w.target)))
    else
      assert !IsNone("CheckpointMap") by { assert Fold("CheckpointMap")[0] == 'c'; }
      (w, Finished(LoadLevelAsync("CheckpointMap")))
  }

  /** `NativeConstruct` (after widget binding): choose the level, load its
      dialogue file into fresh data and, when the load succeeds, behave as
      one click. A failed load leaves the widget waiting with no lines. */
  function NativeConstruct(mapName: string, instanceTarget: Option<string>, file: DD.FileInput,
                           hasTextBlock: bool, idle: Typing): (r: (Widget, Option<Effect>))
    ensures WidgetOk(r.0) && r.0.data.Some?
    ensures r.0.target == ChooseLevel(mapName, instanceTarget).target
    ensures !file.Parsed? ==> r.1.None? && DD.Lines(r.0.data.value) == []
    ensures file.Parsed? && DD.Loaded(file.entries) != [] ==>
      r.1 == Some(Shown(DD.Loaded(file.entries)[0])) &&
      DD.Lines(r.0.data.value) == DD.Loaded(file.entries)[1..]
    ensures file.Parsed? && DD.Loaded(file.entries) == [] ==>
      r.1 == Some(Finished(Some(ChooseLevel(mapName, instanceTarget).target)))
  {
    var level := ChooseLevel(mapName, instanceTarget);
    ChooseLevelIsARace(mapName, instanceTarget);
    var (data, ok) := DD.LoadDialogue(DD.Empty(), file);
    var w := Widget(level.target, Some(data), hasTextBlock, idle, "", "");
    if ok then
      var (w', e) := OnNextButtonClicked(w);
      (w', Some(e))
    else (w, None)
  }
}

=== FILE: game_state.dfy ===
/** `ABeginnerRaceGameState`: the race-wide leaderboard, lap target, waypoint
    count and the race-finished latch. */
module RaceGameState {
  import opened Base

  /** The progress half of `FRacerLeaderboardEntry`: racer, name, lap and
      waypoint index. */
  datatype Progress = Progress(racer: Ref, name: string, lap: int, waypointIndex: int)

  /** `FRacerLeaderboardEntry`: progress plus the 1-based `Placement`. */
  datatype Entry = Entry(progress: Progress, placement: int)

  datatype GameState = GameState(leaderboard: seq<Entry>, totalLaps: int, totalWaypoints: int,
                                 raceFinished: bool)

  /** The constructor: two laps, no waypoints known, race not finished. */
  function Init(): (gs: GameState)
    ensures gs.leaderboard == [] && gs.totalLaps == 2 && gs.totalWaypoints == 0 && !gs.raceFinished
  {
    GameState([], 2, 0, false)
  }

  /** `BeginPlay`: `TotalWaypoints` takes the waypoint manager's array length
      when a manager exists (`managerWaypoints` is `Some`) and its array is
      non-empty; otherwise it is left as it was. */
  function BeginPlay(gs: GameState, managerWaypoints: Option<nat>): (r: GameState)
    ensures managerWaypoints.Some? && managerWaypoints.value > 0 ==>
      r == gs.(totalWaypoints := managerWaypoints.value)
    ensures !(managerWaypoints.Some? && managerWaypoints.value > 0) ==> r == gs
  {
    match managerWaypoints
    case Some(n) => if n > 0 then gs.(totalWaypoints := n) else gs
    case None => gs
  }

  /* ---- Ordering ---- */

  /** The leaderboard order: `a` ranks at least as high as `b` when it is on a
      later lap, or on the same lap at a waypoint index at least as high. */
  predicate AtLeast(a: Progress, b: Progress)
  {
    a.lap > b.lap || (a.lap == b.lap && a.waypointIndex >= b.waypointIndex)
  }

  /** The sort comparator `A.Lap != B.Lap ? A.Lap > B.Lap : A.WaypointIndex > B.WaypointIndex`. */
  predicate Ahead(a: Progress, b: Progress)
  {
    if a.lap != b.lap then a.lap > b.lap else a.waypointIndex > b.waypointIndex
  }

  /** `AtLeast` is exactly "the comparator does not put `b` first". */
  lemma AtLeastIsNotBehind(a: Progress, b: Progress)
    ensures AtLeast(a, b) <==> !Ahead(b, a)
  {
  }

  predicate Sorted(ps: seq<Progress>)
  {
    forall i, j :: 0 <= i < j < |ps| ==> AtLeast(ps[i], ps[j])
  }

  /** Inserting `p` before the first entry it ranks at least as high as. */
  function Insert(p: Progress, ps: seq<Progress>): (r: seq<Progress>)
    requires Sorted(ps)
    ensures Sorted(r)
    ensures multiset(r) == multiset(ps) + multiset{p}
    ensures |r| == |ps| + 1
  {
    if ps == [] then [p]
    else if AtLeast(p, ps[0]) then [p] + ps
    else
      var rest := Insert(p, ps[1..]);
      assert ps == [ps[0]] + ps[1..];
      HeadRanksFirst(p, ps, rest);
      [ps[0]] + rest
  }

  /** When `p` goes after the head of a sorted list, the head ranks at least
      as high as everything it is put in front of. */
  lemma HeadRanksFirst(p: Progress, ps: seq<Progress>, rest: seq<Progress>)
    requires Sorted(ps) && ps != [] && !AtLeast(p, ps[0])
    requires multiset(rest) == multiset(ps[1..]) + multiset{p}
    ensures forall k :: 0 <= k < |rest| ==> AtLeast(ps[0], rest[k])
  {
    forall k | 0 <= k < |rest|
      ensures AtLeast(ps[0], rest[k])
    {
      assert rest[k] in multiset(rest);
      if rest[k] != p {
        assert rest[k] in multiset(ps[1..]);
        var m :| 0 <= m < |ps[1..]| && ps[1..][m] == rest[k];
        assert ps[m + 1] == rest[k];
      }
    }
  }

  /** The reordering `Leaderboard.Sort` performs, as an insertion sort. */
  function Sort(ps: seq<Progress>): (r: seq<Progress>)
    ensures Sorted(r)
    ensures multiset(r) == multiset(ps)
    ensures |r| == |ps|
  {
    if ps == [] then []
    else
      assert ps == [ps[0]] + ps[1..];
      Insert(ps[0], Sort(ps[1..]))
  }

  /** The progress column of a leaderboard. */
  function ProgressOf(board: seq<Entry>): (ps: seq<Progress>)
    ensures |ps| == |board| && forall i :: 0 <= i < |board| ==> ps[i] == board[i].progress
  {
    seq(|board|, i requires 0 <= i < |board| => board[i].progress)
  }

  /** The placement loop: entry `i` gets placement `i + 1`. */
  function Placed(ps: seq<Progress>): (board: seq<Entry>)
    ensures |board| == |ps| && forall i :: 0 <= i < |ps| ==> board[i] == Entry(ps[i], i + 1)
  {
    seq(|ps|, i requires 0 <= i < |ps| => Entry(ps[i], i + 1))
  }

  /** `UpdateLeaderboard`: sorts by lap then waypoint index, highest first,
      and numbers the placements 1, 2, ... in that order. The placements the
      entries held before are overwritten, so they play no part. */
  function UpdateLeaderboard(board: seq<Entry>): (r: seq<Entry>)
    ensures |r| == |board|
    ensures multiset(ProgressOf(r)) == multiset(ProgressOf(board))
    ensures Sorted(ProgressOf(r))
    ensures forall i :: 0 <= i < |r| ==> r[i].placement == i + 1
  {
    var sorted := Sort(ProgressOf(board));
    var r := Placed(sorted);
    assert ProgressOf(r) == sorted;
    r
  }

  /** A racer that is ahead of another gets a smaller placement number. */
  lemma AheadMeansBetterPlacement(board: seq<Entry>, i: nat, j: nat)
    requires i < |UpdateLeaderboard(board)| && j < |UpdateLeaderboard(board)|
    requires Ahead(UpdateLeaderboard(board)[i].progress, UpdateLeaderboard(board)[j].progress)
    ensures UpdateLeaderboard(board)[i].placement < UpdateLeaderboard(board)[j].placement
  {
    var r := UpdateLeaderboard(board);
    var ps := ProgressOf(r);
    assert ps[i] == r[i].progress && ps[j] == r[j].progress;
    AheadComesFirst(ps, i, j);
    assert r[i].placement == i + 1 && r[j].placement == j + 1;
  }

  /** In a sorted list a racer strictly ahead of another stands before it. */
  lemma AheadComesFirst(ps: seq<Progress>, i: nat, j: nat)
    requires Sorted(ps) && i < |ps| && j < |ps| && Ahead(ps[i], ps[j])
    ensures i < j
  {
  }

  /** Updating twice gives the same placements as updating once, up to the
      order of tied racers: the board is already sorted and numbered. */
  lemma UpdateLeaderboardSortedAgain(board: seq<Entry>)
    ensures Sorted(ProgressOf(UpdateLeaderboard(UpdateLeaderboard(board))))
    ensures multiset(ProgressOf(UpdateLeaderboard(UpdateLeaderboard(board)))) ==
            multiset(ProgressOf(board))
  {
  }

  /* ---- Racer registration and progress ---- */

  /** `RegisterRacer`: a null racer is ignored; otherwise an entry on lap 0,
      waypoint 0, placement 0 is appended (the board is not re-sorted). */
  function RegisterRacer(gs: GameState, racer: Ref): (r: GameState)
    ensures racer.Null? ==> r == gs
    ensures racer.Ref? ==> r == gs.(leaderboard := gs.leaderboard +
                                     [Entry(Progress(racer, racer.actor.name, 0, 0), 0)])
  {
    if racer.Null? then gs
    else gs.(leaderboard := gs.leaderboard + [Entry(Progress(racer, racer.actor.name, 0, 0), 0)])
  }

  /** The position of the first entry for `racer`, if any. */
  function RacerIndex(board: seq<Entry>, racer: Ref): (k: Option<nat>)
    ensures k.Some? ==> k.value < |board| && board[k.value].progress.racer == racer &&
                        forall i :: 0 <= i < k.value ==> board[i].progress.racer != racer
    ensures k.None? ==> forall i :: 0 <= i < |board| ==> board[i].progress.racer != racer
  {
    if board == [] then None
    else if board[0].progress.racer == racer then Some(0)
    else match RacerIndex(board[1..], racer)
      case None => None
      case Some(k) => Some(k + 1)
  }

  /** The loop of `UpdateRacerProgress`: the first entry for the racer takes
      the new lap and waypoint index; the loop then stops. */
  function SetProgress(board: seq<Entry>, racer: Ref, lap: int, waypointIndex: int): (r: seq<Entry>)
    ensures RacerIndex(board, racer).None? ==> r == board
    ensures RacerIndex(board, racer).Some? ==>
      var k := RacerIndex(board, racer).value;
      r == board[k := Entry(board[k].progress.(lap := lap, waypointIndex := waypointIndex), board[k].placement)]
    decreases |board|
  {
    if board == [] then []
    else if board[0].progress.racer == racer then
      [board[0].(progress := board[0].progress.(lap := lap, waypointIndex := waypointIndex))] + board[1..]
    else
      assert board == [board[0]] + board[1..];
      [board[0]] + SetProgress(board[1..], racer, lap, waypointIndex)
  }

  /** `UpdateRacerProgress`: records the racer's lap and waypoint index, then
      re-sorts the board. */
  function UpdateRacerProgress(gs: GameState, racer: Ref, lap: int, waypointIndex: int): (r: GameState)
    ensures r.totalLaps == gs.totalLaps && r.totalWaypoints == gs.totalWaypoints
    ensures r.raceFinished == gs.raceFinished
    ensures r.leaderboard == UpdateLeaderboard(SetProgress(gs.leaderboard, racer, lap, waypointIndex))
  {
    gs.(leaderboard := UpdateLeaderboard(SetProgress(gs.leaderboard, racer, lap, waypointIndex)))
  }

  /* ---- Tick ---- */

  /** The finish test of `Tick`: every entry has reached `TotalLaps`. */
  predicate AllFinished(board: seq<Entry>, totalLaps: int)
  {
    forall i :: 0 <= i < |board| ==> board[i].progress.lap >= totalLaps
  }

  /** `Tick`: re-sorts the board, then latches `bRaceFinished` once every
      racer's lap has reached `TotalLaps`. */
  function Tick(gs: GameState): (r: GameState)
    ensures r.leaderboard == UpdateLeaderboard(gs.leaderboard)
    ensures r.totalLaps == gs.totalLaps && r.totalWaypoints == gs.totalWaypoints
    ensures r.raceFinished <==> gs.raceFinished || AllFinished(gs.leaderboard, gs.totalLaps)
  {
    var board := UpdateLeaderboard(gs.leaderboard);
    var allFinished := forall i :: 0 <= i < |board| ==> board[i].progress.lap >= gs.totalLaps;
    assert allFinished <==> AllFinished(gs.leaderboard, gs.totalLaps) by {
      SortedKeepsLaps(gs.leaderboard, board, gs.totalLaps);
    }
    GameState(board, gs.totalLaps, gs.totalWaypoints, gs.raceFinished || allFinished)
  }

  /** Re-sorting does not change whether every racer has finished. */
  lemma SortedKeepsLaps(board: seq<Entry>, sorted: seq<Entry>, totalLaps: int)
    requires multiset(ProgressOf(sorted)) == multiset(ProgressOf(board))
    ensures AllFinished(sorted, totalLaps) <==> AllFinished(board, totalLaps)
  {
    var a, b := ProgressOf(board), ProgressOf(sorted);
    if AllFinished(board, totalLaps) {
      forall i | 0 <= i < |sorted| ensures sorted[i].progress.lap >= totalLaps {
        assert b[i] in multiset(a);
        var k :| 0 <= k < |a| && a[k] == b[i];
      }
    }
    if AllFinished(sorted, totalLaps) {
      forall i | 0 <= i < |board| ensures board[i].progress.lap >= totalLaps {
        assert a[i] in multiset(b);
        var k :| 0 <= k < |b| && b[k] == a[i];
      }
    }
  }

  /** The race-finished flag is a latch: `Tick` never clears it. */
  lemma TickKeepsFinished(gs: GameState)
    requires gs.raceFinished
    ensures Tick(gs).raceFinished
  {
  }

  /** With no registered racer the finish test holds vacuously, so the first
      `Tick` already ends the race. */
  lemma TickWithNoRacersFinishes(gs: GameState)
    requires gs.leaderboard == []
    ensures Tick(gs).raceFinished
  {
  }
}

=== FILE: graph.dfy ===
/** `AGraph`: waypoint actors as nodes of a `TempHashMap<AActor*, FGraphNode>`,
    each node holding a `TempLinkedList` of successor waypoints, plus the
    `PendingRemoval` set that `RemoveNode` uses while it prunes edges. */
module WaypointGraph {
  import opened Base
  import opened LinkedList
  import M = TempHashMap

  /** `FGraphNode`. */
  datatype GraphNode = GraphNode(waypoint: Ref, neighbors: List<Ref>)

  datatype Graph = Graph(nodes: M.Map<GraphNode>, pending: set<Ref>)

  ghost predicate Inv(g: Graph, hash: M.Hasher)
  {
    M.Inv(g.nodes, hash)
  }

  /** The node stored for `w`, independent of validity. */
  function NodeOf(g: Graph, hash: M.Hasher, w: Ref): Option<GraphNode>
    requires Inv(g, hash)
  {
    M.Lookup(g.nodes, hash, w)
  }

  /** The successor list stored for `w` (empty when `w` has no node). */
  function Edges(g: Graph, hash: M.Hasher, w: Ref): seq<Ref>
    requires Inv(g, hash)
  {
    match NodeOf(g, hash, w)
    case None => []
    case Some(n) => Contents(n.neighbors)
  }

  /** The graph with no nodes. */
  function New(): (g: Graph)
    ensures forall hash :: Inv(g, hash)
    ensures forall hash, w :: NodeOf(g, hash, w) == None
    ensures g.pending == {}
  {
    Graph(M.New(), {})
  }

  /** `AddNode`: ignored for an invalid or pending waypoint or one already
      present; otherwise a node with no successors is added. */
  function AddNode(g: Graph, hash: M.Hasher, valid: Validity, w: Ref): (r: Graph)
    requires Inv(g, hash)
    ensures Inv(r, hash) && r.pending == g.pending
    ensures !Live(valid, w) || w in g.pending || NodeOf(g, hash, w).Some? ==> r == g
    ensures Live(valid, w) && w !in g.pending && NodeOf(g, hash, w).None? ==>
      NodeOf(r, hash, w) == Some(GraphNode(w, Empty()))
    ensures forall k :: k != w ==> NodeOf(r, hash, k) == NodeOf(g, hash, k)
  {
    if !Live(valid, w) then g
    else if w in g.pending then g
    else if M.Get(g.nodes, hash, valid, w).None? then
      Graph(M.Add(g.nodes, hash, valid, w, GraphNode(w, Empty())), g.pending)
    else g
  }

  /** `AddEdge`: when both ends are valid, not pending and present, `To` is
      appended to `From`'s successor list (duplicates are kept); otherwise
      nothing changes. */
  function AddEdge(g: Graph, hash: M.Hasher, valid: Validity, from: Ref, to: Ref): (r: Graph)
    requires Inv(g, hash)
    ensures Inv(r, hash) && r.pending == g.pending
    ensures var ok := Live(valid, from) && Live(valid, to) && from !in g.pending && to !in g.pending &&
                      NodeOf(g, hash, from).Some? && NodeOf(g, hash, to).Some?;
      (!ok ==> r == g) &&
      (ok ==> NodeOf(r, hash, from).Some? &&
              NodeOf(r, hash, from).value.waypoint == NodeOf(g, hash, from).value.waypoint &&
              Edges(r, hash, from) == Edges(g, hash, from) + [to])
    ensures forall k :: k != from ==> NodeOf(r, hash, k) == NodeOf(g, hash, k)
  {
    if !Live(valid, from) || !Live(valid, to) then g
    else if from in g.pending || to in g.pending then g
    else
      match (M.Get(g.nodes, hash, valid, from), M.Get(g.nodes, hash, valid, to))
      case (Some(fromNode), Some(_)) =>
        var n := GraphNode(fromNode.waypoint, LinkedList.Add(fromNode.neighbors, to));
        Graph(M.Add(g.nodes, hash, valid, from, n), g.pending)
      case _ => g
  }

  /** The neighbour test of `GetNeighbors`. */
  function Usable(g: Graph, valid: Validity): Ref -> bool
  {
    (n: Ref) => Live(valid, n) && n !in g.pending
  }

  /** `GetNeighbors`: the valid, non-pending successors of a valid,
      non-pending waypoint, in insertion order; empty otherwise. */
  function GetNeighbors(g: Graph, hash: M.Hasher, valid: Validity, w: Ref): (r: seq<Ref>)
    requires Inv(g, hash)
    ensures !Live(valid, w) || w in g.pending ==> r == []
    ensures Live(valid, w) && w !in g.pending ==> r == Filter(Edges(g, hash, w), Usable(g, valid))
    ensures forall x :: x in r <==>
      Live(valid, w) && w !in g.pending && x in Edges(g, hash, w) && Live(valid, x) && x !in g.pending
  {
    if !Live(valid, w) || w in g.pending then []
    else
      match M.Get(g.nodes, hash, valid, w)
      case None => []
      case Some(node) =>
        var r := Filter(Contents(node.neighbors), Usable(g, valid));
        forall x ensures x in r <==> x in Contents(node.neighbors) && Live(valid, x) && x !in g.pending {
          FilterMembership(Contents(node.neighbors), Usable(g, valid), x);
        }
        r
  }

  /** `GetAllKeys`: the waypoints with a node that are valid and not
      pending, each once. */
  function GetAllKeys(g: Graph, hash: M.Hasher, valid: Validity): (r: seq<Ref>)
    requires Inv(g, hash)
    ensures forall k :: k in r <==> Live(valid, k) && k !in g.pending && NodeOf(g, hash, k).Some?
    ensures NoDup(r)
  {
    var all := M.GetAllKeys(g.nodes, hash, valid);
    var r := Filter(all, Usable(g, valid));
    forall k ensures k in r <==> k in all && Live(valid, k) && k !in g.pending {
      FilterMembership(all, Usable(g, valid), k);
    }
    FilterNoDup(all, Usable(g, valid));
    r
  }

  lemma {:induction false} FilterNoDup<T>(xs: seq<T>, p: T -> bool)
    requires NoDup(xs)
    ensures NoDup(Filter(xs, p))
  {
    if xs != [] {
      FilterNoDup(xs[1..], p);
      FilterMembership(xs[1..], p, xs[0]);
      assert xs[0] !in xs[1..];
    }
  }

  /* ---- RemoveNode ---- */

  /** The neighbour test of `RemoveNode`: a valid pointer to `w`. */
  function IsTarget(valid: Validity, w: Ref): Ref -> bool
  {
    (n: Ref) => Live(valid, n) && n == w
  }

  /** A node with every valid occurrence of `w` unlinked from its successors. */
  function PruneNode(node: GraphNode, valid: Validity, w: Ref): (r: GraphNode)
    ensures r.waypoint == node.waypoint
    ensures Contents(r.neighbors) == Reject(Contents(node.neighbors), IsTarget(valid, w))
  {
    GraphNode(node.waypoint, LinkedList.Remove(node.neighbors, IsTarget(valid, w)))
  }

  /** The loop over `AllKeys` in `RemoveNode`: each valid key outside
      `pending` that still has a node gets `w` pruned from its successors. */
  function PruneKeys(nodes: M.Map<GraphNode>, hash: M.Hasher, valid: Validity, keys: seq<Ref>,
                     pending: set<Ref>, w: Ref): (r: M.Map<GraphNode>)
    requires M.Inv(nodes, hash) && NoDup(keys)
    ensures M.Inv(r, hash)
    ensures forall k :: M.Lookup(r, hash, k) ==
              (if k in keys && Live(valid, k) && k !in pending && M.Lookup(nodes, hash, k).Some?
               then Some(PruneNode(M.Lookup(nodes, hash, k).value, valid, w))
               else M.Lookup(nodes, hash, k))
    decreases |keys|
  {
    if keys == [] then nodes
    else
      var step := PruneOne(nodes, hash, valid, keys[0], pending, w);
      assert NoDup(keys[1..]) && keys[0] !in keys[1..];
      PruneKeys(step, hash, valid, keys[1..], pending, w)
  }

  /** One iteration of that loop, for the key `k`. */
  function PruneOne(nodes: M.Map<GraphNode>, hash: M.Hasher, valid: Validity, k: Ref,
                    pending: set<Ref>, w: Ref): (r: M.Map<GraphNode>)
    requires M.Inv(nodes, hash)
    ensures M.Inv(r, hash)
    ensures forall k' :: M.Lookup(r, hash, k') ==
              (if k' == k && Live(valid, k) && k !in pending && M.Lookup(nodes, hash, k).Some?
               then Some(PruneNode(M.Lookup(nodes, hash, k).value, valid, w))
               else M.Lookup(nodes, hash, k'))
  {
    if Live(valid, k) && k !in pending then
      match M.Get(nodes, hash, valid, k)
      case Some(node) => M.Add(nodes, hash, valid, k, PruneNode(node, valid, w))
      case None => nodes
    else nodes
  }

  /** `RemoveNode`: marks a valid waypoint pending, deletes its node, prunes it
      from the successors of every other valid, non-pending node, and clears
      the mark again. */
  function RemoveNode(g: Graph, hash: M.Hasher, valid: Validity, w: Ref): (r: Graph)
    requires Inv(g, hash)
    ensures Inv(r, hash)
    ensures !Live(valid, w) ==> r == g
    ensures Live(valid, w) ==> r.pending == g.pending - {w}
    ensures Live(valid, w) ==> NodeOf(r, hash, w) == None
    ensures Live(valid, w) ==>
              forall k :: k != w ==>
                (NodeOf(r, hash, k) ==
                 if Live(valid, k) && k !in g.pending && NodeOf(g, hash, k).Some?
                 then Some(PruneNode(NodeOf(g, hash, k).value, valid, w))
                 else NodeOf(g, hash, k))
  {
    if !Live(valid, w) then g
    else
      var pending := g.pending + {w};
      var removed := M.Remove(g.nodes, hash, valid, w);
      var allKeys := M.GetAllKeys(removed, hash, valid);
      var pruned := PruneKeys(removed, hash, valid, allKeys, pending, w);
      Graph(pruned, pending - {w})
  }

  /** With no removal in progress, removing a valid waypoint leaves no node
      for it, no valid node listing it as a successor, and no removal in
      progress. */
  lemma RemoveNodeLeavesNoEdgeToIt(g: Graph, hash: M.Hasher, valid: Validity, w: Ref, k: Ref)
    requires Inv(g, hash) && g.pending == {} && Live(valid, w)
    ensures RemoveNode(g, hash, valid, w).pending == {}
    ensures w !in GetAllKeys(RemoveNode(g, hash, valid, w), hash, valid)
    ensures w !in GetNeighbors(RemoveNode(g, hash, valid, w), hash, valid, k)
  {
    var r := RemoveNode(g, hash, valid, w);
    if Live(valid, k) && k != w && NodeOf(g, hash, k).Some? {
      RejectMembership(Contents(NodeOf(g, hash, k).value.neighbors), IsTarget(valid, w), w);
    }
  }

  /** `AddEdge` from or to a pending waypoint changes nothing, so no edge is
      added to a node that is being removed. */
  lemma AddEdgeIgnoresPending(g: Graph, hash: M.Hasher, valid: Validity, from: Ref, to: Ref)
    requires Inv(g, hash) && (from in g.pending || to in g.pending)
    ensures AddEdge(g, hash, valid, from, to) == g
  {
  }
}

=== FILE: hud.dfy ===
/** `UEndUIWidget::UpdateUI`: the end-of-race leaderboard text with medal
    tags for the podium, and the player's finishing position as an ordinal. */
module EndUIWidget {
  import opened Base
  import opened Text
  import GS = RaceGameState

  /** One leaderboard line: `"<placement>. <name> (Lap <lap>, Waypoint <index>)\n"`. */
  function EntryLine(e: GS.Entry): (s: string)
    ensures |s| > 0 && s[|s| - 1] == '\n'
    ensures |s| >= |IntToString(e.placement)| && s[..|IntToString(e.placement)|] == IntToString(e.placement)
  {
    IntToString(e.placement) + ". " + e.progress.name + " (Lap " + IntToString(e.progress.lap) +
    ", Waypoint " + IntToString(e.progress.waypointIndex) + ")\n"
  }

  /** The medal tag for a podium placement, none for the rest. */
  function Medal(placement: int): (r: Option<string>)
    ensures r.Some? <==> 1 <= placement <= 3
  {
    if placement == 1 then Some("Gold")
    else if placement == 2 then Some("Silver")
    else if placement == 3 then Some("Bronze")
    else None
  }

  /** A line as shown: wrapped in `<Tag>` and `</>` for the podium. */
  function ShownLine(e: GS.Entry): (s: string)
    ensures Medal(e.placement).Some? ==>
      s == "<" + Medal(e.placement).value + ">" + EntryLine(e) + "</>"
    ensures Medal(e.placement).None? ==> s == EntryLine(e)
  {
    match Medal(e.placement)
    case Some(tag) => "<" + tag + ">" + EntryLine(e) + "</>"
    case None => EntryLine(e)
  }

  /** A shown line opens with a tag exactly when the placement is on the
      podium: a plain line starts with the placement's digits or its sign. */
  lemma TaggedIffPodium(e: GS.Entry)
    ensures ShownLine(e)[0] == '<' <==> 1 <= e.placement <= 3
  {
    var digits := IntToString(e.placement);
    assert EntryLine(e)[0] == digits[0];
    if e.placement >= 0 {
      assert '0' <= digits[0] <= '9';
    }
  }

  /** The lines of a leaderboard, in leaderboard order. */
  function Lines(board: seq<GS.Entry>): string
  {
    if board == [] then "" else Lines(board[..|board| - 1]) + ShownLine(board[|board| - 1])
  }

  /** The text `UpdateUI` builds: a heading and one line per entry. */
  function LeaderboardString(board: seq<GS.Entry>): (s: string)
    ensures |s| >= 13 && s[..13] == "Leaderboard:\n"
  {
    "Leaderboard:\n" + Lines(board)
  }

  /** One more entry adds exactly its line at the end. */
  lemma LeaderboardAppend(board: seq<GS.Entry>, e: GS.Entry)
    ensures LeaderboardString(board + [e]) == LeaderboardString(board) + ShownLine(e)
  {
    assert (board + [e])[..|board|] == board;
  }

  /** The rank loop: the placement of the first entry whose racer is a
      `PlayerHamster`, or -1 when there is none. */
  function PlayerRank(board: seq<GS.Entry>): (rank: int)
    ensures (forall i :: 0 <= i < |board| ==> !IsA(board[i].progress.racer, PlayerHamster)) ==> rank == -1
    ensures (exists i :: 0 <= i < |board| && IsA(board[i].progress.racer, PlayerHamster)) ==>
      exists i :: 0 <= i < |board| && IsA(board[i].progress.racer, PlayerHamster) &&
                  rank == board[i].placement &&
                  forall j :: 0 <= j < i ==> !IsA(board[j].progress.racer, PlayerHamster)
  {
    if board == [] then -1
    else if IsA(board[0].progress.racer, PlayerHamster) then board[0].placement
    else
      var r := PlayerRank(board[1..]);
      assert forall i :: 1 <= i < |board| ==> board[i] == board[1..][i - 1];
      r
  }

  /** The position text: `1st`, `2nd`, `3rd`, then `<n>th`; a rank that is
      not positive (no player found) is unknown. */
  function Ordinal(rank: int): (s: string)
    ensures rank <= 0 <==> s == "Unknown Place"
  {
    if rank == 1 then "1st Place"
    else if rank == 2 then "2nd Place"
    else if rank == 3 then "3rd Place"
    else if rank > 0 then
      var s := IntToString(rank) + "th Place";
      assert s[0] != 'U' by { assert s[0] == IntToString(rank)[0]; }
      s
    else "Unknown Place"
  }

  /** Different finishing positions are worded differently. */
  lemma OrdinalInjective(a: int, b: int)
    requires a > 0 && b > 0 && Ordinal(a) == Ordinal(b)
    ensures a == b
  {
    OrdinalSuffix(a);
    OrdinalSuffix(b);
    if a > 3 && b > 3 {
      assert IntToString(a) == Ordinal(a)[..|Ordinal(a)| - 8];
      assert IntToString(b) == Ordinal(b)[..|Ordinal(b)| - 8];
      IntToStringInjective(a, b);
    }
  }

  /** Only positions past the podium end in `th Place`. */
  lemma OrdinalSuffix(n: int)
    requires n > 0
    ensures |Ordinal(n)| >= 8
    ensures Ordinal(n)[|Ordinal(n)| - 8..] == "th Place" <==> n > 3
  {
  }

  /** The two texts of the widget (`None` where a text block is unbound). */
  datatype Texts = Texts(leaderboard: Option<string>, position: Option<string>)

  /** `UpdateUI`: with a game state, each bound text block is refreshed. */
  function UpdateUI(gs: Option<GS.GameState>, t: Texts): (r: Texts)
    ensures gs.None? ==> r == t
    ensures gs.Some? && t.leaderboard.Some? ==> r.leaderboard == Some(LeaderboardString(gs.value.leaderboard))
    ensures gs.Some? && t.position.Some? ==> r.position == Some(Ordinal(PlayerRank(gs.value.leaderboard)))
    ensures t.leaderboard.None? ==> r.leaderboard.None?
    ensures t.position.None? ==> r.position.None?
  {
    match gs
    case None => t
    case Some(g) =>
      Texts(if t.leaderboard.Some? then Some(LeaderboardString(g.leaderboard)) else None,
            if t.position.Some? then Some(Ordinal(PlayerRank(g.leaderboard))) else None)
  }

  /** Once the leaderboard has been renumbered, a board whose first entry is
      the player reads "1st Place". */
  lemma LeaderPlayerIsFirst(board: seq<GS.Entry>)
    requires |board| > 0 && IsA(GS.UpdateLeaderboard(board)[0].progress.racer, PlayerHamster)
    ensures Ordinal(PlayerRank(GS.UpdateLeaderboard(board))) == "1st Place"
  {
  }
}

/** `UBeginnerRaceHUD`: the in-race lap counter, position and speed texts. */
module BeginnerRaceHUD {
  import opened Base
  import opened Text
  import GS = RaceGameState

  /** `"Lap <current>/<total>"`. */
  function LapText(currentLap: int, totalLaps: int): (s: string)
    ensures |s| >= 4 && s[..4] == "Lap "
  {
    "Lap " + IntToString(currentLap) + "/" + IntToString(totalLaps)
  }

  /** Both numbers can be read back from the lap text. */
  lemma LapTextReadsBack(currentLap: int, totalLaps: int)
    ensures LapText(currentLap, totalLaps)[4..4 + |IntToString(currentLap)|] == IntToString(currentLap)
    ensures ParseInt(LapText(currentLap, totalLaps)[4..4 + |IntToString(currentLap)|]) == currentLap
    ensures ParseInt(LapText(currentLap, totalLaps)[5 + |IntToString(currentLap)|..]) == totalLaps
  {
    var x, y := IntToString(currentLap), IntToString(totalLaps);
    assert LapText(currentLap, totalLaps) == "Lap " + x + ("/" + y);
    IntBetween("Lap ", currentLap, "/" + y);
    IntAtEnd("Lap " + x + "/", totalLaps);
  }

  /** The owning player as the HUD sees it: the pawn and its `CurrentLap`. */
  datatype PlayerView = PlayerView(pawn: Ref, currentLap: int)

  /** `UpdateLapCounter`: the text changes only when the player, the game
      state and the text block all exist (`shown` is `None` when unbound). */
  function UpdateLapCounter(shown: Option<string>, player: Option<PlayerView>,
                            gs: Option<GS.GameState>): (r: Option<string>)
    ensures player.Some? && gs.Some? && shown.Some? ==>
      r == Some(LapText(player.value.currentLap, gs.value.totalLaps))
    ensures !(player.Some? && gs.Some? && shown.Some?) ==> r == shown
  {
    if player.Some? && gs.Some? && shown.Some? then
      Some(LapText(player.value.currentLap, gs.value.totalLaps))
    else shown
  }

  /** The position loop: the placement of the first entry for this player,
      or 0 when the player has none. */
  function PlayerPosition(board: seq<GS.Entry>, pawn: Ref): (position: int)
    ensures GS.RacerIndex(board, pawn).None? ==> position == 0
    ensures GS.RacerIndex(board, pawn).Some? ==> position == board[GS.RacerIndex(board, pawn).value].placement
  {
    if board == [] then 0
    else if board[0].progress.racer == pawn then board[0].placement
    else PlayerPosition(board[1..], pawn)
  }

  /** On a renumbered board a registered player's position is between 1 and
      the number of racers, and exactly the racers listed before it are
      ahead of it in the displayed order. */
  lemma PositionOnRenumberedBoard(board: seq<GS.Entry>, pawn: Ref)
    requires exists i :: 0 <= i < |board| && board[i].progress.racer == pawn
    ensures GS.RacerIndex(GS.UpdateLeaderboard(board), pawn).Some?
    ensures 1 <= PlayerPosition(GS.UpdateLeaderboard(board), pawn) <= |board|
    ensures PlayerPosition(GS.UpdateLeaderboard(board), pawn) ==
            GS.RacerIndex(GS.UpdateLeaderboard(board), pawn).value + 1
  {
    var r := GS.UpdateLeaderboard(board);
    var i :| 0 <= i < |board| && board[i].progress.racer == pawn;
    var p := GS.ProgressOf(board)[i];
    assert p in multiset(GS.ProgressOf(r));
    var j :| 0 <= j < |r| && GS.ProgressOf(r)[j] == p;
    assert r[j].progress.racer == pawn;
  }

  function PositionText(position: int): string
  {
    "Position: " + IntToString(position)
  }

  /** `UpdatePositionDisplay`: the same guard as the lap counter. */
  function UpdatePositionDisplay(shown: Option<string>, player: Option<PlayerView>,
                                 gs: Option<GS.GameState>): (r: Option<string>)
    ensures player.Some? && gs.Some? && shown.Some? ==>
      r == Some(PositionText(PlayerPosition(gs.value.leaderboard, player.value.pawn)))
    ensures !(player.Some? && gs.Some? && shown.Some?) ==> r == shown
  {
    if player.Some? && gs.Some? && shown.Some? then
      Some(PositionText(PlayerPosition(gs.value.leaderboard, player.value.pawn)))
    else shown
  }

  /** An absent player reads position 0. */
  lemma UnregisteredPlayerAtZero(board: seq<GS.Entry>, pawn: Ref)
    requires forall i :: 0 <= i < |board| ==> board[i].progress.racer != pawn
    ensures PositionText(PlayerPosition(board, pawn)) == "Position: 0"
  {
    assert GS.RacerIndex(board, pawn).None?;
  }

  /** `GetSpeedText`: without a player the fixed text; with one, the speed
      rendered by `%.1f` (given here as `formatted`). */
  function GetSpeedText(player: Option<PlayerView>, formatted: string): (s: string)
    ensures player.None? ==> s == "Speed: 0 km/h"
    ensures player.Some? ==> s == "Speed: " + formatted + " km/h"
  {
    if player.None? then "Speed: 0 km/h" else "Speed: " + formatted + " km/h"
  }
}

/** `URaceHUDWidget`: race statistics pushed in by the owner and rendered as
    speed, time and lap texts. */
module RaceHUDWidget {
  import opened Text

  datatype Stats = Stats(currentSpeed: real, elapsedTime: real, lapNumber: int, totalLapCount: int)

  /** `SetRaceStats`: the four arguments are stored as given. */
  function SetRaceStats(s: Stats, speed: real, timeElapsed: real, currentLap: int, totalLaps: int): (r: Stats)
    ensures r.currentSpeed == speed && r.elapsedTime == timeElapsed
    ensures r.lapNumber == currentLap && r.totalLapCount == totalLaps
  {
    Stats(speed, timeElapsed, currentLap, totalLaps)
  }

  /** Truncation toward zero of a real. */
  function Trunc(x: real): (n: int)
    ensures x >= 0.0 ==> n == x.Floor
    ensures x < 0.0 ==> n == -((-x).Floor)
  {
    if x >= 0.0 then x.Floor else -((-x).Floor)
  }

  /** `FMath::Fmod(x, 60)`: the remainder with the sign of `x`. */
  function Fmod60(x: real): (r: real)
    ensures x >= 0.0 ==> 0.0 <= r < 60.0
  {
    var q := Trunc(x / 60.0);
    x - 60.0 * q as real
  }

  /** The minutes and seconds `GetTimeText` prints. */
  function Minutes(t: real): int
  {
    (t / 60.0).Floor
  }

  function Seconds(t: real): int
  {
    Fmod60(t).Floor
  }

  /** For a non-negative time the seconds are a proper clock reading and
      together with the minutes make up the whole seconds elapsed. */
  lemma TimeSplit(t: real)
    requires t >= 0.0
    ensures 0 <= Seconds(t) <= 59
    ensures Minutes(t) * 60 + Seconds(t) == t.Floor
  {
    var m := Minutes(t);
    var f := Fmod60(t);
    assert f == t - 60.0 * m as real;
    var s := f.Floor;
    assert s as real <= f < s as real + 1.0;
    assert (m * 60 + s) as real <= t < (m * 60 + s) as real + 1.0;
  }

  /** `%02d`: a minus sign before the magnitude's digits for a negative
      value, two digits at least otherwise. */
  function Pad2Int(n: int): (s: string)
    ensures n >= 0 ==> s == Pad2(n)
    ensures n < 0 ==> s == "-" + NatToString(-n)
  {
    if n >= 0 then Pad2(n) else "-" + NatToString(-n)
  }

  /** `GetTimeText`: `"Time: MM:SS"`. */
  function GetTimeText(s: Stats): string
  {
    "Time: " + Pad2Int(Minutes(s.elapsedTime)) + ":" + Pad2Int(Seconds(s.elapsedTime))
  }

  /** Under 100 minutes the time text has a fixed layout from which the
      minutes and seconds read back. */
  lemma TimeTextReadsBack(s: Stats)
    requires 0.0 <= s.elapsedTime < 6000.0
    ensures |GetTimeText(s)| == 11
    ensures AllDigits(GetTimeText(s)[6..8]) && AllDigits(GetTimeText(s)[9..11])
    ensures ParseNat(GetTimeText(s)[6..8]) * 60 + ParseNat(GetTimeText(s)[9..11]) == s.elapsedTime.Floor
  {
    var t := s.elapsedTime;
    TimeSplit(t);
    var m, sec := Minutes(t), Seconds(t);
    assert 0 <= m < 100;
    var text := GetTimeText(s);
    assert text[6..8] == Pad2(m);
    assert text[9..11] == Pad2(sec);
  }

  /** `GetLapText`: `"Lap: <lap> / <total>"`. */
  function GetLapText(s: Stats): string
  {
    "Lap: " + IntToString(s.lapNumber) + " / " + IntToString(s.totalLapCount)
  }

  /** The lap number and lap count read back from the lap text. */
  lemma LapTextReadsBack(s: Stats)
    ensures ParseInt(GetLapText(s)[5..5 + |IntToString(s.lapNumber)|]) == s.lapNumber
    ensures ParseInt(GetLapText(s)[8 + |IntToString(s.lapNumber)|..]) == s.totalLapCount
  {
    var x, y := IntToString(s.lapNumber), IntToString(s.totalLapCount);
    assert GetLapText(s) == "Lap: " + x + (" / " + y);
    IntBetween("Lap: ", s.lapNumber, " / " + y);
    IntAtEnd("Lap: " + x + " / ", s.totalLapCount);
  }
}

=== FILE: linked_list.dfy ===
/** `TempLinkedList<T>`: a singly linked chain of nodes reached from `Head`,
    with a separately maintained `Count`. The chain is a datatype; `Elements`
    is the abstraction function to the sequence of stored values. */
module LinkedList {
  import opened Base

  /** The chain of `TNode`s reachable from a pointer; `Nil` is `nullptr`. */
  datatype Node<T> = Nil | Cons(data: T, next: Node<T>)

  /** The list object: its `Head` pointer and its `Count` field. */
  datatype List<T> = List(head: Node<T>, count: int)

  /** The values stored in a chain, first node first. */
  function Elements<T>(n: Node<T>): seq<T>
  {
    match n
    case Nil => []
    case Cons(d, rest) => [d] + Elements(rest)
  }

  /** The chain that stores exactly `xs`; the inverse of `Elements`. */
  function Chain<T>(xs: seq<T>): (n: Node<T>)
    ensures Elements(n) == xs
  {
    if xs == [] then Nil else Cons(xs[0], Chain(xs[1..]))
  }

  /** A chain is determined by the values it stores. */
  lemma {:induction false} ChainOfElements<T>(n: Node<T>)
    ensures Chain(Elements(n)) == n
  {
    match n
    case Nil =>
    case Cons(d, rest) =>
      assert Elements(n)[1..] == Elements(rest);
      ChainOfElements(rest);
  }

  lemma SameElementsSameChain<T>(a: Node<T>, b: Node<T>)
    requires Elements(a) == Elements(b)
    ensures a == b
  {
    ChainOfElements(a);
    ChainOfElements(b);
  }

  /** The stored values of a list. */
  function Contents<T>(l: List<T>): seq<T>
  {
    Elements(l.head)
  }

  /** Representation invariant: `Count` is the number of nodes reachable from `Head`. */
  ghost predicate Valid<T>(l: List<T>)
  {
    l.count == |Contents(l)|
  }

  /** The constructor: `Head(nullptr), Count(0)`. */
  function Empty<T>(): (l: List<T>)
    ensures Valid(l) && Contents(l) == []
  {
    List(Nil, 0)
  }

  /** The walk to the last node followed by `Current->Next = NewNode`. */
  function AppendNode<T>(n: Node<T>, x: T): (r: Node<T>)
    requires n.Cons?
    ensures Elements(r) == Elements(n) + [x]
  {
    if n.next.Nil? then Cons(n.data, Cons(x, Nil)) else Cons(n.data, AppendNode(n.next, x))
  }

  /** `Add`: appends at the tail and bumps `Count`. */
  function Add<T>(l: List<T>, x: T): (r: List<T>)
    ensures Contents(r) == Contents(l) + [x]
    ensures r.count == l.count + 1
    ensures Valid(l) ==> Valid(r)
  {
    var node := if l.head.Nil? then Cons(x, Nil) else AppendNode(l.head, x);
    List(node, l.count + 1)
  }

  /** The `Current = Current->Next` walk of `GetAt`, `k` steps from `n`. */
  function NodeAt<T>(n: Node<T>, k: nat): (d: T)
    requires k < |Elements(n)|
    ensures d == Elements(n)[k]
  {
    if k == 0 then n.data else NodeAt(n.next, k - 1)
  }

  /** `GetAt`: the element at `index`, or the value-initialised `T()` (passed
      as `zero`) when the index is out of range. */
  function GetAt<T>(l: List<T>, index: int, zero: T): (r: T)
    requires Valid(l)
    ensures 0 <= index < |Contents(l)| ==> r == Contents(l)[index]
    ensures (index < 0 || index >= |Contents(l)|) ==> r == zero
  {
    if index < 0 || index >= l.count then zero else NodeAt(l.head, index)
  }

  /** `GetCount`: reads `Count`, which is the number of stored values. */
  function GetCount<T>(l: List<T>): (r: int)
    requires Valid(l)
    ensures r == |Contents(l)|
  {
    l.count
  }

  /** `Clear`: every node is deleted, `Head` is null and `Count` is 0. */
  function Clear<T>(l: List<T>): (r: List<T>)
    ensures Valid(r) && Contents(r) == []
  {
    List(Nil, 0)
  }

  /** Adding `xs` one by one (`for x in xs: Add(x)`). */
  function AddAll<T>(l: List<T>, xs: seq<T>): (r: List<T>)
    ensures Contents(r) == Contents(l) + xs
    ensures Valid(l) ==> Valid(r)
    decreases |xs|
  {
    if xs == [] then l else AddAll(Add(l, xs[0]), xs[1..])
  }

  /* ---- Members that TempHashMap.h and Graph.cpp call but TempLinkedList.h
     does not declare. Their behaviour is an assumption of this model: the
     weakest reading the callers need. ---- */

  /** `Find(Pred)`: assumed to return the first node whose data satisfies
      `Pred`, here given as its position, or null. */
  function FindNode<T>(n: Node<T>, p: T -> bool): (r: Option<nat>)
    ensures r.Some? ==> r.value < |Elements(n)| && p(Elements(n)[r.value])
    ensures r.Some? ==> forall j :: 0 <= j < r.value ==> !p(Elements(n)[j])
    ensures r.None? ==> forall j :: 0 <= j < |Elements(n)| ==> !p(Elements(n)[j])
  {
    match n
    case Nil => None
    case Cons(d, rest) =>
      if p(d) then Some(0)
      else match FindNode(rest, p)
        case None => None
        case Some(k) => Some(k + 1)
  }

  function Find<T>(l: List<T>, p: T -> bool): (r: Option<nat>)
    ensures r.Some? ==> r.value < |Contents(l)| && p(Contents(l)[r.value])
    ensures r.Some? ==> forall j :: 0 <= j < r.value ==> !p(Contents(l)[j])
    ensures r.None? ==> forall j :: 0 <= j < |Contents(l)| ==> !p(Contents(l)[j])
  {
    FindNode(l.head, p)
  }

  /** Writing through the node pointer that `Find` returned. */
  function SetNode<T>(n: Node<T>, k: nat, x: T): (r: Node<T>)
    requires k < |Elements(n)|
    ensures Elements(r) == Elements(n)[k := x]
  {
    if k == 0 then Cons(x, n.next) else Cons(n.data, SetNode(n.next, k - 1, x))
  }

  function SetAt<T>(l: List<T>, k: nat, x: T): (r: List<T>)
    requires k < |Contents(l)|
    ensures Contents(r) == Contents(l)[k := x]
    ensures Valid(l) ==> Valid(r)
  {
    List(SetNode(l.head, k, x), l.count)
  }

  /** `Remove(Pred)`: assumed to unlink and delete every node whose data
      satisfies `Pred`, lowering `Count` by the number removed. */
  function RemoveNodes<T>(n: Node<T>, p: T -> bool): (r: Node<T>)
    ensures Elements(r) == Reject(Elements(n), p)
  {
    match n
    case Nil => Nil
    case Cons(d, rest) =>
      assert Elements(n)[1..] == Elements(rest);
      if p(d) then RemoveNodes(rest, p) else Cons(d, RemoveNodes(rest, p))
  }

  function Remove<T>(l: List<T>, p: T -> bool): (r: List<T>)
    ensures Contents(r) == Reject(Contents(l), p)
    ensures Valid(r)
  {
    var chain := RemoveNodes(l.head, p);
    List(chain, |Elements(chain)|)
  }

  /* ---- Properties ---- */

  /** After `Add(x)`, index `Count - 1` reads back `x` and every earlier
      index is unchanged. */
  lemma AddThenGetAt<T>(l: List<T>, x: T, i: int, zero: T)
    requires Valid(l)
    ensures GetAt(Add(l, x), l.count, zero) == x
    ensures 0 <= i < l.count ==> GetAt(Add(l, x), i, zero) == GetAt(l, i, zero)
  {
  }

  /** Building a list from empty by `Add`s: `GetAt(i)` is the i-th added value. */
  lemma {:induction false} GetAtAfterAdds<T>(xs: seq<T>, i: int, zero: T)
    ensures Valid(AddAll(Empty(), xs))
    ensures 0 <= i < |xs| ==> GetAt(AddAll(Empty(), xs), i, zero) == xs[i]
    ensures !(0 <= i < |xs|) ==> GetAt(AddAll(Empty(), xs), i, zero) == zero
  {
    assert Contents(Empty<T>()) + xs == xs;
  }
}

=== FILE: pickup.dfy ===
/** `APickupBase` with its two effects, `ASpeedBoostPickup` and
    `ASpeedReductionPickup`, which differ only in their speed multiplier.
    The speed each racer actor carries (the player's `CurrentSpeed`, an AI
    racer's `MaxSpeed`) is a map from actor to speed. */
module Pickup {
  import opened Base

  datatype Kind = SpeedBoost | SpeedReduction

  /** A pickup: its kind, `SpeedMultiplier`, `bIsActive`, hidden-in-game
      flag, `OriginalSpeed` and `LastAIRacer`. */
  datatype Pickup = Pickup(kind: Kind, multiplier: real, active: bool, hidden: bool,
                           originalSpeed: real, lastAI: Option<Actor>)

  type Speeds = map<Actor, real>

  /** The constructor and field initialisers: active, visible, multiplier
      1.5 for a boost and 0.5 for a reduction. */
  function Construct(kind: Kind): (p: Pickup)
    ensures p.active && !p.hidden && p.lastAI.None? && p.kind == kind
    ensures p.multiplier == (if kind == SpeedBoost then 1.5 else 0.5)
  {
    Pickup(kind, if kind == SpeedBoost then 1.5 else 0.5, true, false, 0.0, None)
  }

  /** `ApplyEffect`: on the player or an AI racer, remembers its speed and
      scales it; an AI racer is also remembered for the reset. */
  function ApplyEffect(p: Pickup, racer: Ref, speeds: Speeds): (r: (Pickup, Speeds))
    requires (IsA(racer, PlayerHamster) || IsA(racer, AIRacer)) ==> racer.actor in speeds
    ensures IsA(racer, PlayerHamster) ==>
      r == (p.(originalSpeed := speeds[racer.actor]), speeds[racer.actor := speeds[racer.actor] * p.multiplier])
    ensures IsA(racer, AIRacer) ==>
      r == (p.(originalSpeed := speeds[racer.actor], lastAI := Some(racer.actor)),
            speeds[racer.actor := speeds[racer.actor] * p.multiplier])
    ensures !IsA(racer, PlayerHamster) && !IsA(racer, AIRacer) ==> r == (p, speeds)
  {
    if IsA(racer, PlayerHamster) then
      (p.(originalSpeed := speeds[racer.actor]), speeds[racer.actor := speeds[racer.actor] * p.multiplier])
    else if IsA(racer, AIRacer) then
      (p.(originalSpeed := speeds[racer.actor], lastAI := Some(racer.actor)),
       speeds[racer.actor := speeds[racer.actor] * p.multiplier])
    else (p, speeds)
  }

  /** `DeactivatePickup`: inactive and hidden; the reactivation timer is the
      separate `ReactivatePickup` event. */
  function DeactivatePickup(p: Pickup): (r: Pickup)
    ensures !r.active && r.hidden && r == p.(active := false, hidden := true)
  {
    p.(active := false, hidden := true)
  }

  /** `ReactivatePickup`: active and visible again. */
  function ReactivatePickup(p: Pickup): (r: Pickup)
    ensures r.active && !r.hidden && r == p.(active := true, hidden := false)
  {
    p.(active := true, hidden := false)
  }

  /** `OnOverlapBegin`: while active, a player or AI racer triggers the
      effect and the pickup deactivates; anything else changes nothing. */
  function OnOverlapBegin(p: Pickup, other: Ref, speeds: Speeds): (r: (Pickup, Speeds))
    requires (IsA(other, PlayerHamster) || IsA(other, AIRacer)) ==> other.actor in speeds
    ensures !p.active || other.Null? ==> r == (p, speeds)
    ensures p.active && !IsA(other, PlayerHamster) && !IsA(other, AIRacer) ==> r == (p, speeds)
    ensures p.active && (IsA(other, PlayerHamster) || IsA(other, AIRacer)) ==>
      var applied := ApplyEffect(p, other, speeds);
      r == (DeactivatePickup(applied.0), applied.1)
  {
    if !p.active || other.Null? then (p, speeds)
    else if IsA(other, PlayerHamster) || IsA(other, AIRacer) then
      var (p1, s1) := ApplyEffect(p, other, speeds);
      (DeactivatePickup(p1), s1)
    else (p, speeds)
  }

  /** A triggered pickup cannot apply its effect again until it is
      reactivated: a second overlap by any actor changes nothing. */
  lemma TriggerOnce(p: Pickup, a: Ref, b: Ref, speeds: Speeds)
    requires p.active && (IsA(a, PlayerHamster) || IsA(a, AIRacer)) && a.actor in speeds
    requires (IsA(b, PlayerHamster) || IsA(b, AIRacer)) ==> b.actor in speeds
    ensures var first := OnOverlapBegin(p, a, speeds);
            !first.0.active && first.0.hidden &&
            OnOverlapBegin(first.0, b, first.1) == first
  {
  }

  /** `ResetPlayerSpeed`: the first player controller's pawn, when it is the
      player, gets the remembered speed back. */
  function ResetPlayerSpeed(p: Pickup, pawn: Ref, speeds: Speeds): (r: Speeds)
    ensures IsA(pawn, PlayerHamster) ==> r == speeds[pawn.actor := p.originalSpeed]
    ensures !IsA(pawn, PlayerHamster) ==> r == speeds
  {
    if IsA(pawn, PlayerHamster) then speeds[pawn.actor := p.originalSpeed] else speeds
  }

  /** `ResetAISpeed`: the remembered AI racer gets the remembered speed back
      and is forgotten; with none remembered nothing happens. */
  function ResetAISpeed(p: Pickup, speeds: Speeds): (r: (Pickup, Speeds))
    ensures p.lastAI.None? ==> r == (p, speeds)
    ensures p.lastAI.Some? ==> r == (p.(lastAI := None), speeds[p.lastAI.value := p.originalSpeed])
  {
    match p.lastAI
    case None => (p, speeds)
    case Some(a) => (p.(lastAI := None), speeds[a := p.originalSpeed])
  }

  /** Applying to an AI racer and then resetting restores every speed and
      forgets the racer. */
  lemma AIRoundTrip(p: Pickup, racer: Ref, speeds: Speeds)
    requires IsA(racer, AIRacer) && racer.actor in speeds
    ensures var (p1, s1) := ApplyEffect(p, racer, speeds);
            var (p2, s2) := ResetAISpeed(p1, s1);
            s2 == speeds && p2.lastAI.None? && p2.originalSpeed == speeds[racer.actor]
  {
    var (p1, s1) := ApplyEffect(p, racer, speeds);
    var (p2, s2) := ResetAISpeed(p1, s1);
    assert s2 == speeds[racer.actor := speeds[racer.actor]];
  }

  /** Applying to the player and resetting with the player as the first
      pawn restores every speed. */
  lemma PlayerRoundTrip(p: Pickup, player: Ref, speeds: Speeds)
    requires IsA(player, PlayerHamster) && player.actor in speeds
    ensures var (p1, s1) := ApplyEffect(p, player, speeds);
            ResetPlayerSpeed(p1, player, s1) == speeds
  {
    var (p1, s1) := ApplyEffect(p, player, speeds);
    assert ResetPlayerSpeed(p1, player, s1) == speeds[player.actor := speeds[player.actor]];
  }

  /** Only one original speed is kept: after a second racer picks up the
      same pickup, the reset restores the second racer and leaves the first
      one scaled. */
  lemma SecondApplyOverwrites(p: Pickup, a: Ref, b: Ref, speeds: Speeds)
    requires IsA(a, AIRacer) && IsA(b, AIRacer) && a != b && a.actor in speeds && b.actor in speeds
    ensures var (p1, s1) := ApplyEffect(p, a, speeds);
            var (p2, s2) := ApplyEffect(p1, b, s1);
            var (p3, s3) := ResetAISpeed(p2, s2);
            s3[b.actor] == speeds[b.actor] && s3[a.actor] == speeds[a.actor] * p.multiplier
  {
  }
}

=== FILE: player.dfy ===
/** `APlayerHamster`: the player's lap and waypoint progress, the waypoint
    choice prompt, the pause toggle, the speed clamps and the race-end check
    of `Tick`. */
module PlayerHamster {
  import opened Base
  import opened LinkedList
  import M = TempHashMap
  import G = WaypointGraph
  import ARM = AdvancedRaceManager
  import WM = WaypointManager
  import GS = RaceGameState

  /** The gameplay fields of the pawn. */
  datatype Player = Player(currentLap: int, index: int, speed: real, isPlayer: bool,
                           useGraph: bool, current: Ref, paused: bool,
                           waiting: bool, choice: int, available: seq<Ref>)

  /** The header's movement constants. */
  const MaxSpeed: real := 4000.0
  const AccelerationRate: real := 500.0
  const DecelerationRate: real := 300.0

  /** The constructor; the choice fields are zero-initialised. */
  function Construct(): (p: Player)
    ensures p.currentLap == 0 && p.index == 0 && p.speed == 0.0 && p.isPlayer
    ensures !p.useGraph && p.current == Null && !p.paused
    ensures !p.waiting && p.choice == 0 && p.available == []
  {
    Player(0, 0, 0.0, true, false, Null, false, false, 0, [])
  }

  /** The world the pawn sees: the race manager (with its opaque
      `GetTotalWaypoints()`), the waypoint manager, the map hash and validity. */
  datatype World = World(raceManager: Option<ARM.RaceManager>, totalWaypoints: int,
                         waypointManager: Option<WM.Manager>, hash: M.Hasher, valid: Validity)

  /** The graph and waypoint list the world holds are well formed. */
  ghost predicate WorldOk(w: World)
  {
    (w.raceManager.Some? && w.raceManager.value.graph.Some? ==> G.Inv(w.raceManager.value.graph.value, w.hash)) &&
    (w.waypointManager.Some? ==> Valid(w.waypointManager.value.list))
  }

  /* ---- Progress ---- */

  /** The search loop `for i < GetTotalWaypoints(): if GetWaypoint(i) == W`:
      the first such `i` at or after `from`. */
  function ScanIndex(rm: ARM.RaceManager, valid: Validity, w: Ref, from: int, total: int): (r: Option<int>)
    ensures r.Some? ==> from <= r.value < total && ARM.GetWaypoint(rm, valid, r.value) == w
    ensures r.Some? ==> forall j :: from <= j < r.value ==> ARM.GetWaypoint(rm, valid, j) != w
    ensures r.None? ==> forall j :: from <= j < total ==> ARM.GetWaypoint(rm, valid, j) != w
    decreases total - from
  {
    if from >= total then None
    else if ARM.GetWaypoint(rm, valid, from) == w then Some(from)
    else ScanIndex(rm, valid, w, from + 1, total)
  }

  /** A found index really is the waypoint's position in the manager's array:
      the search never matches a null or out-of-range slot. */
  lemma ScanIndexIsPosition(rm: ARM.RaceManager, valid: Validity, w: Ref, total: int)
    requires w.Ref?
    requires ScanIndex(rm, valid, w, 0, total).Some?
    ensures var i := ScanIndex(rm, valid, w, 0, total).value;
            0 <= i < |rm.waypoints| && rm.waypoints[i] == w && Live(valid, w)
  {
  }

  /** The index and lap after a reach in graph mode: the index becomes the
      waypoint's position when found, and index 11 completes a lap. */
  function GraphProgress(p: Player, rm: ARM.RaceManager, total: int, valid: Validity, w: Ref): (r: (int, int))
    ensures var found := ScanIndex(rm, valid, w, 0, total);
            var index := if found.Some? then found.value else p.index;
            r == if index == 11 then (p.currentLap + 1, 0) else (p.currentLap, index)
  {
    var index := match ScanIndex(rm, valid, w, 0, total)
                 case Some(i) => i
                 case None => p.index;
    if index == 11 then (p.currentLap + 1, 0) else (p.currentLap, index)
  }

  /** The race manager's `TotalWaypoints` is never assigned, so it keeps its
      zero default: with that total the scan matches nothing and a graph-mode
      reach leaves lap and index as they were (index 11 is never reached). */
  lemma GraphProgressZeroTotal(p: Player, rm: ARM.RaceManager, valid: Validity, w: Ref, total: int)
    requires total <= 0 && p.index != 11
    ensures GraphProgress(p, rm, total, valid, w) == (p.currentLap, p.index)
  {
  }

  /** The index and lap after a reach in sequential mode: the index goes up
      by one, and reaching the game state's `TotalWaypoints` completes a lap. */
  function SequentialProgress(p: Player, gs: Option<GS.GameState>): (r: (int, int))
    ensures gs.Some? && p.index + 1 >= gs.value.totalWaypoints ==> r == (p.currentLap + 1, 0)
    ensures !(gs.Some? && p.index + 1 >= gs.value.totalWaypoints) ==> r == (p.currentLap, p.index + 1)
  {
    var index := p.index + 1;
    if gs.Some? && index >= gs.value.totalWaypoints then (p.currentLap + 1, 0) else (p.currentLap, index)
  }

  /** With `TotalWaypoints = n > 0`, a sequential reach keeps the index in
      `[0, n)` and moves `lap * n + index` forward by exactly one waypoint. */
  lemma SequentialProgressCounts(p: Player, gs: GS.GameState)
    requires gs.totalWaypoints > 0 && 0 <= p.index < gs.totalWaypoints
    ensures var (lap, index) := SequentialProgress(p, Some(gs));
            0 <= index < gs.totalWaypoints &&
            lap * gs.totalWaypoints + index == p.currentLap * gs.totalWaypoints + p.index + 1
  {
    var n := gs.totalWaypoints;
    if p.index + 1 >= n {
      assert (p.currentLap + 1) * n == p.currentLap * n + n;
    }
  }

  /** `OnWaypointReached`: ignores a null waypoint; otherwise updates the lap
      and index by the navigation mode, moves the target to the first
      neighbour in graph mode, and reports progress to the game state. */
  function OnWaypointReached(p: Player, self: Ref, world: World, gs: Option<GS.GameState>, w: Ref):
    (r: (Player, Option<GS.GameState>))
    requires WorldOk(world)
    ensures w.Null? ==> r == (p, gs)
    ensures w.Ref? && p.useGraph && world.raceManager.Some? ==>
      (r.0.currentLap, r.0.index) == GraphProgress(p, world.raceManager.value, world.totalWaypoints, world.valid, w)
    ensures w.Ref? && !(p.useGraph && world.raceManager.Some?) ==>
      (r.0.currentLap, r.0.index) == SequentialProgress(p, gs)
    ensures w.Ref? && p.useGraph && world.raceManager.Some? && world.raceManager.value.graph.Some? ==>
      var ns := G.GetNeighbors(world.raceManager.value.graph.value, world.hash, world.valid, w);
      r.0.current == if ns != [] then ns[0] else p.current
    ensures !(w.Ref? && p.useGraph && world.raceManager.Some? && world.raceManager.value.graph.Some?) ==>
      r.0.current == p.current
    ensures w.Ref? && gs.Some? ==>
      r.1 == Some(GS.UpdateRacerProgress(gs.value, self, r.0.currentLap, r.0.index))
    ensures gs.None? ==> r.1 == None
    ensures r.0 == p.(currentLap := r.0.currentLap, index := r.0.index, current := r.0.current)
  {
    if w.Null? then (p, gs)
    else
      var p1: Player :=
        if p.useGraph && world.raceManager.Some? then
          var rm := world.raceManager.value;
          var target :=
            if rm.graph.Some? then
              var ns := G.GetNeighbors(rm.graph.value, world.hash, world.valid, w);
              if |ns| > 0 then ns[0] else p.current
            else p.current;
          var (lap, index) := GraphProgress(p, rm, world.totalWaypoints, world.valid, w);
          p.(currentLap := lap, index := index, current := target)
        else
          var (lap, index) := SequentialProgress(p, gs);
          p.(currentLap := lap, index := index);
      var gs1 := if gs.Some? then Some(GS.UpdateRacerProgress(gs.value, self, p1.currentLap, p1.index)) else None;
      (p1, gs1)
  }

  /** The result of an overlap or a confirmation: the new pawn fields and
      game state, or `Fault` where the source dereferences a null pointer. */
  datatype Outcome = Outcome(p: Player, gs: Option<GS.GameState>) | Fault

  /** Graph navigation with a race manager whose graph is null: line 654
      calls `GetGraph()->GetNeighbors` without a null check. */
  predicate NullGraph(p: Player, world: World)
  {
    p.useGraph && world.raceManager.Some? && world.raceManager.value.graph.None?
  }

  /** `OnWaypointOverlap`: ignored while paused or for an actor that is not a
      waypoint; otherwise the waypoint is reached, the neighbours are read for
      display (which faults on a null graph) and the waypoint becomes the
      target, overriding the neighbour chosen during the reach. */
  function OnWaypointOverlap(p: Player, self: Ref, world: World, gs: Option<GS.GameState>, other: Ref):
    (r: Outcome)
    requires WorldOk(world)
    ensures p.paused || !IsA(other, WaypointActor) ==> r == Outcome(p, gs)
    ensures !p.paused && IsA(other, WaypointActor) && NullGraph(p, world) ==> r.Fault?
    ensures !p.paused && IsA(other, WaypointActor) && !NullGraph(p, world) ==>
      var reached := OnWaypointReached(p, self, world, gs, other);
      r == Outcome(reached.0.(current := other), reached.1)
  {
    if p.paused || !IsA(other, WaypointActor) then Outcome(p, gs)
    else
      var (p1, gs1) := OnWaypointReached(p, self, world, gs, other);
      if NullGraph(p, world) then Fault
      else Outcome(p1.(current := other), gs1)
  }

  /** After an accepted overlap with a graph present (or not navigating by
      graph) the target is the waypoint just touched, whatever its
      neighbours are. */
  lemma OverlapTargetsTouchedWaypoint(p: Player, self: Ref, world: World, gs: Option<GS.GameState>, other: Ref)
    requires WorldOk(world) && !p.paused && IsA(other, WaypointActor) && !NullGraph(p, world)
    ensures OnWaypointOverlap(p, self, world, gs, other).Outcome?
    ensures OnWaypointOverlap(p, self, world, gs, other).p.current == other
  {
  }

  /* ---- Waypoint choice ---- */

  /** The highlighted choice indexes the offered waypoints whenever a choice
      is pending. */
  predicate ChoiceOk(p: Player)
  {
    p.waiting && |p.available| > 0 ==> 0 <= p.choice < |p.available|
  }

  /** `SelectNextWaypoint`: while a choice is pending over a non-empty list,
      moves the highlight to the next entry, wrapping around. */
  function SelectNextWaypoint(p: Player): (r: Player)
    ensures !p.waiting || p.available == [] ==> r == p
    ensures p.waiting && p.available != [] ==>
      r == p.(choice := CppRem(p.choice + 1, |p.available|))
    ensures ChoiceOk(p) ==> ChoiceOk(r)
    ensures ChoiceOk(p) && p.waiting && p.available != [] ==> r.choice == (p.choice + 1) % |p.available|
  {
    if !p.waiting || |p.available| == 0 then p
    else p.(choice := CppRem(p.choice + 1, |p.available|))
  }

  /** `ConfirmWaypoint`: while a choice is pending over a non-empty list, the
      highlighted entry becomes the target, the prompt closes, the index is
      looked up on the race manager and progress is reported. A null entry
      faults: line 608 logs `CurrentWaypoint->GetName()` before progress is
      reported. */
  function ConfirmWaypoint(p: Player, self: Ref, world: World, gs: Option<GS.GameState>): (r: Outcome)
    requires ChoiceOk(p)
    ensures !p.waiting || p.available == [] ==> r == Outcome(p, gs)
    ensures p.waiting && p.available != [] && p.available[p.choice].Null? ==> r.Fault?
    ensures p.waiting && p.available != [] && p.available[p.choice].Ref? ==>
      r.Outcome? && r.p.current == p.available[p.choice] && !r.p.waiting && r.p.currentLap == p.currentLap
    ensures p.waiting && p.available != [] && world.raceManager.None? && r.Outcome? ==> r.p.index == p.index
    ensures p.waiting && p.available != [] && gs.Some? && r.Outcome? ==>
      r.gs == Some(GS.UpdateRacerProgress(gs.value, self, r.p.currentLap, r.p.index))
    ensures r.Outcome? ==> ChoiceOk(r.p)
  {
    if !p.waiting || |p.available| == 0 then Outcome(p, gs)
    else
      var target := p.available[p.choice];
      var index :=
        if world.raceManager.Some? then
          match ScanIndex(world.raceManager.value, world.valid, target, 0, world.totalWaypoints)
          case Some(i) => i
          case None => p.index
        else p.index;
      if target.Null? then Fault
      else
        var p1 := p.(current := target, waiting := false, index := index);
        var gs1 := if gs.Some? then Some(GS.UpdateRacerProgress(gs.value, self, p1.currentLap, p1.index)) else None;
        Outcome(p1, gs1)
  }

  /** Confirming a live choice with a race manager records the chosen
      waypoint's position in the manager's array when it is there. */
  lemma ConfirmFindsIndex(p: Player, self: Ref, world: World, gs: Option<GS.GameState>, k: int)
    requires ChoiceOk(p) && p.waiting && p.available != [] && p.available[p.choice].Ref?
    requires world.raceManager.Some? && 0 <= k < world.totalWaypoints
    requires ARM.GetWaypoint(world.raceManager.value, world.valid, k) == p.available[p.choice]
    requires forall j :: 0 <= j < k ==> ARM.GetWaypoint(world.raceManager.value, world.valid, j) != p.available[p.choice]
    ensures ConfirmWaypoint(p, self, world, gs).Outcome?
    ensures ConfirmWaypoint(p, self, world, gs).p.index == k
  {
    var r := ScanIndex(world.raceManager.value, world.valid, p.available[p.choice], 0, world.totalWaypoints);
    assert r.Some?;
  }

  /* ---- Speed and pause ---- */

  /** `FMath::Clamp(x, lo, hi)`. */
  function Clamp(x: real, lo: real, hi: real): (r: real)
    requires lo <= hi
    ensures lo <= r <= hi
    ensures lo <= x <= hi ==> r == x
  {
    if x < lo then lo else if x < hi then x else hi
  }

  /** `SetSpeed`: the requested speed clamped to `[0, MaxSpeed]`. */
  function SetSpeed(p: Player, s: real): (r: Player)
    ensures 0.0 <= r.speed <= MaxSpeed
    ensures 0.0 <= s <= MaxSpeed ==> r.speed == s
    ensures r == p.(speed := r.speed)
  {
    p.(speed := Clamp(s, 0.0, MaxSpeed))
  }

  /** `MoveForward`: ignored while paused; otherwise accelerates on positive
      input and decelerates on any other, clamped to `[0, MaxSpeed]`. */
  function MoveForward(p: Player, value: real, dt: real): (r: Player)
    ensures p.paused ==> r == p
    ensures !p.paused ==> 0.0 <= r.speed <= MaxSpeed && r == p.(speed := r.speed)
    ensures !p.paused && dt >= 0.0 && 0.0 <= p.speed <= MaxSpeed ==>
      (value > 0.0 ==> r.speed >= p.speed) && (value <= 0.0 ==> r.speed <= p.speed)
  {
    if p.paused then p
    else if value > 0.0 then p.(speed := Clamp(p.speed + AccelerationRate * dt, 0.0, MaxSpeed))
    else p.(speed := Clamp(p.speed - DecelerationRate * dt, 0.0, MaxSpeed))
  }

  /** `TogglePauseMenu`: flips the pause flag only when both the pause widget
      and the player controller exist. */
  function TogglePauseMenu(p: Player, hasWidget: bool, hasController: bool): (r: Player)
    ensures hasWidget && hasController ==> r == p.(paused := !p.paused)
    ensures !(hasWidget && hasController) ==> r == p
  {
    if !hasWidget || !hasController then p else p.(paused := !p.paused)
  }

  /** Toggling twice restores the pause state. */
  lemma TogglePauseTwice(p: Player)
    ensures TogglePauseMenu(TogglePauseMenu(p, true, true), true, true) == p
  {
  }

  /** The race-end part of `Tick`: once the player's lap reaches the game
      state's `TotalLaps`, the race is marked finished. */
  function TickRaceEnd(p: Player, gs: Option<GS.GameState>): (r: Option<GS.GameState>)
    ensures gs.None? ==> r == None
    ensures gs.Some? ==> r.Some? && r.value == gs.value.(raceFinished := r.value.raceFinished)
    ensures gs.Some? ==> (r.value.raceFinished <==> gs.value.raceFinished || (p.isPlayer && p.currentLap >= gs.value.totalLaps))
  {
    if gs.Some? && p.isPlayer && p.currentLap >= gs.value.totalLaps then Some(gs.value.(raceFinished := true))
    else gs
  }

  /* ---- BeginPlay ---- */

  /** The first target: waypoint 0 of the race manager in graph mode, else of
      the waypoint manager. An empty waypoint manager list is a division by
      zero in `GetWaypoint`, reported as `None`. */
  function FirstWaypoint(useGraph: bool, world: World): (r: Option<Ref>)
    requires WorldOk(world)
    ensures useGraph && world.raceManager.Some? ==>
      r == Some(ARM.GetWaypoint(world.raceManager.value, world.valid, 0))
    ensures !(useGraph && world.raceManager.Some?) && world.waypointManager.None? ==> r == Some(Null)
    ensures !(useGraph && world.raceManager.Some?) && world.waypointManager.Some? ==>
      (r.None? <==> Contents(world.waypointManager.value.list) == []) &&
      (r.Some? ==> r.value == Contents(world.waypointManager.value.list)[0])
  {
    if useGraph && world.raceManager.Some? then Some(ARM.GetWaypoint(world.raceManager.value, world.valid, 0))
    else if world.waypointManager.Some? then
      var wm := world.waypointManager.value;
      if Contents(wm.list) == [] then None else Some(WM.GetWaypoint(wm, 0))
    else Some(Null)
  }

  /** `BeginPlay` as written: graph navigation when a race manager exists,
      registration with the game state at line 189 and again through
      `RegisterWithGameState` at line 214, and the first target when there
      is one. */
  function BeginPlay(p: Player, self: Ref, world: World, gs: Option<GS.GameState>): (r: Option<(Player, Option<GS.GameState>)>)
    requires WorldOk(world)
    ensures r.Some? ==> r.value.0.useGraph == (p.useGraph || world.raceManager.Some?)
    ensures r.Some? && gs.Some? && self.Ref? ==>
      r.value.1 == Some(GS.RegisterRacer(GS.RegisterRacer(gs.value, self), self))
  {
    var useGraph := p.useGraph || world.raceManager.Some?;
    var gs1 := if gs.Some? then Some(GS.RegisterRacer(GS.RegisterRacer(gs.value, self), self)) else None;
    match FirstWaypoint(useGraph, world)
    case None => None
    case Some(first) =>
      var p1 := p.(useGraph := useGraph, current := if first.Ref? then first else p.current);
      Some((p1, gs1))
  }

  /** The entries of a leaderboard that belong to `racer`. */
  function EntriesOf(board: seq<GS.Entry>, racer: Ref): (n: nat)
    ensures n <= |board|
  {
    if board == [] then 0
    else (if board[0].progress.racer == racer then 1 else 0) + EntriesOf(board[1..], racer)
  }

  lemma {:induction false} EntriesOfAppend(board: seq<GS.Entry>, e: GS.Entry, racer: Ref)
    ensures EntriesOf(board + [e], racer) == EntriesOf(board, racer) + (if e.progress.racer == racer then 1 else 0)
  {
    if board != [] {
      assert (board + [e])[1..] == board[1..] + [e];
      EntriesOfAppend(board[1..], e, racer);
    } else {
      assert [e][1..] == [];
    }
  }

  /** As written, a player not yet on the board appears on it twice after
      `BeginPlay`; only the first entry is ever updated by progress reports. */
  lemma BeginPlayRegistersTwice(p: Player, self: Ref, world: World, gs: GS.GameState)
    requires WorldOk(world) && self.Ref? && EntriesOf(gs.leaderboard, self) == 0
    requires BeginPlay(p, self, world, Some(gs)).Some?
    ensures EntriesOf(BeginPlay(p, self, world, Some(gs)).value.1.value.leaderboard, self) == 2
  {
    var e := GS.Entry(GS.Progress(self, self.actor.name, 0, 0), 0);
    EntriesOfAppend(gs.leaderboard, e, self);
    EntriesOfAppend(gs.leaderboard + [e], e, self);
  }

  /** `BeginPlay` with the single registration evidently intended. */
  function BeginPlayOnce(p: Player, self: Ref, world: World, gs: Option<GS.GameState>): (r: Option<(Player, Option<GS.GameState>)>)
    requires WorldOk(world)
    ensures r.Some? ==> r.value.0.useGraph == (p.useGraph || world.raceManager.Some?)
    ensures r.Some? && gs.Some? ==> r.value.1 == Some(GS.RegisterRacer(gs.value, self))
    ensures (r.Some? && BeginPlay(p, self, world, gs).Some? && r.value.0 == BeginPlay(p, self, world, gs).value.0) ||
            (r.None? && BeginPlay(p, self, world, gs).None?)
  {
    var useGraph := p.useGraph || world.raceManager.Some?;
    var gs1 := if gs.Some? then Some(GS.RegisterRacer(gs.value, self)) else None;
    match FirstWaypoint(useGraph, world)
    case None => None
    case Some(first) =>
      var p1 := p.(useGraph := useGraph, current := if first.Ref? then first else p.current);
      Some((p1, gs1))
  }

  /** With the single registration, a new player has exactly one entry. */
  lemma BeginPlayOnceRegistersOnce(p: Player, self: Ref, world: World, gs: GS.GameState)
    requires WorldOk(world) && self.Ref? && EntriesOf(gs.leaderboard, self) == 0
    requires BeginPlayOnce(p, self, world, Some(gs)).Some?
    ensures EntriesOf(BeginPlayOnce(p, self, world, Some(gs)).value.1.value.leaderboard, self) == 1
  {
    var e := GS.Entry(GS.Progress(self, self.actor.name, 0, 0), 0);
    EntriesOfAppend(gs.leaderboard, e, self);
  }
}

=== FILE: race_manager.dfy ===
/** The fixed track `PopulateGraph` wires, as index pairs into the manager's
    `Waypoints` array. */
module TrackLayout {
  import opened Base

  /** An edge from `Waypoints[src]` to `Waypoints[dst]`. */
  datatype Edge = Edge(src: nat, dst: nat)

  /** The four groups of `AddEdge` calls, in call order: the fork at 2
      re-joining at 5, the fork at 7 re-joining at 10, the loop edge back to 0,
      and the straight segments. */
  const FirstFork: seq<Edge> := [Edge(2, 3), Edge(2, 4), Edge(3, 5), Edge(4, 5)]
  const SecondFork: seq<Edge> := [Edge(7, 8), Edge(7, 9), Edge(8, 10), Edge(9, 10)]
  const LoopEdge: seq<Edge> := [Edge(10, 0)]
  const MainLine: seq<Edge> := [Edge(0, 1), Edge(1, 2), Edge(5, 6), Edge(6, 7)]

  const TrackEdges: seq<Edge> := FirstFork + SecondFork + LoopEdge + MainLine

  /** `PopulateGraph` needs at least this many waypoints. */
  const MinWaypoints: nat := 12

  /** The successor indices of index `i` under `es`, in call order. */
  function Targets(es: seq<Edge>, i: nat): seq<nat>
  {
    if es == [] then []
    else (if es[0].src == i then [es[0].dst] else []) + Targets(es[1..], i)
  }

  lemma {:induction false} TargetsAppend(a: seq<Edge>, b: seq<Edge>, i: nat)
    ensures Targets(a + b, i) == Targets(a, i) + Targets(b, i)
  {
    if a == [] {
      assert a + b == b;
    } else {
      assert (a + b)[1..] == a[1..] + b;
      TargetsAppend(a[1..], b, i);
    }
  }

  lemma {:induction false} TargetsInRange(es: seq<Edge>, n: nat, i: nat)
    requires forall e :: e in es ==> e.dst < n
    ensures forall k :: 0 <= k < |Targets(es, i)| ==> Targets(es, i)[k] < n
  {
    if es != [] {
      TargetsInRange(es[1..], n, i);
    }
  }

  /** The waypoints at the given indices. */
  function At<T>(ws: seq<T>, ix: seq<nat>): (r: seq<T>)
    requires forall k :: 0 <= k < |ix| ==> ix[k] < |ws|
    ensures |r| == |ix| && forall k :: 0 <= k < |ix| ==> r[k] == ws[ix[k]]
  {
    if ix == [] then [] else [ws[ix[0]]] + At(ws, ix[1..])
  }

  /** The successors of each of the twelve required indices, as a table. */
  const TrackTable: seq<seq<nat>> :=
    [[1], [2], [3, 4], [5], [5], [6], [7], [8, 9], [10], [10], [0], []]

  /** The edge list gives each index the successors in the table: a line
      0, 1, 2, a fork at 2 into 3 and 4 re-joining at 5, a line 5, 6, 7, a
      fork at 7 into 8 and 9 re-joining at 10, 10 back to 0, and nothing out
      of index 11. */
  lemma TrackSuccessors(i: nat)
    requires i < MinWaypoints
    ensures Targets(TrackEdges, i) == TrackTable[i]
  {
    TargetsAppend(FirstFork + SecondFork + LoopEdge, MainLine, i);
    TargetsAppend(FirstFork + SecondFork, LoopEdge, i);
    TargetsAppend(FirstFork, SecondFork, i);
    if i == 0 {} else if i == 1 {} else if i == 2 {} else if i == 3 {} else if i == 4 {} else if i == 5 {}
    else if i == 6 {} else if i == 7 {} else if i == 8 {} else if i == 9 {} else if i == 10 {} else {
      assert i == 11;
      assert Targets(FirstFork, 11) == [] && Targets(SecondFork, 11) == [];
      assert Targets(LoopEdge, 11) == [] && Targets(MainLine, 11) == [];
    }
  }

  /** No edge starts or ends at index 11, although twelve waypoints are required. */
  lemma TrackSkipsIndex11()
    ensures forall e :: e in TrackEdges ==> e.src != 11 && e.dst != 11
  {
  }

  /** The first successor of index `i`, the one the player is steered to. */
  function FirstSuccessor(i: nat): (j: Option<nat>)
  {
    var ts := Targets(TrackEdges, i);
    if ts == [] then None else Some(ts[0])
  }

  /** The indices visited by always taking the first successor from 0. */
  const FirstPath: seq<nat> := [0, 1, 2, 3, 5, 6, 7, 8, 10]

  /** Following the first successor from index 0 runs 0, 1, 2, 3, 5, 6, 7, 8,
      10 and back to 0, so indices 4, 9 and 11 are never next. */
  lemma FirstSuccessorCycle(k: nat)
    requires k < |FirstPath|
    ensures FirstSuccessor(FirstPath[k]) == Some(FirstPath[(k + 1) % |FirstPath|])
  {
    TrackSuccessors(FirstPath[k]);
  }

}

/** `AAdvancedRaceManager`: collects the level's waypoint actors into its
    `Waypoints` array and the graph, then wires the fixed branching track. */
module AdvancedRaceManager {
  import opened Base
  import opened Text
  import opened LinkedList
  import M = TempHashMap
  import G = WaypointGraph
  import opened TrackLayout

  /** The manager's `Graph` pointer (`None` when null) and `Waypoints` array. */
  datatype RaceManager = RaceManager(graph: Option<G.Graph>, waypoints: seq<Ref>)

  /* ---- Names ---- */

  /** A name containing `BP_Waypoint_C_` contains `Waypoint` (both up to
      letter case), so the second test of the name filter never accepts
      anything the first rejects. */
  lemma BlueprintNameContainsWaypoint(name: string)
    requires ContainsIgnoreCase(name, "BP_Waypoint_C_")
    ensures ContainsIgnoreCase(name, "Waypoint")
  {
    var folded := Fold(name);
    var i := ContainsSomewhere(folded, Fold("BP_Waypoint_C_"));
    assert folded[i + 3..i + 11] == folded[i..i + 14][3..11];
    assert Fold("BP_Waypoint_C_")[3..11] == Fold("Waypoint");
    ContainsAt(folded, Fold("Waypoint"), i + 3);
  }

  /** The test `CollectWaypoints` applies to each found actor. */
  predicate Accepted(valid: Validity, a: Ref)
  {
    Live(valid, a) && IsA(a, WaypointActor) &&
    (ContainsIgnoreCase(a.actor.name, "Waypoint") || ContainsIgnoreCase(a.actor.name, "BP_Waypoint_C_"))
  }

  /** The accepted actors are exactly the valid waypoints whose name contains
      `Waypoint`. */
  lemma AcceptedMeans(valid: Validity, a: Ref)
    ensures Accepted(valid, a) <==>
      Live(valid, a) && IsA(a, WaypointActor) && ContainsIgnoreCase(a.actor.name, "Waypoint")
  {
    if Live(valid, a) && ContainsIgnoreCase(a.actor.name, "BP_Waypoint_C_") {
      BlueprintNameContainsWaypoint(a.actor.name);
    }
  }

  /* ---- CollectWaypoints ---- */

  /** `Graph->AddNode` for each collected waypoint, in order. */
  function AddNodes(g: G.Graph, hash: M.Hasher, valid: Validity, ws: seq<Ref>): (r: G.Graph)
    requires G.Inv(g, hash)
    requires forall i :: 0 <= i < |ws| ==> Live(valid, ws[i])
    ensures G.Inv(r, hash) && r.pending == g.pending
    ensures forall k :: G.NodeOf(r, hash, k).Some? <==>
      G.NodeOf(g, hash, k).Some? || (k in ws && k !in g.pending)
    ensures forall k :: G.NodeOf(g, hash, k).Some? ==> G.NodeOf(r, hash, k) == G.NodeOf(g, hash, k)
    ensures forall k :: k in ws && k !in g.pending && G.NodeOf(g, hash, k).None? ==>
      G.Edges(r, hash, k) == []
    decreases |ws|
  {
    if ws == [] then g
    else
      var g' := G.AddNode(g, hash, valid, ws[0]);
      AddNodes(g', hash, valid, ws[1..])
  }

  /** The number of accepted actors in `xs`. */
  function CountAccepted(valid: Validity, xs: seq<Ref>): nat
  {
    if xs == [] then 0 else (if Accepted(valid, xs[0]) then 1 else 0) + CountAccepted(valid, xs[1..])
  }

  /** Filtering by the acceptance test keeps every accepted actor once, in
      order: the `j`-th found actor, when accepted, lands after the accepted
      actors found before it. */
  lemma {:induction false} FilterAccepted(valid: Validity, p: Ref -> bool, xs: seq<Ref>)
    requires forall a :: p(a) == Accepted(valid, a)
    ensures |Filter(xs, p)| == CountAccepted(valid, xs)
    ensures forall j :: 0 <= j < |xs| && Accepted(valid, xs[j]) ==>
              CountAccepted(valid, xs[..j]) < |Filter(xs, p)| &&
              Filter(xs, p)[CountAccepted(valid, xs[..j])] == xs[j]
    decreases |xs|
  {
    if xs != [] {
      FilterAccepted(valid, p, xs[1..]);
      FilterCons(xs, p);
      forall j | 0 <= j < |xs| && Accepted(valid, xs[j])
        ensures CountAccepted(valid, xs[..j]) < |Filter(xs, p)|
        ensures Filter(xs, p)[CountAccepted(valid, xs[..j])] == xs[j]
      {
        if j == 0 {
          assert xs[..0] == [];
        } else {
          assert xs[..j][1..] == xs[1..][..j - 1];
          assert xs[1..][j - 1] == xs[j];
        }
      }
    }
  }

  /** `CollectWaypoints`: nothing without a graph; otherwise `Waypoints`
      becomes the accepted actors among those the level reports, in that
      order, and each gets a graph node. */
  function CollectWaypoints(rm: RaceManager, hash: M.Hasher, valid: Validity, found: seq<Ref>): (r: RaceManager)
    requires rm.graph.Some? ==> G.Inv(rm.graph.value, hash)
    ensures rm.graph.None? ==> r == rm
    ensures rm.graph.Some? ==> r.graph.Some? && G.Inv(r.graph.value, hash)
    ensures rm.graph.Some? ==> forall a :: a in r.waypoints <==> a in found && Accepted(valid, a)
    ensures rm.graph.Some? ==> |r.waypoints| == CountAccepted(valid, found)
    ensures rm.graph.Some? ==>
      forall j :: 0 <= j < |found| && Accepted(valid, found[j]) ==>
        CountAccepted(valid, found[..j]) < |r.waypoints| &&
        r.waypoints[CountAccepted(valid, found[..j])] == found[j]
    ensures rm.graph.Some? ==> forall i :: 0 <= i < |r.waypoints| ==> Live(valid, r.waypoints[i])
    ensures rm.graph.Some? ==> forall k :: G.NodeOf(r.graph.value, hash, k).Some? <==>
      G.NodeOf(rm.graph.value, hash, k).Some? || (k in r.waypoints && k !in rm.graph.value.pending)
  {
    if rm.graph.None? then rm
    else
      var p := (a: Ref) => Accepted(valid, a);
      var ws := Filter(found, p);
      forall a ensures a in ws <==> a in found && Accepted(valid, a) {
        FilterMembership(found, p, a);
      }
      assert forall k :: 0 <= k < |ws| ==> Live(valid, ws[k]) by {
        forall k | 0 <= k < |ws| ensures Live(valid, ws[k]) {
          FilterMembership(found, p, ws[k]);
        }
      }
      FilterAccepted(valid, p, found);
      RaceManager(Some(AddNodes(rm.graph.value, hash, valid, ws)), ws)
  }

  /** An accepted actor at position `i` is counted before position `j > i`. */
  lemma {:induction false} CountAcceptedGrows(valid: Validity, xs: seq<Ref>, i: nat, j: nat)
    requires i < j <= |xs| && Accepted(valid, xs[i])
    ensures CountAccepted(valid, xs[..i]) < CountAccepted(valid, xs[..j])
    decreases i
  {
    if i == 0 {
      assert xs[..0] == [];
      assert xs[..j][0] == xs[0];
    } else {
      CountAcceptedGrows(valid, xs[1..], i - 1, j - 1);
      assert xs[..i][1..] == xs[1..][..i - 1];
      assert xs[..j][1..] == xs[1..][..j - 1];
    }
  }

  /** Two accepted actors keep their relative order in `Waypoints`. */
  lemma CollectKeepsOrder(rm: RaceManager, hash: M.Hasher, valid: Validity, found: seq<Ref>, i: nat, j: nat)
    requires rm.graph.Some? && G.Inv(rm.graph.value, hash)
    requires i < j < |found| && Accepted(valid, found[i]) && Accepted(valid, found[j])
    ensures var ws := CollectWaypoints(rm, hash, valid, found).waypoints;
            CountAccepted(valid, found[..i]) < CountAccepted(valid, found[..j]) < |ws| &&
            ws[CountAccepted(valid, found[..i])] == found[i] &&
            ws[CountAccepted(valid, found[..j])] == found[j]
  {
    CountAcceptedGrows(valid, found, i, j);
  }

  /* ---- PopulateGraph ---- */

  /** `Graph->AddEdge(Waypoints[a], Waypoints[b])` for each pair, in order. */
  function AddEdges(g: G.Graph, hash: M.Hasher, valid: Validity, ws: seq<Ref>, es: seq<Edge>): (r: G.Graph)
    requires G.Inv(g, hash)
    requires forall e :: e in es ==> e.src < |ws| && e.dst < |ws|
    ensures G.Inv(r, hash) && r.pending == g.pending
    decreases |es|
  {
    if es == [] then g
    else AddEdges(G.AddEdge(g, hash, valid, ws[es[0].src], ws[es[0].dst]), hash, valid, ws, es[1..])
  }

  /** The precondition of the edge-adding steps: every waypoint is valid,
      distinct, not pending and has a node. */
  ghost predicate Ready(g: G.Graph, hash: M.Hasher, valid: Validity, ws: seq<Ref>)
    requires G.Inv(g, hash)
  {
    NoDup(ws) &&
    forall k :: 0 <= k < |ws| ==>
      Live(valid, ws[k]) && ws[k] !in g.pending && G.NodeOf(g, hash, ws[k]).Some?
  }

  /** `AddEdge` between ready waypoints keeps them ready. */
  lemma AddEdgeKeepsReady(g: G.Graph, hash: M.Hasher, valid: Validity, ws: seq<Ref>, a: nat, b: nat)
    requires G.Inv(g, hash) && Ready(g, hash, valid, ws) && a < |ws| && b < |ws|
    ensures G.Inv(G.AddEdge(g, hash, valid, ws[a], ws[b]), hash)
    ensures Ready(G.AddEdge(g, hash, valid, ws[a], ws[b]), hash, valid, ws)
  {
  }

  /** One `AddEdge` between ready waypoints appends `ws[b]` to `ws[a]`'s
      successors and leaves every other waypoint's successors alone. */
  lemma AddEdgeStep(g: G.Graph, hash: M.Hasher, valid: Validity, ws: seq<Ref>, a: nat, b: nat, i: nat)
    requires G.Inv(g, hash) && Ready(g, hash, valid, ws) && a < |ws| && b < |ws| && i < |ws|
    ensures G.Edges(G.AddEdge(g, hash, valid, ws[a], ws[b]), hash, ws[i]) ==
      G.Edges(g, hash, ws[i]) + (if a == i then [ws[b]] else [])
  {
    if a != i {
      assert ws[a] != ws[i];
    }
  }

  /** Adding the edges between ready waypoints appends to waypoint `i`'s
      successors exactly the waypoints at `Targets(es, i)`, in order. */
  lemma {:induction false} AddEdgesSuccessors(g: G.Graph, hash: M.Hasher, valid: Validity, ws: seq<Ref>,
                                              es: seq<Edge>, i: nat)
    requires G.Inv(g, hash) && Ready(g, hash, valid, ws) && i < |ws|
    requires forall e :: e in es ==> e.src < |ws| && e.dst < |ws|
    ensures TargetsInRangeOk(es, ws, i)
    ensures G.Edges(AddEdges(g, hash, valid, ws, es), hash, ws[i]) ==
      G.Edges(g, hash, ws[i]) + At(ws, Targets(es, i))
    decreases |es|
  {
    if es != [] {
      var g' := AddFirstEdge(g, hash, valid, ws, es, i);
      AddEdgesSuccessors(g', hash, valid, ws, es[1..], i);
      AtTargetsStep(ws, es, i);
      var before := G.Edges(g, hash, ws[i]);
      var step := if es[0].src == i then [ws[es[0].dst]] else [];
      var rest := At(ws, Targets(es[1..], i));
      var all := At(ws, Targets(es, i));
      assert all == step + rest;
      calc {
        G.Edges(AddEdges(g, hash, valid, ws, es), hash, ws[i]);
        G.Edges(AddEdges(g', hash, valid, ws, es[1..]), hash, ws[i]);
        G.Edges(g', hash, ws[i]) + rest;
        (before + step) + rest;
        { AppendAssoc(before, step, rest); }
        before + all;
      }
    }
  }

  lemma AppendAssoc<T>(a: seq<T>, b: seq<T>, c: seq<T>)
    ensures (a + b) + c == a + (b + c)
  {
  }

  /** The first `AddEdge` of the list, as one step of `AddEdges`. */
  lemma AddFirstEdge(g: G.Graph, hash: M.Hasher, valid: Validity, ws: seq<Ref>, es: seq<Edge>, i: nat)
    returns (g': G.Graph)
    requires G.Inv(g, hash) && Ready(g, hash, valid, ws) && i < |ws| && es != []
    requires forall e :: e in es ==> e.src < |ws| && e.dst < |ws|
    ensures G.Inv(g', hash) && Ready(g', hash, valid, ws)
    ensures AddEdges(g, hash, valid, ws, es) == AddEdges(g', hash, valid, ws, es[1..])
    ensures G.Edges(g', hash, ws[i]) ==
      G.Edges(g, hash, ws[i]) + (if es[0].src == i then [ws[es[0].dst]] else [])
  {
    var a, b := es[0].src, es[0].dst;
    g' := G.AddEdge(g, hash, valid, ws[a], ws[b]);
    AddEdgeKeepsReady(g, hash, valid, ws, a, b);
    AddEdgeStep(g, hash, valid, ws, a, b, i);
  }

  lemma AtTargetsStep(ws: seq<Ref>, es: seq<Edge>, i: nat)
    requires es != [] && forall e :: e in es ==> e.src < |ws| && e.dst < |ws|
    ensures TargetsInRangeOk(es, ws, i) && TargetsInRangeOk(es[1..], ws, i)
    ensures At(ws, Targets(es, i)) ==
      (if es[0].src == i then [ws[es[0].dst]] else []) + At(ws, Targets(es[1..], i))
  {
    TargetsInRange(es, |ws|, i);
    TargetsInRange(es[1..], |ws|, i);
    if es[0].src == i {
      assert Targets(es, i) == [es[0].dst] + Targets(es[1..], i);
    } else {
      assert Targets(es, i) == Targets(es[1..], i);
    }
  }

  /** The successor indices are all in range. */
  predicate TargetsInRangeOk(es: seq<Edge>, ws: seq<Ref>, i: nat)
  {
    forall k :: 0 <= k < |Targets(es, i)| ==> Targets(es, i)[k] < |ws|
  }

  /** `PopulateGraph`: nothing without a graph, with fewer than twelve
      waypoints, or with any invalid waypoint; otherwise the track edges are
      added. */
  function PopulateGraph(rm: RaceManager, hash: M.Hasher, valid: Validity): (r: RaceManager)
    requires rm.graph.Some? ==> G.Inv(rm.graph.value, hash)
    ensures r.waypoints == rm.waypoints
    ensures r.graph.Some? <==> rm.graph.Some?
    ensures r.graph.Some? ==> G.Inv(r.graph.value, hash)
    ensures (rm.graph.None? || |rm.waypoints| < MinWaypoints ||
             exists i :: 0 <= i < |rm.waypoints| && !Live(valid, rm.waypoints[i])) ==> r == rm
  {
    if rm.graph.None? then rm
    else if |rm.waypoints| < MinWaypoints then rm
    else if exists i :: 0 <= i < |rm.waypoints| && !Live(valid, rm.waypoints[i]) then rm
    else RaceManager(Some(AddEdges(rm.graph.value, hash, valid, rm.waypoints, TrackEdges)), rm.waypoints)
  }

  /** On a freshly collected graph (distinct waypoints, each with an empty
      node, none pending), `PopulateGraph` gives waypoint `i` exactly the
      successors of the track layout. */
  lemma PopulateGraphSuccessors(rm: RaceManager, hash: M.Hasher, valid: Validity, i: nat)
    requires rm.graph.Some? && G.Inv(rm.graph.value, hash)
    requires |rm.waypoints| >= MinWaypoints && i < |rm.waypoints|
    requires Ready(rm.graph.value, hash, valid, rm.waypoints)
    requires forall k :: 0 <= k < |rm.waypoints| ==> G.Edges(rm.graph.value, hash, rm.waypoints[k]) == []
    ensures TargetsInRangeOk(TrackEdges, rm.waypoints, i)
    ensures G.Edges(PopulateGraph(rm, hash, valid).graph.value, hash, rm.waypoints[i]) ==
      At(rm.waypoints, Targets(TrackEdges, i))
  {
    AddEdgesSuccessors(rm.graph.value, hash, valid, rm.waypoints, TrackEdges, i);
    assert G.Edges(rm.graph.value, hash, rm.waypoints[i]) == [];
  }

  /* ---- GetWaypoint ---- */

  /** `GetWaypoint`: null for an index outside the array or an invalid entry,
      otherwise the entry. */
  function GetWaypoint(rm: RaceManager, valid: Validity, index: int): (r: Ref)
    ensures r != Null <==> 0 <= index < |rm.waypoints| && Live(valid, rm.waypoints[index])
    ensures r != Null ==> r == rm.waypoints[index]
  {
    if index < 0 || index >= |rm.waypoints| then Null
    else if !Live(valid, rm.waypoints[index]) then Null
    else rm.waypoints[index]
  }
}

=== FILE: racer.dfy ===
/** `AAIRacer`: the racer type, the speed and acceleration it implies, and the
    race counters the AI controller keeps on it. */
module AIRacer {
  import opened Base

  /** `ERacerType`. */
  datatype RacerType = Fast | Medium | Slow

  /** The fields of the character movement component that setup writes. */
  datatype Movement = Movement(maxWalkSpeed: real, maxAcceleration: real)

  datatype Racer = Racer(racerType: RacerType, maxSpeed: real, maxAcceleration: real,
                         lapCount: int, waypointsPassed: int, movement: Option<Movement>)

  /** The constructor defaults and the `LapCount`/`WaypointsPassed` field
      initialisers; the movement component is whatever the engine created. */
  function Construct(movement: Option<Movement>): (r: Racer)
    ensures r.racerType == Medium && r.maxSpeed == 600.0 && r.maxAcceleration == 500.0
    ensures r.lapCount == 0 && r.waypointsPassed == 0 && r.movement == movement
  {
    Racer(Medium, 600.0, 500.0, 0, 0, movement)
  }

  /** The `SetupRacerAttributes` table: (`MaxSpeed`, `MaxAcceleration`) per type. */
  function Attributes(t: RacerType): (real, real)
  {
    match t
    case Fast => (4000.0, 900.0)
    case Medium => (4000.0, 500.0)
    case Slow => (4000.0, 50.0)
  }

  /** `SetupRacerAttributes`: sets speed and acceleration from the type and,
      when there is a movement component, copies both into it. */
  function SetupRacerAttributes(r: Racer): (s: Racer)
    ensures s.racerType == Fast ==> s.maxSpeed == 4000.0 && s.maxAcceleration == 900.0
    ensures s.racerType == Medium ==> s.maxSpeed == 4000.0 && s.maxAcceleration == 500.0
    ensures s.racerType == Slow ==> s.maxSpeed == 4000.0 && s.maxAcceleration == 50.0
    ensures s.movement.Some? <==> r.movement.Some?
    ensures s.movement.Some? ==> s.movement.value == Movement(s.maxSpeed, s.maxAcceleration)
    ensures s.racerType == r.racerType && s.lapCount == r.lapCount && s.waypointsPassed == r.waypointsPassed
  {
    var (speed, accel) := Attributes(r.racerType);
    var movement := if r.movement.Some? then Some(Movement(speed, accel)) else None;
    r.(maxSpeed := speed, maxAcceleration := accel, movement := movement)
  }

  /** Every type has the same top speed; acceleration is strictly ordered
      Fast > Medium > Slow, so it alone tells the types apart. */
  lemma AttributesOrdered(a: RacerType, b: RacerType)
    ensures Attributes(a).0 == Attributes(b).0
    ensures Attributes(Fast).1 > Attributes(Medium).1 > Attributes(Slow).1
    ensures Attributes(a).1 == Attributes(b).1 ==> a == b
  {
  }

  /** Setup depends only on the type: running it again changes nothing. */
  lemma SetupIdempotent(r: Racer)
    ensures SetupRacerAttributes(SetupRacerAttributes(r)) == SetupRacerAttributes(r)
  {
  }
}

/** `AAIRacerFactory`: creates racers of a requested type at spawn points and
    picks each racer's type from a random roll against the normalised chances. */
module AIRacerFactory {
  import opened Base
  import opened AIRacer

  /** The factory's fields. `classes` are the types whose racer class is set. */
  datatype Factory = Factory(maxRacers: int, fastChance: real, mediumChance: real, slowChance: real,
                             spawnPoints: seq<Actor>, spawned: seq<Racer>, classes: set<RacerType>)

  /** The constructor: nine racers, chances 0.2 / 0.5 / 0.3. */
  function Init(classes: set<RacerType>): (f: Factory)
    ensures f.maxRacers == 9 && f.fastChance == 0.2 && f.mediumChance == 0.5 && f.slowChance == 0.3
    ensures f.spawnPoints == [] && f.spawned == [] && f.classes == classes
  {
    Factory(9, 0.2, 0.5, 0.3, [], [], classes)
  }

  /** What `SpawnActor` did: nothing, or a racer whose movement component the
      engine may or may not have created. */
  datatype SpawnResult = Refused | Spawned(movement: Option<Movement>)

  /** The world's answers for one creation attempt: the `FRand` roll, whether
      the spawn point projects onto the navigation mesh, and the spawn. */
  datatype Attempt = Attempt(roll: real, onNavMesh: bool, result: SpawnResult)

  /** `CreateRacer`: null for a missing world, an unset racer class, an
      off-mesh location or a failed spawn; otherwise the new racer gets the
      requested type, is set up, and is appended to `SpawnedRacers`. */
  function CreateRacer(f: Factory, world: bool, t: RacerType, onNavMesh: bool, result: SpawnResult): (r: (Factory, Option<Racer>))
    ensures !world || t !in f.classes || !onNavMesh || result.Refused? ==> r == (f, None)
    ensures world && t in f.classes && onNavMesh && result.Spawned? ==>
      r.1.Some? && r.1.value.racerType == t && r.1.value == SetupRacerAttributes(r.1.value) &&
      r.0 == f.(spawned := f.spawned + [r.1.value])
  {
    if !world || t !in f.classes || !onNavMesh then (f, None)
    else match result
      case Refused => (f, None)
      case Spawned(movement) =>
        var racer := SetupRacerAttributes(Construct(movement).(racerType := t));
        SetupIdempotent(racer);
        (f.(spawned := f.spawned + [racer]), Some(racer))
  }

  /** The type rule over the normalised chances. */
  function TypeFor(roll: real, fastProb: real, mediumProb: real): (t: RacerType)
  {
    if roll < fastProb then Fast
    else if roll < fastProb + mediumProb then Medium
    else Slow
  }

  /** Every roll gets exactly one type, by the three disjoint intervals
      below `fast`, up to `fast + medium`, and from there on. */
  lemma TypeForIntervals(roll: real, fastProb: real, mediumProb: real)
    ensures TypeFor(roll, fastProb, mediumProb) == Fast <==> roll < fastProb
    ensures TypeFor(roll, fastProb, mediumProb) == Medium <==> fastProb <= roll < fastProb + mediumProb
    ensures TypeFor(roll, fastProb, mediumProb) == Slow <==> fastProb <= roll && fastProb + mediumProb <= roll
  {
  }

  /** `FMath::Min(InMaxRacers, SpawnPoints.Num())`; a negative minimum makes
      the loop run zero times. */
  function RacersToSpawn(f: Factory, maxRacers: int): (n: nat)
    ensures n <= |f.spawnPoints| && n <= if maxRacers < 0 then 0 else maxRacers
    ensures n == |f.spawnPoints| || n == maxRacers || (maxRacers < 0 && n == 0)
  {
    var m := if maxRacers < |f.spawnPoints| then maxRacers else |f.spawnPoints|;
    if m < 0 then 0 else m
  }

  /** Attempts `i` up to `n - 1` of the `SpawnRacers` loop. */
  function SpawnFrom(f: Factory, world: bool, i: nat, n: nat, fastProb: real, mediumProb: real,
                     env: nat -> Attempt): (r: Factory)
    requires i <= n
    ensures r == f.(spawned := r.spawned)
    ensures |f.spawned| <= |r.spawned| <= |f.spawned| + (n - i)
    ensures r.spawned[..|f.spawned|] == f.spawned
    decreases n - i
  {
    if i == n then f
    else
      var a := env(i);
      var (f1, _) := CreateRacer(f, world, TypeFor(a.roll, fastProb, mediumProb), a.onNavMesh, a.result);
      var r := SpawnFrom(f1, world, i + 1, n, fastProb, mediumProb, env);
      assert r.spawned[..|f.spawned|] == r.spawned[..|f1.spawned|][..|f.spawned|];
      r
  }

  /** `SpawnRacers`: nothing at all for a missing world or a chance sum that
      is not positive; otherwise `SpawnedRacers` is emptied and one creation
      attempt is made per spawn point, up to `maxRacers`. */
  function SpawnRacers(f: Factory, world: bool, maxRacers: int, fastChance: real, mediumChance: real,
                       slowChance: real, env: nat -> Attempt): (r: Factory)
    ensures !world || fastChance + mediumChance + slowChance <= 0.0 ==> r == f
    ensures world && fastChance + mediumChance + slowChance > 0.0 ==>
      r == f.(spawned := r.spawned) && |r.spawned| <= RacersToSpawn(f, maxRacers)
  {
    var total := fastChance + mediumChance + slowChance;
    if !world || total <= 0.0 then f
    else
      SpawnFrom(f.(spawned := []), world, 0, RacersToSpawn(f, maxRacers),
                fastChance / total, mediumChance / total, env)
  }

  /** Attempt `k` passes every guard of `CreateRacer`. */
  predicate Succeeds(classes: set<RacerType>, k: nat, fastProb: real, mediumProb: real, env: nat -> Attempt)
  {
    TypeFor(env(k).roll, fastProb, mediumProb) in classes && env(k).onNavMesh && env(k).result.Spawned?
  }

  /** Attempts `i` up to `n - 1` all pass. */
  predicate AllSucceed(classes: set<RacerType>, i: nat, n: nat, fastProb: real, mediumProb: real, env: nat -> Attempt)
  {
    forall k :: i <= k < n ==> Succeeds(classes, k, fastProb, mediumProb, env)
  }

  /** When every attempt succeeds, racer `k` is the one created at spawn
      point `k`, with the type its roll selects. */
  lemma {:induction false} SpawnFromAllSucceed(f: Factory, i: nat, n: nat, fastProb: real, mediumProb: real,
                                               env: nat -> Attempt)
    requires i <= n
    requires AllSucceed(f.classes, i, n, fastProb, mediumProb, env)
    ensures |SpawnFrom(f, true, i, n, fastProb, mediumProb, env).spawned| == |f.spawned| + (n - i)
    ensures forall k :: i <= k < n ==>
      SpawnFrom(f, true, i, n, fastProb, mediumProb, env).spawned[|f.spawned| + (k - i)].racerType ==
      TypeFor(env(k).roll, fastProb, mediumProb)
    decreases n - i
  {
    if i < n {
      var a := env(i);
      var t := TypeFor(a.roll, fastProb, mediumProb);
      assert Succeeds(f.classes, i, fastProb, mediumProb, env);
      var (f1, racer) := CreateRacer(f, true, t, a.onNavMesh, a.result);
      assert f1 == f.(spawned := f.spawned + [racer.value]) && racer.value.racerType == t;
      assert AllSucceed(f1.classes, i + 1, n, fastProb, mediumProb, env);
      SpawnFromAllSucceed(f1, i + 1, n, fastProb, mediumProb, env);
      var r := SpawnFrom(f1, true, i + 1, n, fastProb, mediumProb, env);
      assert r == SpawnFrom(f, true, i, n, fastProb, mediumProb, env);
      assert r.spawned[..|f1.spawned|] == f1.spawned;
      assert r.spawned[|f.spawned|] == f1.spawned[|f.spawned|];
    }
  }

  /** With every attempt succeeding, `SpawnRacers` leaves exactly
      `RacersToSpawn` racers, typed by their rolls over the normalised chances. */
  lemma SpawnRacersAllSucceed(f: Factory, maxRacers: int, fastChance: real, mediumChance: real,
                              slowChance: real, env: nat -> Attempt, fastProb: real, mediumProb: real)
    requires fastChance + mediumChance + slowChance > 0.0
    requires fastProb == fastChance / (fastChance + mediumChance + slowChance)
    requires mediumProb == mediumChance / (fastChance + mediumChance + slowChance)
    requires AllSucceed(f.classes, 0, RacersToSpawn(f, maxRacers), fastProb, mediumProb, env)
    ensures |SpawnRacers(f, true, maxRacers, fastChance, mediumChance, slowChance, env).spawned| ==
            RacersToSpawn(f, maxRacers)
    ensures forall k :: 0 <= k < RacersToSpawn(f, maxRacers) ==>
      SpawnRacers(f, true, maxRacers, fastChance, mediumChance, slowChance, env).spawned[k].racerType ==
      TypeFor(env(k).roll, fastProb, mediumProb)
  {
    SpawnFromAllSucceed(f.(spawned := []), 0, RacersToSpawn(f, maxRacers), fastProb, mediumProb, env);
  }

  /** `SpawnRacersWithDefaults`: the factory's own count and chances. */
  function SpawnRacersWithDefaults(f: Factory, world: bool, env: nat -> Attempt): (r: Factory)
    ensures r == SpawnRacers(f, world, f.maxRacers, f.fastChance, f.mediumChance, f.slowChance, env)
  {
    SpawnRacers(f, world, f.maxRacers, f.fastChance, f.mediumChance, f.slowChance, env)
  }

  /** With the constructor's chances a roll below 0.2 gives a fast racer, one
      below 0.7 a medium racer, and anything else a slow one; at most nine
      racers are made. */
  lemma DefaultThresholds(classes: set<RacerType>, points: seq<Actor>, roll: real)
    ensures TypeFor(roll, 0.2 / (0.2 + 0.5 + 0.3), 0.5 / (0.2 + 0.5 + 0.3)) ==
            (if roll < 0.2 then Fast else if roll < 0.7 then Medium else Slow)
    ensures RacersToSpawn(Init(classes).(spawnPoints := points), 9) == if |points| < 9 then |points| else 9
  {
  }

  /** The actors behind the non-null pointers, in order. */
  function NonNullActors(xs: seq<Ref>): (r: seq<Actor>)
    ensures |r| <= |xs|
    ensures forall a :: a in r <==> Ref(a) in xs
  {
    if xs == [] then []
    else (if xs[0].Ref? then [xs[0].actor] else []) + NonNullActors(xs[1..])
  }

  /** `BeginPlay`: collects the non-null spawn points found in the level and,
      when there is at least one, spawns racers with the defaults. */
  function BeginPlay(f: Factory, found: seq<Ref>, world: bool, env: nat -> Attempt): (r: Factory)
    ensures r.spawnPoints == NonNullActors(found)
    ensures NonNullActors(found) == [] ==> r == f.(spawnPoints := [])
    ensures NonNullActors(found) != [] ==>
      r == SpawnRacersWithDefaults(f.(spawnPoints := NonNullActors(found)), world, env)
  {
    var f1 := f.(spawnPoints := NonNullActors(found));
    if f1.spawnPoints == [] then f1 else SpawnRacersWithDefaults(f1, world, env)
  }
}

=== FILE: spectator.dfy ===
/** `ASpectator` and its three `ISpectatorState` implementations: idle until
    an AI racer comes within reach, then cheering (or, when told,
    disappointed) for five seconds before going idle again. */
module Spectator {
  import opened Base

  datatype StateKind = Idle | Cheering | Disappointed

  /** `GetStateName` of each state class. */
  function StateName(k: StateKind): string
  {
    match k
    case Idle => "Idle"
    case Cheering => "Cheering"
    case Disappointed => "Disappointed"
  }

  /** The spectator's fields. `state` is `CurrentState` (`None` when null);
      `name` is `CurrentStateName` (`None` for the empty name). */
  datatype Spectator = Spectator(state: Option<StateKind>, name: Option<string>, timer: real,
                                 reactionDistance: real)

  /** The calls a transition makes on state objects, in order. */
  datatype Call = Exit(from: StateKind) | Enter(to: StateKind)

  /** The constructor and field initialisers: no state, reaction distance 1000. */
  function Construct(): (s: Spectator)
    ensures s.state.None? && s.name.None? && s.timer == 0.0 && s.reactionDistance == 1000.0
  {
    Spectator(None, None, 0.0, 1000.0)
  }

  /** `CheerDuration` and `DisappointedDuration`. */
  const CheerDuration: real := 5.0
  const DisappointedDuration: real := 5.0

  /** `SetState`: exits the old state if any, installs the new one, and for a
      non-null new state enters it, takes its name and restarts the timer. */
  function SetState(s: Spectator, next: Option<StateKind>): (r: (Spectator, seq<Call>))
    ensures r.0.state == next && r.0.reactionDistance == s.reactionDistance
    ensures next.Some? ==> r.0.name == Some(StateName(next.value)) && r.0.timer == 0.0
    ensures next.None? ==> r.0.name == s.name && r.0.timer == s.timer
    ensures r.1 == (if s.state.Some? then [Exit(s.state.value)] else []) +
                   (if next.Some? then [Enter(next.value)] else [])
  {
    var exits := if s.state.Some? then [Exit(s.state.value)] else [];
    var s1 := s.(state := next);
    if next.Some? then (s1.(name := Some(StateName(next.value)), timer := 0.0), exits + [Enter(next.value)])
    else (s1, exits)
  }

  /** `Cheer`, `BeDisappointed` and `BeIdle`. */
  function Cheer(s: Spectator): (r: Spectator)
    ensures r.state == Some(Cheering) && r.name == Some("Cheering") && r.timer == 0.0
  {
    SetState(s, Some(Cheering)).0
  }

  function BeDisappointed(s: Spectator): (r: Spectator)
    ensures r.state == Some(Disappointed) && r.name == Some("Disappointed") && r.timer == 0.0
  {
    SetState(s, Some(Disappointed)).0
  }

  function BeIdle(s: Spectator): (r: Spectator)
    ensures r.state == Some(Idle) && r.name == Some("Idle") && r.timer == 0.0
  {
    SetState(s, Some(Idle)).0
  }

  /** `BeginPlay`: the spectator starts idle. */
  function BeginPlay(s: Spectator): (r: Spectator)
    ensures r.state == Some(Idle) && r.name == Some("Idle") && r.timer == 0.0
  {
    BeIdle(s)
  }

  /** Some AI racer distance is within the reaction distance (inclusive). */
  predicate RacerInReach(s: Spectator, distances: seq<real>)
  {
    exists i :: 0 <= i < |distances| && distances[i] <= s.reactionDistance
  }

  /** `UpdateState` of the current state. `distances` are the distances to
      the AI racers found in the level, in the order the engine lists them. */
  function UpdateState(s: Spectator, distances: seq<real>): (r: Spectator)
    requires s.state.Some?
    ensures s.state == Some(Idle) ==> (r == if RacerInReach(s, distances) then Cheer(s) else s)
    ensures s.state == Some(Cheering) ==> (r == if s.timer >= CheerDuration then BeIdle(s) else s)
    ensures s.state == Some(Disappointed) ==> (r == if s.timer >= DisappointedDuration then BeIdle(s) else s)
  {
    match s.state.value
    case Idle => IdleUpdate(s, distances, 0)
    case Cheering => if s.timer >= CheerDuration then BeIdle(s) else s
    case Disappointed => if s.timer >= DisappointedDuration then BeIdle(s) else s
  }

  /** The loop over the found racers in `UIdleState::UpdateState`, from
      racer `i` on: the first one in reach makes the spectator cheer and ends
      the loop, so at most one transition happens. */
  function IdleUpdate(s: Spectator, distances: seq<real>, i: nat): (r: Spectator)
    requires i <= |distances|
    ensures (exists j :: i <= j < |distances| && distances[j] <= s.reactionDistance) ==> r == Cheer(s)
    ensures !(exists j :: i <= j < |distances| && distances[j] <= s.reactionDistance) ==> r == s
    decreases |distances| - i
  {
    if i == |distances| then s
    else if distances[i] <= s.reactionDistance then Cheer(s)
    else IdleUpdate(s, distances, i + 1)
  }

  /** `Tick`: with a state, updates it and then advances the timer. */
  function Tick(s: Spectator, dt: real, distances: seq<real>): (r: Spectator)
    ensures s.state.None? ==> r == s
    ensures s.state.Some? ==> r == UpdateState(s, distances).(timer := UpdateState(s, distances).timer + dt)
  {
    if s.state.None? then s
    else
      var u := UpdateState(s, distances);
      u.(timer := u.timer + dt)
  }

  /** A transition during `Tick` restarts the timer, so it ends at `dt`;
      otherwise the timer just advances by `dt`. */
  lemma TickTimer(s: Spectator, dt: real, distances: seq<real>)
    requires s.state.Some?
    ensures UpdateState(s, distances).state != s.state ==> Tick(s, dt, distances).timer == dt
    ensures UpdateState(s, distances).state == s.state ==> Tick(s, dt, distances).timer == s.timer + dt
  {
  }

  /** An idle spectator starts cheering on a tick exactly when some racer
      is in reach; a cheering or disappointed one goes back to idle exactly
      when its timer has reached five seconds. */
  lemma TickTransitions(s: Spectator, dt: real, distances: seq<real>)
    requires s.state.Some?
    ensures s.state == Some(Idle) ==>
      (Tick(s, dt, distances).state == Some(Cheering) <==> RacerInReach(s, distances))
    ensures s.state == Some(Idle) ==>
      (Tick(s, dt, distances).state == Some(Idle) <==> !RacerInReach(s, distances))
    ensures s.state == Some(Cheering) ==>
      (Tick(s, dt, distances).state == Some(Idle) <==> s.timer >= 5.0)
    ensures s.state == Some(Disappointed) ==>
      (Tick(s, dt, distances).state == Some(Idle) <==> s.timer >= 5.0)
  {
  }
}

=== FILE: stack_queue.dfy ===
/** `CheckStackTemp<T>`: a LIFO stack of linked nodes with a `Top` pointer and
    a separately maintained `StackSize`. */
module CheckStack {
  import opened LinkedList

  datatype Stack<T> = Stack(top: Node<T>, size: int)

  /** The stacked values, top first. */
  function Items<T>(s: Stack<T>): seq<T>
  {
    Elements(s.top)
  }

  /** `StackSize` counts the nodes below `Top`. */
  ghost predicate Valid<T>(s: Stack<T>)
  {
    s.size == |Items(s)|
  }

  /** The result of `Pop` / `Peek`: the returned flag, the out-parameter after
      the call and the stack after the call. */
  datatype Taken<T> = Taken(ok: bool, item: T, stack: Stack<T>)

  /** The constructor: `Top(nullptr), StackSize(0)`. */
  function Empty<T>(): (s: Stack<T>)
    ensures Valid(s) && Items(s) == []
  {
    Stack(Nil, 0)
  }

  /** `Push`: the new node becomes the top. */
  function Push<T>(s: Stack<T>, x: T): (r: Stack<T>)
    ensures Items(r) == [x] + Items(s)
    ensures Valid(s) ==> Valid(r)
  {
    Stack(Cons(x, s.top), s.size + 1)
  }

  /** `IsEmpty`: `Top == nullptr`. */
  function IsEmpty<T>(s: Stack<T>): (b: bool)
    ensures b <==> Items(s) == []
  {
    s.top.Nil?
  }

  /** `Pop`: false with the out-parameter untouched on an empty stack;
      otherwise the top value is written out and its node unlinked. */
  function Pop<T>(s: Stack<T>, out: T): (r: Taken<T>)
    ensures Items(s) == [] ==> r == Taken(false, out, s)
    ensures Items(s) != [] ==> r.ok && r.item == Items(s)[0] && Items(r.stack) == Items(s)[1..]
    ensures Valid(s) ==> Valid(r.stack)
  {
    if IsEmpty(s) then Taken(false, out, s)
    else Taken(true, s.top.data, Stack(s.top.next, s.size - 1))
  }

  /** `Peek`: like `Pop` without unlinking. */
  function Peek<T>(s: Stack<T>, out: T): (r: Taken<T>)
    ensures r.stack == s
    ensures Items(s) == [] ==> !r.ok && r.item == out
    ensures Items(s) != [] ==> r.ok && r.item == Items(s)[0]
  {
    if IsEmpty(s) then Taken(false, out, s) else Taken(true, s.top.data, s)
  }

  /** `Clear`: unlinks every node and zeroes the size. */
  function Clear<T>(s: Stack<T>): (r: Stack<T>)
    ensures Valid(r) && Items(r) == []
  {
    Stack(Nil, 0)
  }

  /** `Size`: reads `StackSize`. */
  function Size<T>(s: Stack<T>): (n: int)
    requires Valid(s)
    ensures n == |Items(s)|
  {
    s.size
  }

  /** `Pop` undoes `Push`: last in, first out. */
  lemma PushPop<T>(s: Stack<T>, x: T, out: T)
    requires Valid(s)
    ensures Pop(Push(s, x), out) == Taken(true, x, s)
  {
  }

  /** Pushing `xs` in order leaves them on the stack in reverse order. */
  function PushAll<T>(s: Stack<T>, xs: seq<T>): (r: Stack<T>)
    ensures Valid(s) ==> Valid(r)
    ensures |Items(r)| == |Items(s)| + |xs|
    decreases |xs|
  {
    if xs == [] then s else PushAll(Push(s, xs[0]), xs[1..])
  }

  function Reverse<T>(xs: seq<T>): (r: seq<T>)
    ensures |r| == |xs|
    ensures forall i :: 0 <= i < |xs| ==> r[i] == xs[|xs| - 1 - i]
  {
    if xs == [] then [] else Reverse(xs[1..]) + [xs[0]]
  }

  lemma {:induction false} PushAllItems<T>(s: Stack<T>, xs: seq<T>)
    ensures Items(PushAll(s, xs)) == Reverse(xs) + Items(s)
    decreases |xs|
  {
    if xs != [] {
      PushAllItems(Push(s, xs[0]), xs[1..]);
      assert Reverse(xs) == Reverse(xs[1..]) + [xs[0]];
    }
  }
}

/** `DialogueQueueTemp<T>`: a FIFO queue of linked nodes with `Head` and `Tail`
    pointers. The tail pointer is modelled by the value it points at, which is
    what the two `Enqueue` branches depend on. */
module DialogueQueue {
  import opened Base
  import opened LinkedList

  datatype Queue<T> = Queue(head: Node<T>, tail: Option<T>)

  /** The queued values, front first. */
  function Items<T>(q: Queue<T>): seq<T>
  {
    Elements(q.head)
  }

  /** `Tail` is null exactly when `Head` is, and otherwise is the last node. */
  ghost predicate Valid<T>(q: Queue<T>)
  {
    (q.tail.None? <==> q.head.Nil?) &&
    (q.tail.Some? ==> Items(q)[|Items(q)| - 1] == q.tail.value)
  }

  datatype Taken<T> = Taken(ok: bool, item: T, queue: Queue<T>)

  /** The constructor: both pointers null. */
  function Empty<T>(): (q: Queue<T>)
    ensures Valid(q) && Items(q) == []
  {
    Queue(Nil, None)
  }

  /** `Enqueue`: with no tail the new node becomes head and tail; otherwise it
      is linked after the tail. */
  function Enqueue<T>(q: Queue<T>, x: T): (r: Queue<T>)
    requires Valid(q)
    ensures Valid(r)
    ensures Items(r) == Items(q) + [x]
  {
    if q.tail.None? then
      assert Elements(Cons(x, Nil)) == [x];
      Queue(Cons(x, Nil), Some(x))
    else Queue(AppendNode(q.head, x), Some(x))
  }

  /** `Dequeue`: false with the out-parameter untouched on an empty queue;
      otherwise the front value is written out, the head advances and the tail
      is reset when the queue becomes empty. */
  function Dequeue<T>(q: Queue<T>, out: T): (r: Taken<T>)
    requires Valid(q)
    ensures Valid(r.queue)
    ensures Items(q) == [] ==> r == Taken(false, out, q)
    ensures Items(q) != [] ==> r.ok && r.item == Items(q)[0] && Items(r.queue) == Items(q)[1..]
  {
    if q.head.Nil? then Taken(false, out, q)
    else
      var rest := q.head.next;
      Taken(true, q.head.data, Queue(rest, if rest.Nil? then None else q.tail))
  }

  /** `Peek`: the front value without removing it. */
  function Peek<T>(q: Queue<T>, out: T): (r: Taken<T>)
    ensures r.queue == q
    ensures Items(q) == [] ==> !r.ok && r.item == out
    ensures Items(q) != [] ==> r.ok && r.item == Items(q)[0]
  {
    if q.head.Nil? then Taken(false, out, q) else Taken(true, q.head.data, q)
  }

  /** `IsEmpty`: `Head == nullptr`. */
  function IsEmpty<T>(q: Queue<T>): (b: bool)
    ensures b <==> Items(q) == []
  {
    q.head.Nil?
  }

  /** `Clear`: every node deleted and the tail reset. */
  function Clear<T>(q: Queue<T>): (r: Queue<T>)
    ensures Valid(r) && Items(r) == []
  {
    Queue(Nil, None)
  }

  /** `GetSize`: counts the nodes by walking from the head. */
  method GetSize<T>(q: Queue<T>) returns (count: int)
    ensures count == |Items(q)|
  {
    count := 0;
    var temp := q.head;
    while temp.Cons?
      invariant count + |Elements(temp)| == |Items(q)|
      decreases |Elements(temp)|
    {
      count := count + 1;
      temp := temp.next;
    }
  }

  /** Enqueuing `xs` in order. */
  function EnqueueAll<T>(q: Queue<T>, xs: seq<T>): (r: Queue<T>)
    requires Valid(q)
    ensures Valid(r)
    ensures Items(r) == Items(q) + xs
    decreases |xs|
  {
    if xs == [] then q
    else
      assert Items(q) + xs == Items(q) + [xs[0]] + xs[1..];
      EnqueueAll(Enqueue(q, xs[0]), xs[1..])
  }

  /** Dequeuing `n` times collects the first `n` values, front first, and
      leaves the rest queued: first in, first out. */
  function DequeueN<T>(q: Queue<T>, n: nat, out: T): (r: (seq<T>, Queue<T>))
    requires Valid(q) && n <= |Items(q)|
    ensures Valid(r.1)
    ensures r.0 == Items(q)[..n]
    ensures Items(r.1) == Items(q)[n..]
    decreases n
  {
    if n == 0 then ([], q)
    else
      var xs := Items(q);
      var t := Dequeue(q, out);
      var rest := DequeueN(t.queue, n - 1, out);
      assert xs[..n] == [xs[0]] + xs[1..][..n - 1];
      assert xs[1..][n - 1..] == xs[n..];
      ([t.item] + rest.0, rest.1)
  }

  lemma EnqueueThenDrain<T>(xs: seq<T>, out: T)
    ensures DequeueN(EnqueueAll(Empty(), xs), |xs|, out).0 == xs
    ensures IsEmpty(DequeueN(EnqueueAll(Empty(), xs), |xs|, out).1)
  {
    assert Items(EnqueueAll(Empty(), xs)) == xs;
  }
}

=== FILE: temp_hash_map.dfy ===
/** `TempHashMap<K, V>` with actor-pointer keys: 64 buckets, each a
    `TempLinkedList` of key/value nodes. The abstraction `Lookup` is the
    partial map the buckets represent; it does not depend on which actors are
    currently valid, whereas the operations consult validity on every call. */
module TempHashMap {
  import opened Base
  import opened LinkedList

  /** `BucketCount`. */
  const BucketCount: int := 64

  /** `HashNode`: one key/value pair. */
  datatype HashNode<V> = HashNode(key: Ref, value: V)

  /** The bucket array. */
  datatype Map<V> = Map(buckets: seq<List<HashNode<V>>>)

  /** `GetTypeHash` on an actor pointer: a fixed 32-bit function of the actor. */
  type Hasher = Actor -> bv32

  /** `GetTypeHash(Key) & (BucketCount - 1)`. */
  function Slot(hash: Hasher, a: Actor): (i: int)
    ensures 0 <= i < BucketCount
  {
    (hash(a) & 63) as int
  }

  /** `GetBucketIndex`: bucket 0 for a null or invalid key, otherwise the
      key's slot. */
  function GetBucketIndex(hash: Hasher, valid: Validity, k: Ref): (i: int)
    ensures 0 <= i < BucketCount
    ensures Live(valid, k) ==> i == Slot(hash, k.actor)
    ensures !Live(valid, k) ==> i == 0
  {
    if !Live(valid, k) then 0 else Slot(hash, k.actor)
  }

  /* ---- Representation invariant and abstraction ---- */

  predicate UniqueKeys<V>(es: seq<HashNode<V>>)
  {
    forall i, j :: 0 <= i < j < |es| ==> es[i].key != es[j].key
  }

  /** Bucket `b` is a well-formed list whose keys are distinct, non-null and
      hash to `b`. */
  ghost predicate BucketOk<V>(l: List<HashNode<V>>, hash: Hasher, b: int)
  {
    Valid(l) && UniqueKeys(Contents(l)) &&
    forall i :: 0 <= i < |Contents(l)| ==>
      Contents(l)[i].key.Ref? && Slot(hash, Contents(l)[i].key.actor) == b
  }

  ghost predicate Inv<V>(m: Map<V>, hash: Hasher)
  {
    |m.buckets| == BucketCount &&
    forall b :: 0 <= b < BucketCount ==> BucketOk(m.buckets[b], hash, b)
  }

  /** The value of the first node in `es` whose key is `k`. */
  function LookupIn<V>(es: seq<HashNode<V>>, k: Ref): Option<V>
  {
    if es == [] then None
    else if es[0].key == k then Some(es[0].value)
    else LookupIn(es[1..], k)
  }

  /** The partial map a bucket array represents. */
  function Lookup<V>(m: Map<V>, hash: Hasher, k: Ref): Option<V>
    requires |m.buckets| == BucketCount
  {
    if k.Null? then None else LookupIn(Contents(m.buckets[Slot(hash, k.actor)]), k)
  }

  /* ---- Bucket-level facts ---- */

  lemma {:induction false} LookupInFirst<V>(es: seq<HashNode<V>>, k: Ref, i: nat)
    requires i < |es| && es[i].key == k
    requires forall j :: 0 <= j < i ==> es[j].key != k
    ensures LookupIn(es, k) == Some(es[i].value)
  {
    if i > 0 {
      LookupInFirst(es[1..], k, i - 1);
    }
  }

  lemma {:induction false} LookupInAbsent<V>(es: seq<HashNode<V>>, k: Ref)
    requires forall j :: 0 <= j < |es| ==> es[j].key != k
    ensures LookupIn(es, k) == None
  {
    if es != [] {
      LookupInAbsent(es[1..], k);
    }
  }

  lemma {:induction false} LookupInSome<V>(es: seq<HashNode<V>>, k: Ref)
    requires LookupIn(es, k).Some?
    ensures exists j :: 0 <= j < |es| && es[j].key == k
  {
    if es[0].key != k {
      LookupInSome(es[1..], k);
      var j :| 0 <= j < |es[1..]| && es[1..][j].key == k;
      assert es[j + 1].key == k;
    }
  }

  /** Overwriting a node's value without changing its key leaves every other
      key's lookup unchanged. */
  lemma {:induction false} LookupInUpdate<V>(es: seq<HashNode<V>>, i: nat, v: V, k: Ref)
    requires i < |es| && es[i].key != k
    ensures LookupIn(es[i := HashNode(es[i].key, v)], k) == LookupIn(es, k)
  {
    if i > 0 && es[0].key != k {
      assert es[i := HashNode(es[i].key, v)][1..] == es[1..][i - 1 := HashNode(es[i].key, v)];
      LookupInUpdate(es[1..], i - 1, v, k);
    }
  }

  lemma {:induction false} LookupInAppend<V>(es: seq<HashNode<V>>, e: HashNode<V>, k: Ref)
    ensures LookupIn(es + [e], k) ==
      if LookupIn(es, k).Some? then LookupIn(es, k)
      else if e.key == k then Some(e.value) else None
  {
    if es == [] {
      assert es + [e] == [e];
    } else {
      assert (es + [e])[1..] == es[1..] + [e];
      LookupInAppend(es[1..], e, k);
    }
  }

  /** Dropping nodes whose keys differ from `k` does not change `k`'s lookup. */
  lemma {:induction false} LookupInRejectOther<V>(es: seq<HashNode<V>>, p: HashNode<V> -> bool, k: Ref)
    requires forall e: HashNode<V> :: p(e) ==> e.key != k
    ensures LookupIn(Reject(es, p), k) == LookupIn(es, k)
  {
    if es != [] {
      LookupInRejectOther(es[1..], p, k);
      if p(es[0]) {
        assert Reject(es, p) == Reject(es[1..], p);
      } else {
        assert (Reject(es, p))[1..] == Reject(es[1..], p);
      }
    }
  }

  /** Dropping every node whose key is `k` leaves no value for `k`. */
  lemma {:induction false} LookupInRejectSame<V>(es: seq<HashNode<V>>, p: HashNode<V> -> bool, k: Ref)
    requires forall e: HashNode<V> :: e.key == k ==> p(e)
    ensures LookupIn(Reject(es, p), k) == None
  {
    if es != [] {
      LookupInRejectSame(es[1..], p, k);
      if p(es[0]) {
        assert Reject(es, p) == Reject(es[1..], p);
      } else {
        assert (Reject(es, p))[1..] == Reject(es[1..], p);
      }
    }
  }

  lemma {:induction false} RejectUniqueKeys<V>(es: seq<HashNode<V>>, p: HashNode<V> -> bool)
    requires UniqueKeys(es)
    ensures UniqueKeys(Reject(es, p))
  {
    if es != [] {
      var tail := Reject(es[1..], p);
      RejectUniqueKeys(es[1..], p);
      forall j | 0 <= j < |tail|
        ensures tail[j].key != es[0].key
      {
        RejectMembership(es[1..], p, tail[j]);
        var t :| 0 <= t < |es[1..]| && es[1..][t] == tail[j];
        assert es[t + 1] == tail[j];
      }
    }
  }

  lemma RejectKeepsSlots<V>(es: seq<HashNode<V>>, p: HashNode<V> -> bool, hash: Hasher, b: int)
    requires forall i :: 0 <= i < |es| ==> es[i].key.Ref? && Slot(hash, es[i].key.actor) == b
    ensures forall i :: 0 <= i < |Reject(es, p)| ==>
      Reject(es, p)[i].key.Ref? && Slot(hash, Reject(es, p)[i].key.actor) == b
  {
    var r := Reject(es, p);
    forall i | 0 <= i < |r|
      ensures r[i].key.Ref? && Slot(hash, r[i].key.actor) == b
    {
      RejectMembership(es, p, r[i]);
    }
  }

  /** Lookups are local to a slot: replacing bucket `b` changes only keys that
      hash to `b`. */
  lemma OtherBucketLookup<V>(m: Map<V>, hash: Hasher, b: int, l: List<HashNode<V>>, k: Ref)
    requires |m.buckets| == BucketCount && 0 <= b < BucketCount
    requires k.Ref? ==> Slot(hash, k.actor) != b
    ensures Lookup(Map(m.buckets[b := l]), hash, k) == Lookup(m, hash, k)
  {
  }

  /* ---- Operations ---- */

  /** The empty map (every bucket an empty list). */
  function New<V>(): (m: Map<V>)
    ensures forall hash :: Inv(m, hash)
    ensures |m.buckets| == BucketCount
    ensures forall hash, k :: Lookup(m, hash, k) == None
  {
    Map(seq(BucketCount, _ => Empty()))
  }

  /** The node test `Add` and `Remove` hand to the bucket list. */
  function MatchesKey<V>(valid: Validity, k: Ref): HashNode<V> -> bool
  {
    (e: HashNode<V>) => Live(valid, e.key) && Live(valid, k) && e.key == k
  }

  /** The node test `Get` hands to the bucket list. */
  function HoldsKey<V>(valid: Validity, k: Ref): HashNode<V> -> bool
  {
    (e: HashNode<V>) => e.key.Ref? && valid(e.key.actor) && e.key == k
  }

  /** `Get`: the stored value for a valid key, nothing for an invalid one. */
  function Get<V>(m: Map<V>, hash: Hasher, valid: Validity, k: Ref): (r: Option<V>)
    requires Inv(m, hash)
    ensures !Live(valid, k) ==> r == None
    ensures Live(valid, k) ==> r == Lookup(m, hash, k)
  {
    if !Live(valid, k) then None
    else
      var l := m.buckets[GetBucketIndex(hash, valid, k)];
      match Find(l, HoldsKey(valid, k))
      case None =>
        LookupInAbsent(Contents(l), k);
        None
      case Some(i) =>
        LookupInFirst(Contents(l), k, i);
        Some(Contents(l)[i].value)
  }

  /** `Add`: ignores an invalid key; otherwise overwrites the value of an
      existing node for the key or appends a new node to its bucket. */
  function Add<V>(m: Map<V>, hash: Hasher, valid: Validity, k: Ref, v: V): (r: Map<V>)
    requires Inv(m, hash)
    ensures Inv(r, hash)
    ensures !Live(valid, k) ==> r == m
    ensures Live(valid, k) ==> Lookup(r, hash, k) == Some(v)
    ensures Live(valid, k) ==> forall k' :: k' != k ==> Lookup(r, hash, k') == Lookup(m, hash, k')
  {
    if !Live(valid, k) then m
    else
      var b := GetBucketIndex(hash, valid, k);
      var l := m.buckets[b];
      match Find(l, MatchesKey(valid, k))
      case Some(i) =>
        OverwriteOk(m, hash, valid, k, v, i);
        Map(m.buckets[b := SetAt(l, i, HashNode(Contents(l)[i].key, v))])
      case None =>
        AppendOk(m, hash, valid, k, v);
        Map(m.buckets[b := LinkedList.Add(l, HashNode(k, v))])
  }

  /** Replacing bucket `b` by a well-formed bucket for `b` keeps the
      invariant and every key of another bucket. */
  lemma ReplaceBucket<V>(m: Map<V>, hash: Hasher, b: int, l: List<HashNode<V>>)
    requires Inv(m, hash) && 0 <= b < BucketCount && BucketOk(l, hash, b)
    ensures Inv(Map(m.buckets[b := l]), hash)
  {
  }

  /** The overwriting branch of `Add`. */
  lemma OverwriteOk<V>(m: Map<V>, hash: Hasher, valid: Validity, k: Ref, v: V, i: nat)
    requires Inv(m, hash) && Live(valid, k)
    requires Find(m.buckets[Slot(hash, k.actor)], MatchesKey(valid, k)) == Some(i)
    ensures var b := Slot(hash, k.actor);
            var l := m.buckets[b];
            var r := Map(m.buckets[b := SetAt(l, i, HashNode(Contents(l)[i].key, v))]);
            Inv(r, hash) && Lookup(r, hash, k) == Some(v) &&
            forall k' :: k' != k ==> Lookup(r, hash, k') == Lookup(m, hash, k')
  {
    var b := Slot(hash, k.actor);
    var l := m.buckets[b];
    var es := Contents(l);
    var l' := SetAt(l, i, HashNode(es[i].key, v));
    var r := Map(m.buckets[b := l']);
    assert Contents(l') == es[i := HashNode(es[i].key, v)];
    LookupInFirst(Contents(l'), k, i);
    forall k' | k' != k
      ensures Lookup(r, hash, k') == Lookup(m, hash, k')
    {
      if k'.Ref? && Slot(hash, k'.actor) == b {
        LookupInUpdate(es, i, v, k');
      } else {
        OtherBucketLookup(m, hash, b, l', k');
      }
    }
    assert BucketOk(l', hash, b);
    ReplaceBucket(m, hash, b, l');
  }

  /** The appending branch of `Add`. */
  lemma AppendOk<V>(m: Map<V>, hash: Hasher, valid: Validity, k: Ref, v: V)
    requires Inv(m, hash) && Live(valid, k)
    requires Find(m.buckets[Slot(hash, k.actor)], MatchesKey(valid, k)).None?
    ensures var b := Slot(hash, k.actor);
            var r := Map(m.buckets[b := LinkedList.Add(m.buckets[b], HashNode(k, v))]);
            Inv(r, hash) && Lookup(r, hash, k) == Some(v) &&
            forall k' :: k' != k ==> Lookup(r, hash, k') == Lookup(m, hash, k')
  {
    var b := Slot(hash, k.actor);
    var l := m.buckets[b];
    var es := Contents(l);
    var l' := LinkedList.Add(l, HashNode(k, v));
    var r := Map(m.buckets[b := l']);
    LookupInAbsent(es, k);
    LookupInAppend(es, HashNode(k, v), k);
    forall k' | k' != k
      ensures Lookup(r, hash, k') == Lookup(m, hash, k')
    {
      if k'.Ref? && Slot(hash, k'.actor) == b {
        LookupInAppend(es, HashNode(k, v), k');
      } else {
        OtherBucketLookup(m, hash, b, l', k');
      }
    }
    assert BucketOk(l', hash, b);
    ReplaceBucket(m, hash, b, l');
  }

  /** `Remove`: ignores an invalid key; otherwise unlinks the key's nodes from
      its bucket. */
  function Remove<V>(m: Map<V>, hash: Hasher, valid: Validity, k: Ref): (r: Map<V>)
    requires Inv(m, hash)
    ensures Inv(r, hash)
    ensures !Live(valid, k) ==> r == m
    ensures Live(valid, k) ==> Lookup(r, hash, k) == None
    ensures Live(valid, k) ==> forall k' :: k' != k ==> Lookup(r, hash, k') == Lookup(m, hash, k')
  {
    if !Live(valid, k) then m
    else
      var b := GetBucketIndex(hash, valid, k);
      var l := m.buckets[b];
      var p := MatchesKey(valid, k);
      var l' := LinkedList.Remove(l, p);
      var r := Map(m.buckets[b := l']);
      LookupInRejectSame(Contents(l), p, k);
      RejectUniqueKeys(Contents(l), p);
      RejectKeepsSlots(Contents(l), p, hash, b);
      assert forall k' :: k' != k ==> Lookup(r, hash, k') == Lookup(m, hash, k') by {
        forall k' | k' != k
          ensures Lookup(r, hash, k') == Lookup(m, hash, k')
        {
          if k'.Ref? && Slot(hash, k'.actor) == b {
            LookupInRejectOther(Contents(l), p, k');
          } else {
            OtherBucketLookup(m, hash, b, l', k');
          }
        }
      }
      r
  }

  /** `Clear`: every bucket emptied. */
  function Clear<V>(m: Map<V>): (r: Map<V>)
    ensures forall hash :: Inv(r, hash)
    ensures |r.buckets| == BucketCount
    ensures forall hash, k :: Lookup(r, hash, k) == None
  {
    New()
  }

  /* ---- GetAllKeys ---- */

  /** The valid keys of one bucket, in list order. */
  function KeysOf<V>(es: seq<HashNode<V>>, valid: Validity): seq<Ref>
  {
    if es == [] then []
    else (if Live(valid, es[0].key) then [es[0].key] else []) + KeysOf(es[1..], valid)
  }

  /** The valid keys of buckets `b`, `b + 1`, ..., in bucket order. */
  function KeysFrom<V>(m: Map<V>, valid: Validity, b: nat): seq<Ref>
    requires b <= |m.buckets|
    decreases |m.buckets| - b
  {
    if b == |m.buckets| then []
    else KeysOf(Contents(m.buckets[b]), valid) + KeysFrom(m, valid, b + 1)
  }

  lemma {:induction false} KeysOfMember<V>(es: seq<HashNode<V>>, valid: Validity, k: Ref)
    ensures k in KeysOf(es, valid) <==> Live(valid, k) && LookupIn(es, k).Some?
  {
    if es != [] {
      KeysOfMember(es[1..], valid, k);
    }
  }

  lemma {:induction false} KeysOfNoDup<V>(es: seq<HashNode<V>>, valid: Validity)
    requires UniqueKeys(es)
    ensures NoDup(KeysOf(es, valid))
  {
    if es != [] {
      var tail := KeysOf(es[1..], valid);
      KeysOfNoDup(es[1..], valid);
      KeysOfMember(es[1..], valid, es[0].key);
      if LookupIn(es[1..], es[0].key).Some? {
        LookupInSome(es[1..], es[0].key);
        assert false;
      }
      assert es[0].key !in tail;
    }
  }

  /** Every key listed from bucket `b` onwards hashes to a bucket at or after `b`. */
  lemma {:induction false} KeysFromSlots<V>(m: Map<V>, hash: Hasher, valid: Validity, b: nat, k: Ref)
    requires Inv(m, hash) && b <= BucketCount
    ensures k in KeysFrom(m, valid, b) <==>
      Live(valid, k) && b <= Slot(hash, k.actor) && Lookup(m, hash, k).Some?
    decreases BucketCount - b
  {
    if b < BucketCount {
      KeysFromSlots(m, hash, valid, b + 1, k);
      var es := Contents(m.buckets[b]);
      KeysOfMember(es, valid, k);
      if LookupIn(es, k).Some? {
        LookupInSome(es, k);
      }
    }
  }

  lemma {:induction false} KeysFromNoDup<V>(m: Map<V>, hash: Hasher, valid: Validity, b: nat)
    requires Inv(m, hash) && b <= BucketCount
    ensures NoDup(KeysFrom(m, valid, b))
    decreases BucketCount - b
  {
    if b < BucketCount {
      var es := Contents(m.buckets[b]);
      var here := KeysOf(es, valid);
      var rest := KeysFrom(m, valid, b + 1);
      KeysOfNoDup(es, valid);
      KeysFromNoDup(m, hash, valid, b + 1);
      forall i, j | 0 <= i < |here| && 0 <= j < |rest|
        ensures here[i] != rest[j]
      {
        KeysOfMember(es, valid, here[i]);
        LookupInSome(es, here[i]);
        KeysFromSlots(m, hash, valid, b + 1, rest[j]);
      }
      assert KeysFrom(m, valid, b) == here + rest;
    }
  }

  /** `GetAllKeys`: the valid keys of every bucket, bucket by bucket. Each
      valid key with a value is listed exactly once. */
  function GetAllKeys<V>(m: Map<V>, hash: Hasher, valid: Validity): (r: seq<Ref>)
    requires Inv(m, hash)
    ensures forall k :: k in r <==> Live(valid, k) && Lookup(m, hash, k).Some?
    ensures NoDup(r)
  {
    KeysFromNoDup(m, hash, valid, 0);
    forall k ensures k in KeysFrom(m, valid, 0) <==> Live(valid, k) && Lookup(m, hash, k).Some? {
      KeysFromSlots(m, hash, valid, 0, k);
    }
    KeysFrom(m, valid, 0)
  }

  /* ---- Properties ---- */

  /** Adding then getting the same valid key returns the added value. */
  lemma AddThenGet<V>(m: Map<V>, hash: Hasher, valid: Validity, k: Ref, v: V)
    requires Inv(m, hash) && Live(valid, k)
    ensures Get(Add(m, hash, valid, k, v), hash, valid, k) == Some(v)
  {
  }

  /** Removing a valid key makes `Get` miss it, whatever was stored. */
  lemma RemoveThenGet<V>(m: Map<V>, hash: Hasher, valid: Validity, k: Ref)
    requires Inv(m, hash)
    ensures Get(Remove(m, hash, valid, k), hash, valid, k) == None
  {
  }

  /** Adding twice with the same key keeps only the second value. */
  lemma AddAddSameKey<V>(m: Map<V>, hash: Hasher, valid: Validity, k: Ref, v1: V, v2: V, q: Ref)
    requires Inv(m, hash)
    ensures Lookup(Add(Add(m, hash, valid, k, v1), hash, valid, k, v2), hash, q)
         == Lookup(Add(m, hash, valid, k, v2), hash, q)
  {
  }
}

=== FILE: text.dfy ===
/** Engine string helpers the gameplay code relies on: substring search,
    the case-insensitive comparison `FString::Contains` and `FName` use by
    default, and decimal formatting of integers (`%d`, `FString::FromInt`). */
module Text {

  /* ---- Substrings ---- */

  /** `sub` occurs somewhere in `s`, letter case significant. */
  predicate Contains(s: string, sub: string)
    decreases |s|
  {
    |sub| <= |s| && (s[..|sub|] == sub || Contains(s[1..], sub))
  }

  lemma {:induction false} ContainsAt(s: string, sub: string, i: nat)
    requires i + |sub| <= |s| && s[i..i + |sub|] == sub
    ensures Contains(s, sub)
    decreases i
  {
    if i > 0 {
      assert s[1..][i - 1..i - 1 + |sub|] == s[i..i + |sub|];
      ContainsAt(s[1..], sub, i - 1);
    }
  }

  lemma {:induction false} ContainsSomewhere(s: string, sub: string) returns (i: nat)
    requires Contains(s, sub)
    ensures i + |sub| <= |s| && s[i..i + |sub|] == sub
    decreases |s|
  {
    if s[..|sub|] == sub {
      i := 0;
    } else {
      var j := ContainsSomewhere(s[1..], sub);
      assert s[1..][j..j + |sub|] == s[j + 1..j + 1 + |sub|];
      i := j + 1;
    }
  }

  /** `sub` occurs in `s` starting at position `i`. */
  predicate OccursAt(s: string, sub: string, i: nat)
  {
    i + |sub| <= |s| && s[i..i + |sub|] == sub
  }

  /** `Contains` means "occurs at some position". */
  lemma ContainsIff(s: string, sub: string)
    ensures Contains(s, sub) <==> exists i: nat :: OccursAt(s, sub, i)
  {
    if Contains(s, sub) {
      var i := ContainsSomewhere(s, sub);
      assert OccursAt(s, sub, i);
    }
    if exists i: nat :: OccursAt(s, sub, i) {
      var i: nat :| OccursAt(s, sub, i);
      ContainsAt(s, sub, i);
    }
  }

  /** The parts of a three-piece string sit at their offsets. */
  lemma Pieces(a: string, b: string, c: string)
    ensures (a + b + c)[|a|..|a| + |b|] == b
    ensures (a + b + c)[|a| + |b|..] == c
  {
  }

  /* ---- Letter case ---- */

  /** ASCII lower-casing, the folding the engine applies to names. */
  function Lower(c: char): char
  {
    if 'A' <= c <= 'Z' then (c as int + 32) as char else c
  }

  function Fold(s: string): (r: string)
    ensures |r| == |s| && forall i :: 0 <= i < |s| ==> r[i] == Lower(s[i])
  {
    seq(|s|, i requires 0 <= i < |s| => Lower(s[i]))
  }

  /** `FString::Contains` with its default `ESearchCase::IgnoreCase`. */
  predicate ContainsIgnoreCase(s: string, sub: string)
  {
    Contains(Fold(s), Fold(sub))
  }

  /** `FName` equality, which ignores letter case. */
  predicate SameName(a: string, b: string)
  {
    Fold(a) == Fold(b)
  }

  /** Folding is idempotent. */
  lemma FoldFold(s: string)
    ensures Fold(Fold(s)) == Fold(s)
  {
  }

  /** A name equal to `b` up to case contains `b` up to case. */
  lemma SameNameContains(a: string, b: string)
    requires SameName(a, b)
    ensures ContainsIgnoreCase(a, b)
  {
    assert Fold(a)[0..|Fold(b)|] == Fold(b);
    ContainsAt(Fold(a), Fold(b), 0);
  }

  /* ---- Decimal numbers ---- */

  function Digit(d: nat): (c: char)
    requires d < 10
    ensures '0' <= c <= '9'
  {
    ['0', '1', '2', '3', '4', '5', '6', '7', '8', '9'][d]
  }

  function DigitValue(c: char): (d: nat)
    requires '0' <= c <= '9'
    ensures d < 10 && Digit(d) == c
  {
    if c == '0' then 0 else if c == '1' then 1 else if c == '2' then 2
    else if c == '3' then 3 else if c == '4' then 4 else if c == '5' then 5
    else if c == '6' then 6 else if c == '7' then 7 else if c == '8' then 8 else 9
  }

  predicate AllDigits(s: string)
  {
    forall i :: 0 <= i < |s| ==> '0' <= s[i] <= '9'
  }

  /** The shortest decimal spelling of a natural number. */
  function NatToString(n: nat): (s: string)
    ensures |s| >= 1 && AllDigits(s)
    ensures n < 10 <==> |s| == 1
    ensures |s| > 1 ==> s[0] != '0'
  {
    if n < 10 then [Digit(n)] else NatToString(n / 10) + [Digit(n % 10)]
  }

  /** The value of a string of decimal digits. */
  function ParseNat(s: string): nat
    requires AllDigits(s)
  {
    if s == [] then 0 else 10 * ParseNat(s[..|s| - 1]) + DigitValue(s[|s| - 1])
  }

  /** Formatting with `%d` / `FString::FromInt`: a minus sign before the
      digits of the magnitude. */
  function IntToString(n: int): (s: string)
    ensures |s| >= 1
    ensures n >= 0 ==> AllDigits(s)
    ensures n < 0 ==> s[0] == '-' && AllDigits(s[1..])
  {
    if n >= 0 then NatToString(n) else "-" + NatToString(-n)
  }

  /** Appending a digit multiplies the value by ten and adds the digit. */
  lemma ParseNatSnoc(t: string, d: nat)
    requires AllDigits(t) && d < 10
    ensures AllDigits(t + [Digit(d)])
    ensures ParseNat(t + [Digit(d)]) == 10 * ParseNat(t) + d
  {
    var s := t + [Digit(d)];
    assert s[..|s| - 1] == t;
  }

  /** Reading a formatted natural number back gives the number. */
  lemma {:induction false} ParseNatToString(n: nat)
    ensures ParseNat(NatToString(n)) == n
  {
    if n >= 10 {
      ParseNatSnoc(NatToString(n / 10), n % 10);
      ParseNatToString(n / 10);
    }
  }

  /** Reading a formatted integer back gives the integer. */
  function ParseInt(s: string): int
    requires |s| >= 1
    requires s[0] == '-' ==> AllDigits(s[1..])
    requires s[0] != '-' ==> AllDigits(s)
  {
    if s[0] == '-' then 0 - ParseNat(s[1..]) as int else ParseNat(s)
  }

  lemma IntToStringRoundTrip(n: int)
    ensures ParseInt(IntToString(n)) == n
  {
    if n >= 0 {
      ParseNatToString(n);
    } else {
      assert IntToString(n)[1..] == NatToString(-n);
      ParseNatToString(-n);
    }
  }

  /** A formatted integer between two texts reads back. */
  lemma IntBetween(a: string, n: int, c: string)
    ensures (a + IntToString(n) + c)[|a|..|a| + |IntToString(n)|] == IntToString(n)
    ensures ParseInt((a + IntToString(n) + c)[|a|..|a| + |IntToString(n)|]) == n
  {
    Pieces(a, IntToString(n), c);
    IntToStringRoundTrip(n);
  }

  /** A formatted integer at the end of a text reads back. */
  lemma IntAtEnd(a: string, n: int)
    ensures (a + IntToString(n))[|a|..] == IntToString(n)
    ensures ParseInt((a + IntToString(n))[|a|..]) == n
  {
    assert (a + IntToString(n))[|a|..] == IntToString(n);
    IntToStringRoundTrip(n);
  }

  /** Different integers are formatted differently. */
  lemma IntToStringInjective(a: int, b: int)
    requires IntToString(a) == IntToString(b)
    ensures a == b
  {
    IntToStringRoundTrip(a);
    IntToStringRoundTrip(b);
  }

  /** `%02d` for a non-negative value: at least two digits, a leading zero
      below ten. */
  function Pad2(n: nat): (s: string)
    ensures |s| >= 2 && AllDigits(s)
    ensures ParseNat(s) == n
    ensures n < 100 ==> |s| == 2
  {
    ParseNatToString(n);
    if n < 10 then
      var s := "0" + NatToString(n);
      assert s[..|s| - 1] == "0";
      assert ParseNat("0") == 0 by { assert ParseNat([]) == 0; assert "0"[..0] == []; }
      s
    else NatToString(n)
  }
}

=== FILE: waypoint_list.dfy ===
/** `UCustomLinkedList`: a `TempLinkedList<AActor*>` with two extra
    accessors. Its `Add`, `GetAt`, `GetCount` and `Clear` forward unchanged to
    the underlying list, so they are `LinkedList.Add` and friends with the
    null pointer as the out-of-range value. */
module CustomLinkedList {
  import opened Base
  import opened LinkedList

  type ActorList = List<Ref>

  /** `GetFirst`: `GetAt(0)`, so null on an empty list. */
  function GetFirst(l: ActorList): (r: Ref)
    requires Valid(l)
    ensures |Contents(l)| > 0 ==> r == Contents(l)[0]
    ensures |Contents(l)| == 0 ==> r == Null
  {
    GetAt(l, 0, Null)
  }

  /** The element after the first occurrence of `x`, wrapping around; null
      when `x` does not occur. */
  function Successor(xs: seq<Ref>, x: Ref): Ref
  {
    if x in xs then xs[(IndexOf(xs, x) + 1) % |xs|] else Null
  }

  /** `GetNext`: scans for the first index holding `current` and returns the
      element after it, wrapping from the last index to index 0; null when
      `current` is not stored. */
  method GetNext(l: ActorList, current: Ref) returns (r: Ref)
    requires Valid(l)
    ensures current !in Contents(l) ==> r == Null
    ensures current in Contents(l) ==>
      r == Contents(l)[(IndexOf(Contents(l), current) + 1) % |Contents(l)|]
    ensures r == Successor(Contents(l), current)
  {
    var count := GetCount(l);
    var i := 0;
    while i < count
      invariant 0 <= i <= count
      invariant forall j :: 0 <= j < i ==> Contents(l)[j] != current
    {
      if GetAt(l, i, Null) == current {
        var nextIndex := CppRem(i + 1, count);
        r := GetAt(l, nextIndex, Null);
        SuccessorAt(Contents(l), current, i);
        return;
      }
      i := i + 1;
    }
    assert current !in Contents(l);
    r := Null;
  }

  /** The successor of the element first found at index `i`. */
  lemma SuccessorAt(xs: seq<Ref>, x: Ref, i: nat)
    requires i < |xs| && xs[i] == x && forall j :: 0 <= j < i ==> xs[j] != x
    ensures x in xs && IndexOf(xs, x) == i
    ensures Successor(xs, x) == xs[(i + 1) % |xs|]
  {
  }

  /** In a one-element list the successor of the element is itself, as
      `(0 + 1) % 1 == 0`. */
  lemma SuccessorSingleton(x: Ref)
    ensures Successor([x], x) == x
  {
  }
}

/** `AWaypointManager`: the editor-filled `Waypoints` array and the linked
    list rebuilt from it when play begins. */
module WaypointManager {
  import opened Base
  import opened LinkedList
  import CustomLinkedList

  datatype Manager = Manager(waypoints: seq<Ref>, list: CustomLinkedList.ActorList)

  /** The non-null entries of the editor array, in order. */
  function NonNull(ws: seq<Ref>): seq<Ref>
  {
    Filter(ws, (p: Ref) => p.Ref?)
  }

  /** The `for (Waypoint : Waypoints) if (Waypoint) Add(Waypoint)` loop. */
  function AddNonNull(l: CustomLinkedList.ActorList, ws: seq<Ref>): (r: CustomLinkedList.ActorList)
    ensures Valid(l) ==> Valid(r)
    ensures Contents(r) == Contents(l) + NonNull(ws)
    decreases |ws|
  {
    if ws == [] then l
    else
      var l' := if ws[0].Ref? then Add(l, ws[0]) else l;
      assert ws == [ws[0]] + ws[1..];
      FilterAppend([ws[0]], ws[1..], (p: Ref) => p.Ref?);
      AddNonNull(l', ws[1..])
  }

  /** `BeginPlay`: clear the list, then add every non-null waypoint. */
  function BeginPlay(m: Manager): (r: Manager)
    ensures Valid(r.list)
    ensures Contents(r.list) == NonNull(m.waypoints)
    ensures r.waypoints == m.waypoints
  {
    Manager(m.waypoints, AddNonNull(Clear(m.list), m.waypoints))
  }

  /** Rebuilding twice gives the same list as rebuilding once. */
  lemma BeginPlayIdempotent(m: Manager)
    ensures BeginPlay(BeginPlay(m)) == BeginPlay(m)
  {
    var once := BeginPlay(m);
    var twice := BeginPlay(once);
    SameElementsSameChain(once.list.head, twice.list.head);
  }

  /** `GetWaypointCount`. */
  function GetWaypointCount(m: Manager): (r: int)
    requires Valid(m.list)
    ensures r == |Contents(m.list)|
  {
    GetCount(m.list)
  }

  /** `GetWaypoint`: `GetAt(Index % GetCount())` with C++ remainder. An empty
      list is a division by zero in the source, so it is excluded here. */
  function GetWaypoint(m: Manager, index: int): (r: Ref)
    requires Valid(m.list) && |Contents(m.list)| > 0
    ensures index >= 0 ==> r == Contents(m.list)[index % |Contents(m.list)|]
    ensures index < 0 && (-index) % |Contents(m.list)| != 0 ==> r == Null
    ensures index < 0 && (-index) % |Contents(m.list)| == 0 ==> r == Contents(m.list)[0]
  {
    GetAt(m.list, CppRem(index, GetCount(m.list)), Null)
  }

  /** After `BeginPlay`, waypoint `i` (non-negative) is the `(i mod n)`-th
      non-null editor entry: indexing is circular. */
  lemma GetWaypointAfterBeginPlay(m: Manager, i: nat)
    requires |NonNull(m.waypoints)| > 0
    ensures GetWaypoint(BeginPlay(m), i) == NonNull(m.waypoints)[i % |NonNull(m.waypoints)|]
  {
  }
}
